=== FILE: README.md ===
# seo_manager analysis core in Dafny

This project models the deterministic core of the seo_manager page analyser. A
page has already been fetched and parsed. From it the analyser derives signals
(headings, keywords, images, link profile, tech stack, schemas, sentiment,
DOM depth), reads the probe results (robots.txt and sitemap, DNS, security
headers, TLS certificate, broken links), scores the page and lists its SEO
issues. Two small routes are modelled with it: the offline fallback of the chat
assistant, and the link harvester behind the link scanner.

Modules, one file each:

- `Base`: `Option`, substring search, ASCII lower-casing, first-occurrence
  dedup (JavaScript's `[...new Set(xs)]`), stable sorting, decimal printing,
  counting.
- `Text`: `\w`/`\s`, `trim`, `split(' ')` and its inverse `join`, `repeat`.
- `PageModel`: the scanner's record (`localData`) and its fetch-failure sentinel.
- `Issues`: the issue record and the rule-table walk shared by both issue
  generators. Issue titles are the enumeration `Title`; `Issues.TitleText`
  gives each its exact text in the source.
- `Scoring`: `calculateScores`, the Lighthouse category rescaling, `generateSummary`.
- `Mechanical`: the eleven rules of `generateMechanicalSuggestions`.
- `Lighthouse`: the nine rules of `extractLighthouseIssues`.
- `Keywords`: word filtering, counting, the top-ten list and densities.
- `Links`: the link profile with its unique-link set.
- `Dom`: `getDomDepth` over an element tree.
- `Content`: headings, images, schema labels, tech stack, body text, sentiment.
- `Probes`: index status, robots.txt and sitemap selection, DNS, security
  headers, TLS days remaining, broken-link classification.
- `Scanner`: assembly of the scanner's record, and the analysis POST handler.
- `Copilot`: the chat route's reply selection.
- `ScanLinks`: the link-scanner route.

Integer and JavaScript semantics are written out:

- `Math.round(1.2 n)` for a natural `n` is `(6n + 2) / 5`.
- Keyword density is kept in tenths of a percent, rounded half up, so the
  test `parseFloat(density) > 5.0` becomes `density10 > 50`.
- TLS days use floor division, which is Dafny's `/` for a positive divisor.
- A string's `length` and `slice` count UTF-16 code units: a character outside
  the Basic Multilingual Plane counts two (`Base.Utf16Length`).
- A missing Lighthouse audit never fires a rule, since `undefined < 0.9` and
  `undefined === 0` are both false.
- An audit whose score is `null` fires every `< 0.9` rule and no `=== 0`
  rule, since `null` compares as 0.

The scanner's record has no `url` field. The POST handler passes that record
to `generateMechanicalSuggestions`, so on that path the HTTPS rule never fires
and every non-empty canonical counts as a mismatch. The model keeps the url
optional and proves both consequences (`Scanner.ScanCallSiteQuirks`).

Two facts about the index status follow from the code:

- The estimated page count is 0 only under a `noindex` robots meta, not for
  every page that is not indexable. A page that is blocked only by a missing
  robots.txt still gets `round(1.2 n)`, or 1 when there are no internal links.
- The sitemap count is always the internal-link count.

## Model

| member | source | states |
|---|---|---|
| Scoring.CalculateScores | src/app/api/analyze/route.ts:521-527 | SEO is 100 less 30, 20 and 15 for a missing title, description and H1, so it lies in [35, 100]; it is 100 exactly when all three are present; the other three scores are 70, 80 and 80 |
| Scoring.CategoryScore | src/app/api/analyze/route.ts:52-55 | a missing category or a null score gives 0; otherwise the result is the nearest integer to 100 times the score, inside [0, 100] for a score in [0, 1] |
| Scoring.GenerateSummary | src/app/api/analyze/route.ts:698-703 | the verdict is decided by the mean of SEO and performance: "Excellent" above 90, "Good" above 70, else "Improvements needed", each as an if-and-only-if |
| Mechanical.MechanicalShape | src/app/api/analyze/route.ts:529-623 | at most eleven issues, in strictly increasing rule order, so no rule contributes twice |
| Mechanical.TitleRuleFires | src/app/api/analyze/route.ts:533-534 | "Missing Title Tag" (SEO, Critical) exactly when the title is empty; "Short Title" (Medium) exactly when it is non-empty and its JavaScript length (UTF-16 units) is below 30 |
| Mechanical.H1RuleFires | src/app/api/analyze/route.ts:536-539 | "Missing H1 Tag" exactly when the first H1 is empty; "Multiple H1 Tags" exactly when it is not and two distinct headings have level 1 |
| Mechanical.LevelFound | src/app/api/analyze/route.ts:537 | the H1 filter count is positive exactly when some heading has the level |
| Mechanical.LevelCountWitnesses | src/app/api/analyze/route.ts:537 | the H1 filter count exceeds one exactly when two distinct headings have the level |
| Mechanical.SkipsCharacterized | src/app/api/analyze/route.ts:542-552 | the hierarchy walk records a skip exactly when some heading is more than one level below the previous heading, the first being compared with H1 |
| Mechanical.SkipsSound | src/app/api/analyze/route.ts:545-551 | every recorded skip is a real heading paired with the level before it, and that heading does skip a level |
| Mechanical.HierarchyRuleFires | src/app/api/analyze/route.ts:542-561 | "Skipped Heading Levels" (Low) is raised exactly when some heading jumps more than one level past its predecessor |
| Mechanical.CanonicalRuleFires | src/app/api/analyze/route.ts:564-569 | "Missing Canonical Tag" exactly when meta tags exist with an empty canonical; "Canonical Mismatch" exactly when the canonical is non-empty and differs from the url or there is no url |
| Mechanical.ThinContentRuleFires | src/app/api/analyze/route.ts:572-574 | "Thin Content" exactly when a word count exists and is below 300; a record without a content block never draws it |
| Mechanical.Stuffed | src/app/api/analyze/route.ts:578 | the stuffed keywords are exactly the entries above 5.0 %, distinct and in list order |
| Mechanical.StuffedNonEmpty | src/app/api/analyze/route.ts:578-579 | the stuffed list is non-empty exactly when some keyword is above 5.0 % |
| Mechanical.StuffingRuleFires | src/app/api/analyze/route.ts:577-588 | "Keyword Stuffing Detected" (Content, High) exactly when some keyword's density is above 5.0 % |
| Mechanical.StuffingNamesKeywords | src/app/api/analyze/route.ts:578-586 | the stuffing issue names exactly the stuffed keywords, in list order, and there is at least one |
| Mechanical.MissingAlt | src/app/api/analyze/route.ts:591 | the images without alt text are exactly those with an empty alt, as many as the list holds images with an empty alt; a one-image list is kept exactly when its alt is empty |
| Mechanical.MissingAltAppend | src/app/api/analyze/route.ts:591 | the filter distributes over concatenation, so the kept images follow the list's order and multiplicity |
| Mechanical.AltTextRuleFires | src/app/api/analyze/route.ts:590-602 | "Missing Alt Text" (Accessibility, Medium) exactly when the image list exists and some image has no alt |
| Mechanical.AltTextListsImages | src/app/api/analyze/route.ts:591-600 | the alt-text issue lists the sources of exactly the images without alt, and its number is the decimal text of how many images have an empty alt |
| Mechanical.WordPressRuleFires | src/app/api/analyze/route.ts:605-607 | "WordPress Optimization" exactly when the tech stack lists WordPress |
| Mechanical.ResourceRulesFire | src/app/api/analyze/route.ts:609-615 | "Missing Sitemap" exactly when no sitemap is known, "Missing Robots.txt" exactly when robots.txt is missing |
| Mechanical.HttpsRuleFires | src/app/api/analyze/route.ts:618-620 | "Not Using HTTPS" exactly when a non-empty url does not start with `https` |
| Mechanical.ExclusiveOutcomes | src/app/api/analyze/route.ts:533-539 | the two outcomes of the title, H1 and canonical if/else-if rules never appear together |
| Mechanical.FailedScanIssues | src/app/api/analyze/route.ts:186-192 | the failure sentinel draws exactly four issues, in order: missing title, missing H1, missing sitemap, missing robots.txt |
| Lighthouse.LighthouseShape | src/app/api/analyze/route.ts:625-696 | at most nine issues, in strictly increasing rule order |
| Lighthouse.RuleFires | src/app/api/analyze/route.ts:630-693 | each rule's issue, with its category and priority, is raised exactly when its audit's score is below 0.9 or exactly 0, as the rule prescribes |
| Lighthouse.AbsentAuditSilent | src/app/api/analyze/route.ts:630 | a rule whose audit is missing never raises its issue |
| Lighthouse.IssueItems | src/app/api/analyze/route.ts:638 | each emitted issue comes from a rule that fired and lists the urls or snippets of that audit's detail items |
| Lighthouse.ItemsOf | src/app/api/analyze/route.ts:684 | an issue lists, item by item, the `url` or the `node.snippet` of the audit's detail items, and nothing when the audit has none |
| Lighthouse.EmptyReport | src/app/api/analyze/route.ts:625-696 | a report with no audits yields no issues |
| Keywords.LongWords | src/app/api/analyze/route.ts:278 | the kept words are exactly the pieces longer than three characters, each with its multiplicity |
| Keywords.Density10 | src/app/api/analyze/route.ts:293 | the density in tenths of a percent is `1000 count / max(1, n)` rounded half up |
| Keywords.TalliesFacts | src/app/api/analyze/route.ts:290-291 | the count table has one distinct entry per word, holding that word's number of occurrences |
| Keywords.SortedTallies | src/app/api/analyze/route.ts:292 | after the descending sort, counts do not increase, words stay distinct, and every word is still present |
| Keywords.TopTenComplete | src/app/api/analyze/route.ts:292 | a word left out of the top list implies the list is full and the word's count is at most the tenth |
| Keywords.TopKeywords | src/app/api/analyze/route.ts:290-293 | at most ten entries with non-increasing counts, each a distinct word longer than three characters whose count is its number of occurrences; any word left out counts no more than the tenth; densities are taken against the number of kept words |
| Keywords.StuffingThreshold | src/app/api/analyze/route.ts:578 | a density above 5.0 % means the word makes up at least 5.05 % of the kept words |
| Links.Candidates | src/app/api/analyze/route.ts:359-364 | the candidates are exactly the eligible anchors whose href resolves; one anchor gives its candidate or nothing |
| Links.CandidatesAppend | src/app/api/analyze/route.ts:359-364 | the candidate list of two anchor lists is the concatenation of theirs, so anchor order and repeats are kept |
| Links.ProfileLinks | src/app/api/analyze/route.ts:356-375 | the unique links are the first-occurrence dedup of the resolved links; internal + external = dofollow + nofollow = their number; internal counts those containing the host name; nofollow counts those whose first anchor has a nofollow rel |
| Links.WalkLinks | src/app/api/analyze/route.ts:359-375 | the pass over the anchors keeps the profile invariant at every step |
| Links.StepKeeps | src/app/api/analyze/route.ts:365-372 | one anchor either leaves the walk unchanged (link already seen) or appends its link and counts it once |
| Links.IgnoredAnchor | src/app/api/analyze/route.ts:362-364 | an ineligible anchor, or one whose href does not resolve, changes nothing |
| Links.RepeatedAnchor | src/app/api/analyze/route.ts:365 | an anchor whose resolved link an earlier anchor already produced changes nothing |
| Dom.DomDepth | src/app/api/analyze/route.ts:462-474 | the depth is at least every element's number of non-root ancestors and is attained by some element, or is 0 |
| Dom.DomDepthZero | src/app/api/analyze/route.ts:462-474 | the depth is 0 exactly when every element sits directly under the root |
| Content.ExtractHeadings | src/app/api/analyze/route.ts:346-353 | one heading per `h1`-`h6` element, in order, each the element's heading as `Content.HeadingOf` states it |
| Content.HeadingOf | src/app/api/analyze/route.ts:350 | the level is kept; the text is the longest prefix of the trimmed element text whose UTF-16 length is at most 60 (the next character would pass 60), the whole text when it fits |
| Content.AllImages | src/app/api/analyze/route.ts:257-269 | the images are exactly the elements with a non-empty `src`, kept verbatim when it starts with `http` and otherwise resolved against the page (dropped when that fails), with a missing alt read as empty; one element gives its image or nothing |
| Content.AllImagesAppend | src/app/api/analyze/route.ts:257-269 | the image list of two element lists is the concatenation of theirs, so document order and repeats are kept |
| Content.ExtractImages | src/app/api/analyze/route.ts:430 | the returned images are the first twenty, all of them when there are at most twenty |
| Content.ImageAlt | src/app/api/analyze/route.ts:266 | an image's alt is empty exactly when the attribute is missing or empty |
| Content.SchemaLabel | src/app/api/analyze/route.ts:207-211 | an object's non-empty string `@type` is the label, a truthy non-string `@type` gives its JSON text, a missing or falsy one gives `Unknown`; an array gives `Graph Array`, a scalar `Unknown`; an unparsable or null script gives nothing |
| Content.SchemaLabelsAppend | src/app/api/analyze/route.ts:205-212 | the labels of two script lists are the concatenation of theirs, so document order and repeats are kept |
| Content.SchemasListed | src/app/api/analyze/route.ts:428 | a label is listed exactly when some script yields it, without duplicates |
| Content.Markers | src/app/api/analyze/route.ts:323-325 | WordPress, React and Bootstrap are present exactly when the html contains `wp-content`, `react` and `bootstrap`; nothing else is present, and they come in that order |
| Content.RawTech | src/app/api/analyze/route.ts:321-325 | the truthy server header comes first; each marker is present exactly when the html contains it or the header names it; the array holds nothing other than the header and the three markers |
| Content.TechStack | src/app/api/analyze/route.ts:321-325 | WordPress, React and Bootstrap are listed exactly when the html contains their marker (or the server header names them); the stack holds nothing other than the truthy server header and those three; the header comes first; every other entry follows the push order WordPress, React, Bootstrap; there are no duplicates |
| Content.BodyText | src/app/api/analyze/route.ts:276 | text of 50 UTF-16 units or more is kept; shorter text becomes the description, a space and the title, three times over |
| Content.StripNonWord | src/app/api/analyze/route.ts:278 | no longer than the input, only word and space characters remain, and a single character stays exactly when it is one |
| Content.StripNonWordCounts | src/app/api/analyze/route.ts:278 | each word or space character keeps its number of occurrences; every other character is gone |
| Content.StripNonWordAppend | src/app/api/analyze/route.ts:278 | stripping a concatenation strips each part, so the kept characters stay in order |
| Content.Pieces | src/app/api/analyze/route.ts:278 | the pieces contain no space and join back to the stripped lower-cased text |
| Content.PieceLengths | src/app/api/analyze/route.ts:278 | a piece's JavaScript length equals its number of characters, so the `length > 3` filter counts characters |
| Content.AnalyzeSentiment | src/app/api/analyze/route.ts:835-853 | score is positive-list tokens minus negative-list tokens, bounded by the token count; `keywords` is the token count; the tone is Positive above 5, Negative below -2, otherwise Neutral |
| Content.ListsDisjoint | src/app/api/analyze/route.ts:837-838 | no word is in both sentiment lists |
| Text.Trim | src/app/api/analyze/route.ts:350 | the result is an infix of the input that neither starts nor ends with white space, and everything cut off is white space |
| Text.Split | src/app/api/analyze/route.ts:278 | the pieces contain no separator and join back to the input |
| Text.SplitJoin | src/app/api/analyze/route.ts:278 | splitting undoes joining pieces free of the separator |
| Text.RepeatFront | src/app/api/analyze/route.ts:276 | `repeat` can peel a copy from the front as well as the back |
| Base.Utf16Length | src/app/api/analyze/route.ts:534 | a string's UTF-16 length lies between its number of characters and twice that, and equals it inside the Basic Multilingual Plane |
| Base.Utf16Take | src/app/api/analyze/route.ts:350 | `slice(0, n)` is a prefix of UTF-16 length at most n that the next character would take past n; the whole string when it fits; the plain n-character prefix inside the Basic Multilingual Plane |
| Probes.ComputeIndexStatus | src/app/api/analyze/route.ts:74-83 | indexable exactly without `noindex` and with robots.txt present; blocking factor by precedence noindex, missing robots.txt, none; estimated pages 0 under noindex, else round(1.2 internal) or 1; sitemap count equals internal |
| Probes.EstimateZeroOnlyUnderNoIndex | src/app/api/analyze/route.ts:76-81 | the estimate is 0 exactly under a `noindex` robots meta |
| Probes.RoundSixFifths | src/app/api/analyze/route.ts:76 | the result is the nearest integer to 1.2 n |
| Probes.LocCountPositive | src/app/api/analyze/route.ts:792-793 | a sitemap body has a positive `<loc>` count exactly when it contains `<loc>` |
| Probes.ReadRobots | src/app/api/analyze/route.ts:763-778 | robots.txt is Missing exactly when the fetch failed, Blocked (All) exactly for a 200 body the blocking test accepts; the declared sitemap is read from a 200 body and from nothing else |
| Probes.SitemapCandidates | src/app/api/analyze/route.ts:781-788 | the candidates are the first-occurrence dedup of the non-empty entries of the declared sitemap followed by the three fallbacks, in that order; the declared one comes first |
| Probes.NonEmptyAppend | src/app/api/analyze/route.ts:786 | `filter(Boolean)` of a concatenation is the concatenation of the filtered parts, so order is kept |
| Probes.FirstAccepted | src/app/api/analyze/route.ts:788-800 | the chosen sitemap is the first candidate that answers 200 with a sitemap body and a positive `<loc>` count, and nothing when no candidate does |
| Probes.AnalyzeSitemapAndRobots | src/app/api/analyze/route.ts:752-803 | a positive page count exactly when some candidate is accepted, and then url and count are exactly what `Probes.FirstAccepted` picks; otherwise the declared sitemap url stays |
| Probes.ResourceFlags | src/app/api/analyze/route.ts:328-332 | robots.txt is reported present exactly when its request succeeded; a sitemap exactly when robots.txt declared a non-empty one or some candidate was accepted |
| Probes.GetDnsDetails | src/app/api/analyze/route.ts:806-833 | MX records are a permutation of the answer sorted by priority; TXT records are flattened; SPF and DMARC are flagged exactly when some record contains their marker |
| Probes.AuditSecurityHeaders | src/app/api/analyze/route.ts:488-507 | header flags are reported exactly when the request was answered with a 2xx status, each set exactly when its header is present; secure cookies imply at least one cookie and mean some cookie mentions `secure` in any case; the server name is never empty; a request that threw or was answered outside 2xx gives zeros and Unknown |
| Probes.DaysRemaining | src/app/api/analyze/route.ts:730 | whole days, rounded down, between now and the expiry; negative exactly when the expiry is already past at `now` |
| Probes.SslOf | src/app/api/analyze/route.ts:725-731 | valid exactly when the delivered certificate has an expiry; then the days remaining are the whole days left, rounded down; the issuer is O, else CN, else Unknown, never empty |
| Probes.GetSecurityInfo | src/app/api/analyze/route.ts:706-749 | without a resolved address everything stays Unknown; otherwise the ip and certificate come from the probes, and HSTS and x-frame (frame options or CSP) are read from the security probe's own HEAD answer at any status |
| Probes.SecurityFlagsAgreeOn2xx | src/app/api/analyze/route.ts:488-507 | on a 2xx HEAD answer the security probe's HSTS and x-frame flags agree with the header audit's flags |
| Probes.SecurityFlagsDisagreeOn405 | src/app/api/analyze/route.ts:490 | a 405 answer carrying HSTS is reported with HSTS by the security probe and without header flags by the audit, which rejects that status |
| Probes.CheckBrokenLinks | src/app/api/analyze/route.ts:476-486 | the broken links are exactly the first five unique links whose probe answered with status 400 or more; network errors do not count |
| Scanner.Extract | src/app/api/analyze/route.ts:256-293 | at most twenty images; the word count is the number of kept words; the keywords are the top list with densities against that count; internal links count the distinct resolved links containing the host name |
| Scanner.Scan | src/app/api/analyze/route.ts:186-192 | the record never has a url, and lacks a word count exactly when the fetch failed |
| Scanner.StuffingByCount | src/app/api/analyze/route.ts:293 | with densities against n words, stuffing is raised exactly when some keyword makes up at least 5.05 % of them |
| Scanner.ScanStuffing | src/app/api/analyze/route.ts:577-588 | on the scanner's record, stuffing is raised exactly when some keyword makes up at least 5.05 % of the page's kept words |
| Scanner.ScanCallSiteQuirks | src/app/api/analyze/route.ts:65 | a record without url never draws "Not Using HTTPS", and draws "Canonical Mismatch" for every non-empty canonical |
| Scanner.ScanAltText | src/app/api/analyze/route.ts:430 | the alt-text issue on the scanner's record lists at most twenty sources |
| Scanner.Analyze | src/app/api/analyze/route.ts:29-141 | 400 exactly for a missing or empty url; 500 exactly when a report without audits is sent; otherwise the score is the SEO score, the index status comes from the scanner's record, and a generated summary wins |
| Scanner.ExternalMode | src/app/api/analyze/route.ts:50-62 | a report with categories and audits decides the scores and the issues (at most nine), and the summary follows its SEO and performance scores |
| Scanner.MechanicalMode | src/app/api/analyze/route.ts:63-67 | otherwise the mechanical scores (SEO in [35, 100]) and issues (at most eleven) are used, and without a report the summary is the local-scan sentence |
| Scanner.LocalAnalysisNeverHttps | src/app/api/analyze/route.ts:65 | the scanner's record analysed without a report never draws the HTTPS issue |
| Scanner.FailedFetchAnalysis | src/app/api/analyze/route.ts:186-192 | a page that could not be fetched scores 35, draws four issues and is reported not indexable because robots.txt is missing |
| Scanner.TitleOverride | src/app/api/analyze/route.ts:92 | a non-empty document-title detail in the report replaces the scanned title, otherwise the scanned title stays |
| Copilot.Classify | src/app/api/copilot/route.ts:51-59 | speed words win, then score, then title, then the general reply, each as an if-and-only-if |
| Copilot.Reply | src/app/api/copilot/route.ts:10-61 | the generated reply is returned only with a key, site data and a successful generation; every other path returns the fallback, never an error |
| Copilot.FallbackPrecedence | src/app/api/copilot/route.ts:49-59 | a message mentioning speed gets the speed reply whatever else it mentions; a missing message gets the general reply |
| Copilot.ClassifyIgnoresCase | src/app/api/copilot/route.ts:49-52 | any piece of the message whose lower-cased form mentions speed, the score or the title makes the lower-cased message mention it, so a speed word in any case gets the speed reply |
| Copilot.ShoutedSpeed | src/app/api/copilot/route.ts:49-52 | a message containing `SPEED` gets the speed reply |
| Copilot.FallbackNeverInitial | src/app/api/copilot/route.ts:48-59 | the initial "trouble connecting" text is never the reply |
| Copilot.RepliesDifferFromInitial | src/app/api/copilot/route.ts:48-58 | each of the four replies differs from the initial text |
| Copilot.SpeedReplyEmbeds | src/app/api/copilot/route.ts:52 | the speed reply contains the image count and the performance score |
| Copilot.ScoreReplyEmbeds | src/app/api/copilot/route.ts:54 | the score reply contains the SEO score |
| Copilot.TitleReplyEmbeds | src/app/api/copilot/route.ts:56 | the title reply contains the current title |
| ScanLinks.Harvest | src/app/api/scan-links/route.ts:17-27 | the harvested links are exactly the kept hrefs: `http` hrefs verbatim, `/` hrefs resolved, others dropped |
| ScanLinks.HarvestAppend | src/app/api/scan-links/route.ts:17-27 | harvesting is a per-anchor filter: two anchor lists harvest to the concatenation |
| ScanLinks.HarvestOne | src/app/api/scan-links/route.ts:19-26 | an `http` href is kept verbatim; a missing href or one starting with neither `http` nor `/` is dropped |
| ScanLinks.ScanLinks | src/app/api/scan-links/route.ts:30-35 | a failed fetch gives status 500; otherwise the links are distinct, number min(distinct, 50), and are a prefix of the deduplicated list |
| ScanLinks.ScanLinksContents | src/app/api/scan-links/route.ts:30 | every output link was harvested, in first-occurrence order, and all harvested links appear when there are at most 50 distinct ones |
| Base.Dedup | src/app/api/analyze/route.ts:423 | the result keeps the first occurrence of each element, in order: it has no duplicates, holds exactly the input's elements, and each element's first index in the input increases along it |
| Base.SortBy | src/app/api/analyze/route.ts:818 | the result is sorted by the key and is a permutation of the input |
| Content.Schemas | src/app/api/analyze/route.ts:428 | the schema list is the first-occurrence dedup of the scripts' labels |
| Mechanical.SameRuleExclusive | src/app/api/analyze/route.ts:529-623 | two different titles produced by the same rule never both appear |
| Probes.Flatten | src/app/api/analyze/route.ts:823 | a record is in the flattened TXT list exactly when it is in one of the record groups; one group flattens to itself |
| Probes.FlattenAppend | src/app/api/analyze/route.ts:823 | flattening two group lists gives the concatenation of their flattenings, so order and repeats are kept |
| Base.NatToStringRoundTrip | src/app/api/analyze/route.ts:597 | the printed count reads back as the number |

## Left out

- Network and OS I/O (page fetch, robots and sitemap downloads, DNS, TLS socket, HEAD requests, Date.now): their results are inputs.
- HTML parsing and WHATWG URL resolution: a page arrives as the selectors' values; URL resolution is a partial function parameter.
- JSON.parse of ld+json scripts: a script arrives already classified as unparsable, null, array, scalar or object.
- The robots.txt "Blocked (All)" regex and the `Sitemap:` extraction: predicates given as parameters.
- Gemini calls and prompts: the generated summary and the generated chat reply are optional inputs.
- Flesch readability and the text-to-HTML ratio: floating point, not read by the scores or the rules.
- The `toFixed` strings for the estimated LCP and the image savings: display text. The keyword density's `toFixed(1)` is modelled on the exact fraction (`Keywords.Density10`), since the stuffing rule reads it back with `parseFloat`.
- Keywords.Density10: rounds the exact fraction half up, while the source rounds the binary double `(count / n) * 100`. At an exact tie in the hundredths the double often lies just below it, and the source then rounds down: 23 of 80 words gives `28.749999999999996`, printed "28.7", where the model has 288 tenths. The stuffing test is unaffected: at its boundary (2000 count = 101 n) the double is `5.050000000000001`, which prints "5.1", as the model's 51 tenths do.
- Core web vitals and load time: timing and display strings.
- Social links, hreflangs, ogImage, favicon, imageAnalysis, assets and the plagiarism sample: collected but not read by the scores, the rules or the index status.
- The first link loop and the first heading list in the scanner: their results are never returned.
- The security probe's result in the POST response: it is computed (`Probes.GetSecurityInfo`) but only copied into the response.
- Concurrency of Promise.all, and the completion order of the broken-link list: the broken links are a multiset.
- Keyword tie order: JavaScript puts integer-like keys first; the model keeps first-occurrence order, and no contract depends on the order of equal counts.
- Unicode lower-casing: `toLowerCase` is modelled for ASCII letters only.
- Copilot request bodies whose `message` is not a string.
- Lighthouse scores are reals with no range restriction; `null` is `None`. An audit whose `score` field is absent (`undefined`, which fires no rule) is not distinguished from a `null` score.
- Lighthouse detail items without a `url` or a `node.snippet`: JavaScript lists `undefined` for them; the model gives every item both strings.
- An analysis request body that is not valid JSON: `request.json()` throws and the handler answers 500; the model takes the body already parsed.
- Keywords.TalliesFacts: the count table of a plain JavaScript object is modelled as a true map. A page word `constructor` starts from the inherited function, so its count becomes a string and its density `NaN`; a word `__proto__` is never counted. The model counts both like any word.
- Keywords.TopKeywords: inherits the same two words' JavaScript behaviour, which the model does not reproduce.
- Content.HeadingOf: when the 60-unit cut falls inside a surrogate pair, JavaScript keeps the lone high surrogate; the model drops the whole character.
- Probes.SslOf: an expiry date JavaScript cannot parse gives `NaN` days; the model takes the expiry as an integer time. The certificate is only ever one the TLS handshake verified (Node's default `rejectUnauthorized`), so an expired or untrusted certificate reaches the route as no certificate, with `valid: false`, `daysRemaining: 0` and issuer Unknown; negative days occur only when the certificate expires between the handshake and `Date.now()`.
- Issue `desc` and `fix` prose: an issue keeps only the values interpolated into its text.

=== FILE: base.dfy ===
/** Shared vocabulary of the model: optional values, the three string tests the
    source relies on (`startsWith`, `includes`, ASCII `toLowerCase`), JavaScript's
    insertion-ordered `new Set(...)` as `Dedup`, the engine's stable
    `Array.prototype.sort` as `SortBy`, `slice(0, n)` as `Take`, and decimal
    rendering of integers for the places where a number is interpolated into text. */
module Base {

  /** A value that may be missing: `undefined`, `null` or a thrown-and-caught
      failure in the source. */
  datatype Option<T> = None | Some(value: T) {
    function GetOr(default: T): T {
      match this
      case Some(v) => v
      case None => default
    }
  }

  /** `s.startsWith(p)` */
  predicate StartsWith(s: string, p: string) {
    |p| <= |s| && s[..|p|] == p
  }

  /** `s.includes(p)`: `p` occurs at some position of `s`. */
  predicate Contains(s: string, p: string) {
    exists i | 0 <= i <= |s| - |p| :: OccursAt(s, p, i)
  }

  predicate OccursAt(s: string, p: string, i: nat) {
    i + |p| <= |s| && s[i..i + |p|] == p
  }

  /** A string is truthy in JavaScript exactly when it is non-empty. */
  function OrDefault(s: Option<string>, default: string): string {
    if s.Some? && s.value != "" then s.value else default
  }

  function LowerChar(c: char): char {
    if 'A' <= c <= 'Z' then (c as int + 32) as char else c
  }

  /** `toLowerCase`, restricted to ASCII letters. */
  function ToLower(s: string): string {
    seq(|s|, i requires 0 <= i < |s| => LowerChar(s[i]))
  }

  /** `slice(0, n)` */
  function Take<T>(s: seq<T>, n: nat): (r: seq<T>)
    ensures |r| == (if |s| <= n then |s| else n) && r == s[..|r|]
  {
    if |s| <= n then s else s[..n]
  }

  /** The UTF-16 code units of a character: two for one outside the Basic
      Multilingual Plane, which JavaScript stores as a surrogate pair. */
  function Utf16Units(c: char): nat {
    if c as int >= 0x1_0000 then 2 else 1
  }

  predicate InBmp(s: string) {
    forall i :: 0 <= i < |s| ==> s[i] as int < 0x1_0000
  }

  /** `s.length` in JavaScript. */
  function Utf16Length(s: string): (n: nat)
    ensures |s| <= n <= 2 * |s|
    ensures InBmp(s) ==> n == |s|
  {
    if |s| == 0 then 0 else Utf16Units(s[0]) + Utf16Length(s[1..])
  }

  /** `s.slice(0, n)`: the longest prefix of at most `n` UTF-16 units. A
      surrogate pair that straddles position `n` is left out whole. */
  function Utf16Take(s: string, n: nat): (r: string)
    ensures |r| <= |s| && r == s[..|r|]
    ensures Utf16Length(r) <= n
    ensures |r| < |s| ==> Utf16Length(r) + Utf16Units(s[|r|]) > n
    ensures Utf16Length(s) <= n ==> r == s
    ensures InBmp(s) ==> r == Take(s, n)
  {
    if |s| == 0 || Utf16Units(s[0]) > n then ""
    else
      var t := Utf16Take(s[1..], n - Utf16Units(s[0]));
      assert [s[0]] + s[1..][..|t|] == s[..|t| + 1];
      assert ([s[0]] + t)[1..] == t;
      [s[0]] + t
  }

  predicate NoDups<T(==)>(s: seq<T>) {
    forall i, j :: 0 <= i < j < |s| ==> s[i] != s[j]
  }

  /** Position of the first occurrence of `x` in `s`. */
  function FirstIndex<T(==)>(s: seq<T>, x: T): (i: nat)
    requires x in s
    ensures i < |s| && s[i] == x && x !in s[..i]
  {
    if s[0] == x then 0
    else
      var j := FirstIndex(s[1..], x);
      assert s[..j + 1] == [s[0]] + s[1..][..j];
      j + 1
  }

  lemma FirstIndexOfPrefix<T>(s: seq<T>, n: nat, x: T)
    requires n <= |s| && x in s[..n]
    ensures FirstIndex(s[..n], x) == FirstIndex(s, x)
  {
    var a, b := FirstIndex(s[..n], x), FirstIndex(s, x);
    assert s[..n][..a] == s[..a];
    assert forall k :: 0 <= k < a ==> s[k] != x by {
      forall k | 0 <= k < a ensures s[k] != x {
        assert s[..a][k] == s[k];
      }
    }
    assert forall k :: 0 <= k < b ==> s[k] != x by {
      forall k | 0 <= k < b ensures s[k] != x {
        assert s[..b][k] == s[k];
      }
    }
  }

  /** A duplicate-free sequence holds each value at most once. */
  lemma {:induction false} NoDupsCount<T>(s: seq<T>, x: T)
    requires NoDups(s)
    ensures multiset(s)[x] <= 1
  {
    if |s| > 0 {
      assert s == [s[0]] + s[1..];
      NoDupsCount(s[1..], x);
      if s[0] == x {
        assert x !in s[1..];
      }
    }
  }

  /** Being duplicate-free survives any permutation. */
  lemma NoDupsPerm<T>(a: seq<T>, b: seq<T>)
    requires NoDups(a) && multiset(a) == multiset(b)
    ensures NoDups(b)
  {
    forall i, j | 0 <= i < j < |b| ensures b[i] != b[j] {
      NoDupsCount(a, b[i]);
      assert b == b[..j] + b[j..];
      assert b[..j][i] == b[i];
      assert b[j..][0] == b[j];
    }
  }

  /** `r` lists the distinct elements of `s`, each once, in the order of their
      first occurrence in `s`. This determines `r` completely. */
  ghost predicate IsDedupOf<T>(r: seq<T>, s: seq<T>) {
    && NoDups(r)
    && (forall i :: 0 <= i < |r| ==> r[i] in s)
    && (forall i :: 0 <= i < |s| ==> s[i] in r)
    && (forall i, j :: 0 <= i < j < |r| ==> FirstIndex(s, r[i]) < FirstIndex(s, r[j]))
  }

  lemma DedupExtend<T>(s: seq<T>, p: seq<T>)
    requires |s| > 0 && IsDedupOf(p, s[..|s| - 1])
    ensures s[|s| - 1] in p ==> IsDedupOf(p, s)
    ensures s[|s| - 1] !in p ==> IsDedupOf(p + [s[|s| - 1]], s)
  {
    var n := |s| - 1;
    assert s == s[..n] + [s[n]];
    forall i | 0 <= i < |p| ensures FirstIndex(s[..n], p[i]) == FirstIndex(s, p[i]) {
      FirstIndexOfPrefix(s, n, p[i]);
    }
    if s[n] !in p {
      var r := p + [s[n]];
      assert s[n] !in s[..n];
      assert FirstIndex(s, s[n]) == n;
      forall i | 0 <= i < |r| ensures r[i] in s {
        if i < |p| { assert r[i] in s[..n]; }
      }
      forall i | 0 <= i < |s| ensures s[i] in r {
        if i < n { assert s[..n][i] == s[i]; }
      }
    } else {
      forall i | 0 <= i < |s| ensures s[i] in p {
        if i < n { assert s[..n][i] == s[i]; }
      }
    }
  }

  /** `Array.from(new Set(s))`: later occurrences of an element are dropped. */
  function Dedup<T(==)>(s: seq<T>): (r: seq<T>)
    ensures IsDedupOf(r, s)
    decreases |s|
  {
    if |s| == 0 then []
    else
      var p := Dedup(s[..|s| - 1]);
      DedupExtend(s, p);
      if s[|s| - 1] in p then p else p + [s[|s| - 1]]
  }

  /** A duplicate-free sequence whose elements all occur in `s` is no longer
      than `s`. */
  lemma NoDupsShorter<T>(r: seq<T>, s: seq<T>)
    requires NoDups(r) && forall i :: 0 <= i < |r| ==> r[i] in s
    ensures |r| <= |s|
  {
    var rs := set i | 0 <= i < |r| :: r[i];
    var ss := set i | 0 <= i < |s| :: s[i];
    assert rs <= ss;
    SubsetCard(rs, ss);
    SetOfDistinct(r);
    SetOfAtMost(s);
  }

  lemma SubsetCard<T>(a: set<T>, b: set<T>)
    requires a <= b
    ensures |a| <= |b|
  {
    if a != {} {
      var x :| x in a;
      SubsetCard(a - {x}, b - {x});
    }
  }

  lemma {:induction false} SetOfDistinct<T>(r: seq<T>)
    requires NoDups(r)
    ensures |set i | 0 <= i < |r| :: r[i]| == |r|
  {
    if |r| > 0 {
      var n := |r| - 1;
      assert NoDups(r[..n]);
      SetOfDistinct(r[..n]);
      var a := set i | 0 <= i < n :: r[..n][i];
      assert (set i | 0 <= i < |r| :: r[i]) == a + {r[n]};
      assert r[n] !in a;
    }
  }

  lemma {:induction false} SetOfAtMost<T>(s: seq<T>)
    ensures |set i | 0 <= i < |s| :: s[i]| <= |s|
  {
    if |s| > 0 {
      var n := |s| - 1;
      SetOfAtMost(s[..n]);
      var a := set i | 0 <= i < n :: s[..n][i];
      assert (set i | 0 <= i < |s| :: s[i]) == a + {s[n]};
    }
  }

  /** Deduplication keeps exactly the values of the sequence. */
  lemma DedupMembers<T>(s: seq<T>)
    ensures forall x :: x in Dedup(s) <==> x in s
  {
    var r := Dedup(s);
    forall x | x in s ensures x in r {
      var i :| 0 <= i < |s| && s[i] == x;
    }
    forall x | x in r ensures x in s {
      var i :| 0 <= i < |r| && r[i] == x;
    }
  }

  /** The first element of a sequence leads its deduplication. */
  lemma DedupHead<T>(s: seq<T>)
    requires |s| > 0
    ensures |Dedup(s)| > 0 && Dedup(s)[0] == s[0]
  {
    var r := Dedup(s);
    assert s[0] in r;
    var k :| 0 <= k < |r| && r[k] == s[0];
    assert FirstIndex(s, s[0]) == 0;
  }

  ghost predicate SortedBy<T>(s: seq<T>, key: T -> int) {
    forall i, j :: 0 <= i < j < |s| ==> key(s[i]) <= key(s[j])
  }

  /** Inserts `x` in front of the first element whose key is not smaller, so
      that `x` stays ahead of the equal-keyed elements that follow it. */
  function InsertBy<T>(x: T, s: seq<T>, key: T -> int): (r: seq<T>)
    requires SortedBy(s, key)
    ensures SortedBy(r, key)
    ensures multiset(r) == multiset(s) + multiset{x}
  {
    if |s| == 0 || key(x) <= key(s[0]) then [x] + s
    else
      var t := InsertBy(x, s[1..], key);
      assert s == [s[0]] + s[1..];
      ConsSorted(s[0], t, s[1..], x, key);
      [s[0]] + t
  }

  /** An element no greater than the keys of `rest` and of `x` can head any
      sorted arrangement of them. */
  lemma ConsSorted<T>(y: T, t: seq<T>, rest: seq<T>, x: T, key: T -> int)
    requires SortedBy(t, key) && multiset(t) == multiset(rest) + multiset{x}
    requires key(y) < key(x) && forall k :: 0 <= k < |rest| ==> key(y) <= key(rest[k])
    ensures SortedBy([y] + t, key)
  {
    forall k | 0 <= k < |t| ensures key(y) <= key(t[k]) {
      assert t[k] in multiset(t);
      if t[k] != x {
        assert t[k] in multiset(rest);
      }
    }
    var r := [y] + t;
    forall i, j | 0 <= i < j < |r| ensures key(r[i]) <= key(r[j]) {
      assert r[j] == t[j - 1];
      if i > 0 { assert r[i] == t[i - 1]; }
    }
  }

  /** A stable ascending sort by an integer key: the comparator
      `(a, b) => key(a) - key(b)`. */
  function SortBy<T>(s: seq<T>, key: T -> int): (r: seq<T>)
    ensures SortedBy(r, key)
    ensures multiset(r) == multiset(s)
  {
    if |s| == 0 then []
    else
      assert s == [s[0]] + s[1..];
      InsertBy(s[0], SortBy(s[1..], key), key)
  }

  function DigitChar(d: nat): char
    requires d < 10
  {
    "0123456789"[d]
  }

  predicate AllDigits(s: string) {
    forall i :: 0 <= i < |s| ==> '0' <= s[i] <= '9'
  }

  /** Decimal value of a string of digits (`parseInt(s, 10)` on digits). */
  function DigitsValue(s: string): nat
    requires AllDigits(s)
  {
    if |s| == 0 then 0
    else DigitsValue(s[..|s| - 1]) * 10 + (s[|s| - 1] as int - '0' as int)
  }

  /** `String(n)` for a non-negative integer. */
  function NatToString(n: nat): (r: string)
    ensures |r| >= 1 && AllDigits(r)
  {
    if n < 10 then [DigitChar(n)] else NatToString(n / 10) + [DigitChar(n % 10)]
  }

  /** The rendering is read back as the same number. */
  lemma {:induction false} NatToStringRoundTrip(n: nat)
    ensures DigitsValue(NatToString(n)) == n
  {
    if n >= 10 {
      var s := NatToString(n);
      assert s[..|s| - 1] == NatToString(n / 10);
      NatToStringRoundTrip(n / 10);
    }
  }

  /** `String(i)` for an integer. */
  function IntToString(i: int): string {
    if i < 0 then "-" + NatToString(-i) else NatToString(i)
  }

  /** Number of elements of `s` that satisfy `p`. */
  function CountIf<T>(s: seq<T>, p: T -> bool): (n: nat)
    ensures n <= |s|
  {
    if |s| == 0 then 0
    else CountIf(s[..|s| - 1], p) + (if p(s[|s| - 1]) then 1 else 0)
  }

  /** Counting depends only on the verdicts on the elements counted. */
  lemma {:induction false} CountIfSame<T>(s: seq<T>, p: T -> bool, q: T -> bool)
    requires forall i :: 0 <= i < |s| ==> p(s[i]) == q(s[i])
    ensures CountIf(s, p) == CountIf(s, q)
  {
    if |s| > 0 {
      CountIfSame(s[..|s| - 1], p, q);
    }
  }

  lemma CountIfSnoc<T>(s: seq<T>, x: T, p: T -> bool)
    ensures CountIf(s + [x], p) == CountIf(s, p) + (if p(x) then 1 else 0)
  {
    assert (s + [x])[..|s|] == s;
  }
}

=== FILE: content.dfy ===
/** The signal extractors of the page scanner (`runUltimateScanner`,
    src/app/api/analyze/route.ts:166-458) over an already parsed page: the
    heading list, the image list, the JSON-LD schema labels, the technology
    guesses, the word pipeline that feeds keyword counting, and the dictionary
    sentiment of the body text.

    Each element is given by the attributes and text the source reads from it.
    URL resolution (`new URL(src, url).href`) is the parameter `resolve`; `None`
    is a thrown resolution error. */
module Content {
  import opened Base
  import opened Text
  import opened PageModel

  // ---- heading list (346-353) ----

  /** An `h1`-`h6` element: its level and its raw text content. */
  datatype HeadingElem = HeadingElem(level: nat, text: string)

  const HeadingTextLimit: nat := 60

  /** `text().trim().slice(0, 60)`, counted in UTF-16 units: the longest
      prefix of the trimmed text that fits in 60 units. */
  function HeadingOf(e: HeadingElem): (h: Heading)
    ensures h.level == e.level
    ensures Utf16Length(h.text) <= HeadingTextLimit
    ensures |h.text| <= |Trim(e.text)| && h.text == Trim(e.text)[..|h.text|]
    ensures |h.text| < |Trim(e.text)| ==> Utf16Length(h.text) + Utf16Units(Trim(e.text)[|h.text|]) > HeadingTextLimit
    ensures Utf16Length(Trim(e.text)) <= HeadingTextLimit ==> h.text == Trim(e.text)
  {
    Heading(e.level, Utf16Take(Trim(e.text), HeadingTextLimit))
  }

  function ExtractHeadings(es: seq<HeadingElem>): (hs: seq<Heading>)
    ensures |hs| == |es| && forall i :: 0 <= i < |hs| ==> hs[i] == HeadingOf(es[i])
  {
    seq(|es|, i requires 0 <= i < |es| => HeadingOf(es[i]))
  }

  // ---- image list (257-269, 430) ----

  /** An `img` element: its `src` and `alt` attributes, if present. */
  datatype ImgElem = ImgElem(src: Option<string>, alt: Option<string>)

  const ImageLimit: nat := 20

  /** The image an element contributes: a `src` starting with `http` verbatim,
      any other resolved against the page (skipped if that throws); no `src`, no
      image. A missing alt becomes the empty string. */
  function ImageOf(e: ImgElem, resolve: string -> Option<string>): Option<Image> {
    if e.src.None? || e.src.value == "" then None
    else if StartsWith(e.src.value, "http") then Some(Image(e.src.value, e.alt.GetOr("")))
    else if resolve(e.src.value).Some? then Some(Image(resolve(e.src.value).value, e.alt.GetOr("")))
    else None
  }

  /** The `images` array built by the `each` loop, in document order. */
  function AllImages(es: seq<ImgElem>, resolve: string -> Option<string>): (r: seq<Image>)
    ensures |r| <= |es|
    ensures forall i :: 0 <= i < |r| ==> exists j :: 0 <= j < |es| && ImageOf(es[j], resolve) == Some(r[i])
    ensures forall j :: 0 <= j < |es| && ImageOf(es[j], resolve).Some? ==> ImageOf(es[j], resolve).value in r
    ensures |es| == 1 ==> r == (if ImageOf(es[0], resolve).Some? then [ImageOf(es[0], resolve).value] else [])
  {
    if |es| == 0 then []
    else
      var n := |es| - 1;
      assert forall j :: 0 <= j < n ==> es[..n][j] == es[j];
      var o := ImageOf(es[n], resolve);
      AllImages(es[..n], resolve) + (if o.Some? then [o.value] else [])
  }

  lemma AllImagesSnoc(t: seq<ImgElem>, x: ImgElem, resolve: string -> Option<string>)
    ensures AllImages(t + [x], resolve) == AllImages(t, resolve) + (if ImageOf(x, resolve).Some? then [ImageOf(x, resolve).value] else [])
  {
    assert (t + [x])[..|t|] == t;
  }

  /** The image list follows document order: the images of two runs of
      elements are those of the first run, then those of the second. */
  lemma {:induction false} AllImagesAppend(a: seq<ImgElem>, b: seq<ImgElem>, resolve: string -> Option<string>)
    ensures AllImages(a + b, resolve) == AllImages(a, resolve) + AllImages(b, resolve)
    decreases |b|
  {
    if |b| == 0 {
      assert a + b == a;
    } else {
      var n := |b| - 1;
      var x, init := b[n], b[..n];
      assert a + b == (a + init) + [x];
      assert b == init + [x];
      AllImagesAppend(a, init, resolve);
      AllImagesSnoc(a + init, x, resolve);
      AllImagesSnoc(init, x, resolve);
    }
  }

  /** `images.slice(0, 20)` of the scanner's result. */
  function ExtractImages(es: seq<ImgElem>, resolve: string -> Option<string>): (r: seq<Image>)
    ensures |r| <= ImageLimit && |r| <= |AllImages(es, resolve)|
    ensures r == AllImages(es, resolve)[..|r|]
    ensures |AllImages(es, resolve)| <= ImageLimit ==> r == AllImages(es, resolve)
  {
    Take(AllImages(es, resolve), ImageLimit)
  }

  /** An element without alt text yields an image whose alt is empty; one with
      a non-empty alt keeps it. */
  lemma ImageAlt(e: ImgElem, resolve: string -> Option<string>)
    requires ImageOf(e, resolve).Some?
    ensures ImageOf(e, resolve).value.alt == "" <==> e.alt.None? || e.alt.value == ""
  {
  }

  // ---- schema labels (205-212, 428) ----

  /** The `@type` member of a parsed JSON-LD object: a string, or another JSON
      value given by its `JSON.stringify` text and its truthiness. */
  datatype TypeValue = TypeString(s: string) | TypeOther(serialized: string, truthy: bool)

  /** The result of `JSON.parse` on a script's text (an empty script parses
      `'{}'`): a parse error, `null`, an array, another non-object value, or an
      object with or without `@type`. */
  datatype LdJson = Unparseable | JsonNull | JsonArray | JsonScalar | JsonObject(atType: Option<TypeValue>)

  /** The label a script contributes. A parse error and `null` (whose `@type`
      lookup throws) contribute none. */
  function SchemaLabel(j: LdJson): (r: Option<string>)
    ensures r.None? <==> j.Unparseable? || j.JsonNull?
    ensures j.JsonArray? ==> r == Some("Graph Array")
    ensures j.JsonScalar? ==> r == Some("Unknown")
    ensures j.JsonObject? && j.atType.Some? && j.atType.value.TypeString? && j.atType.value.s != "" ==> r == Some(j.atType.value.s)
    ensures j.JsonObject? && j.atType.Some? && j.atType.value.TypeOther? && j.atType.value.truthy ==>
      r == Some(j.atType.value.serialized)
    ensures j.JsonObject? && (j.atType.None? || j.atType.value == TypeString("") || (j.atType.value.TypeOther? && !j.atType.value.truthy)) ==>
      r == Some("Unknown")
  {
    match j
    case Unparseable => None
    case JsonNull => None
    case JsonArray => Some("Graph Array")
    case JsonScalar => Some("Unknown")
    case JsonObject(t) =>
      match t
      case None => Some("Unknown")
      case Some(TypeString(s)) => Some(if s != "" then s else "Unknown")
      case Some(TypeOther(text, truthy)) => Some(if truthy then text else "Unknown")
  }

  function SchemaLabels(scripts: seq<LdJson>): (r: seq<string>)
    ensures |r| <= |scripts|
    ensures forall i :: 0 <= i < |r| ==> exists j :: 0 <= j < |scripts| && SchemaLabel(scripts[j]) == Some(r[i])
    ensures forall j :: 0 <= j < |scripts| && SchemaLabel(scripts[j]).Some? ==> SchemaLabel(scripts[j]).value in r
    ensures |scripts| == 1 ==> r == (if SchemaLabel(scripts[0]).Some? then [SchemaLabel(scripts[0]).value] else [])
  {
    if |scripts| == 0 then []
    else
      var n := |scripts| - 1;
      assert forall j :: 0 <= j < n ==> scripts[..n][j] == scripts[j];
      var o := SchemaLabel(scripts[n]);
      SchemaLabels(scripts[..n]) + (if o.Some? then [o.value] else [])
  }

  lemma SchemaLabelsSnoc(t: seq<LdJson>, x: LdJson)
    ensures SchemaLabels(t + [x]) == SchemaLabels(t) + (if SchemaLabel(x).Some? then [SchemaLabel(x).value] else [])
  {
    assert (t + [x])[..|t|] == t;
  }

  /** Labels are pushed in script order. */
  lemma {:induction false} SchemaLabelsAppend(a: seq<LdJson>, b: seq<LdJson>)
    ensures SchemaLabels(a + b) == SchemaLabels(a) + SchemaLabels(b)
    decreases |b|
  {
    if |b| == 0 {
      assert a + b == a;
    } else {
      var n := |b| - 1;
      var x, init := b[n], b[..n];
      assert a + b == (a + init) + [x];
      assert b == init + [x];
      SchemaLabelsAppend(a, init);
      SchemaLabelsSnoc(a + init, x);
      SchemaLabelsSnoc(init, x);
    }
  }

  /** `[...new Set(schemas)]`: each label once, in order of first appearance. */
  function Schemas(scripts: seq<LdJson>): (r: seq<string>)
    ensures IsDedupOf(r, SchemaLabels(scripts))
  {
    Dedup(SchemaLabels(scripts))
  }

  /** A label is listed exactly when some script yields it. */
  lemma SchemasListed(scripts: seq<LdJson>, name: string)
    ensures name in Schemas(scripts) <==> exists j :: 0 <= j < |scripts| && SchemaLabel(scripts[j]) == Some(name)
  {
    var all := SchemaLabels(scripts);
    var r := Schemas(scripts);
    if name in r {
      var i :| 0 <= i < |r| && r[i] == name;
      assert name in all;
    }
    if exists j :: 0 <= j < |scripts| && SchemaLabel(scripts[j]) == Some(name) {
      assert name in all;
      var k :| 0 <= k < |all| && all[k] == name;
    }
  }

  // ---- technology guesses (321-325, 423) ----

  /** A truthy `server` header: present and non-empty. */
  predicate HasServer(server: Option<string>) {
    server.Some? && server.value != ""
  }

  /** The order in which the markers are pushed: WordPress, React, Bootstrap;
      any other name ranks after them. */
  function TechRank(t: string): nat {
    if t == "WordPress" then 0
    else if t == "React" then 1
    else if t == "Bootstrap" then 2
    else 3
  }

  /** The markers found in the raw HTML, in push order: WordPress on
      `wp-content`, React on `react`, Bootstrap on `bootstrap`. */
  function Markers(html: string): (m: seq<string>)
    ensures |m| <= 3
    ensures "WordPress" in m <==> Contains(html, "wp-content")
    ensures "React" in m <==> Contains(html, "react")
    ensures "Bootstrap" in m <==> Contains(html, "bootstrap")
    ensures forall t :: t in m ==> TechRank(t) < 3
    ensures forall i, j :: 0 <= i < j < |m| ==> TechRank(m[i]) < TechRank(m[j])
  {
    (if Contains(html, "wp-content") then ["WordPress"] else [])
      + (if Contains(html, "react") then ["React"] else [])
      + (if Contains(html, "bootstrap") then ["Bootstrap"] else [])
  }

  /** The `techStack` array before deduplication: the server header when
      present, then the markers in their push order. */
  function RawTech(server: Option<string>, html: string): (raw: seq<string>)
    ensures |raw| <= 4
    ensures "WordPress" in raw <==> Contains(html, "wp-content") || server == Some("WordPress")
    ensures "React" in raw <==> Contains(html, "react") || server == Some("React")
    ensures "Bootstrap" in raw <==> Contains(html, "bootstrap") || server == Some("Bootstrap")
    ensures HasServer(server) ==> |raw| > 0 && raw[0] == server.value
    ensures forall t :: t in raw ==> (HasServer(server) && t == server.value) || TechRank(t) < 3
  {
    (if HasServer(server) then [server.value] else []) + Markers(html)
  }

  /** `[...new Set(techStack)]`: a server header naming one of the detected
      technologies is not listed twice. The stack holds the server header and
      the three markers and nothing else; every entry other than the server
      header comes in push order, so together with the membership clauses the
      contract fixes the list. */
  function TechStack(server: Option<string>, html: string): (r: seq<string>)
    ensures |r| <= 4 && NoDups(r)
    ensures "WordPress" in r <==> Contains(html, "wp-content") || server == Some("WordPress")
    ensures "React" in r <==> Contains(html, "react") || server == Some("React")
    ensures "Bootstrap" in r <==> Contains(html, "bootstrap") || server == Some("Bootstrap")
    ensures HasServer(server) ==> |r| > 0 && r[0] == server.value
    ensures forall t :: t in r ==> (HasServer(server) && t == server.value) || TechRank(t) < 3
    ensures forall i, j :: 0 <= i < j < |r| && Some(r[i]) != server ==> TechRank(r[i]) < TechRank(r[j])
  {
    TechStackMembers(server, html);
    TechStackOrder(server, html);
    Dedup(RawTech(server, html))
  }

  /** What `TechStack` holds: the three markers on their conditions, the
      server header, and nothing else. */
  lemma TechStackMembers(server: Option<string>, html: string)
    ensures var r := Dedup(RawTech(server, html));
      && |r| <= 4 && NoDups(r)
      && ("WordPress" in r <==> Contains(html, "wp-content") || server == Some("WordPress"))
      && ("React" in r <==> Contains(html, "react") || server == Some("React"))
      && ("Bootstrap" in r <==> Contains(html, "bootstrap") || server == Some("Bootstrap"))
      && (forall t :: t in r ==> (HasServer(server) && t == server.value) || TechRank(t) < 3)
  {
    DedupKept(RawTech(server, html));
  }

  /** Where `TechStack` puts its entries: the server header first, the
      markers in push order. */
  lemma TechStackOrder(server: Option<string>, html: string)
    ensures var r := Dedup(RawTech(server, html));
      && (HasServer(server) ==> |r| > 0 && r[0] == server.value)
      && (forall i, j :: 0 <= i < j < |r| && Some(r[i]) != server ==> TechRank(r[i]) < TechRank(r[j]))
  {
    var raw := RawTech(server, html);
    var h := if HasServer(server) then [server.value] else [];
    assert raw == h + Markers(html);
    DedupKept(raw);
    DedupKeepsRankOrder(h, Markers(html), server);
  }

  /** Deduplication keeps the values, the length bound and the head. */
  lemma DedupKept(raw: seq<string>)
    ensures var r := Dedup(raw);
      && |r| <= |raw|
      && (forall t :: t in r <==> t in raw)
      && (|raw| > 0 ==> |r| > 0 && r[0] == raw[0])
  {
    var r := Dedup(raw);
    DedupMembers(raw);
    NoDupsShorter(r, raw);
    if |raw| > 0 {
      DedupHead(raw);
    }
  }

  /** Deduplicating an optional server header followed by rank-ordered
      markers keeps the markers that are not the header in rank order. */
  lemma DedupKeepsRankOrder(h: seq<string>, m: seq<string>, server: Option<string>)
    requires |h| <= 1 && (|h| == 1 ==> Some(h[0]) == server)
    requires forall i, j :: 0 <= i < j < |m| ==> TechRank(m[i]) < TechRank(m[j])
    ensures var r := Dedup(h + m);
      forall i, j :: 0 <= i < j < |r| && Some(r[i]) != server ==> TechRank(r[i]) < TechRank(r[j])
  {
    var raw := h + m;
    var r := Dedup(raw);
    forall i, j | 0 <= i < j < |r| && Some(r[i]) != server
      ensures TechRank(r[i]) < TechRank(r[j])
    {
      var a, b := FirstIndex(raw, r[i]), FirstIndex(raw, r[j]);
      assert a < b;
      assert a >= |h|;
      var x, y := a - |h|, b - |h|;
      AfterPrefix(h, m, a);
      AfterPrefix(h, m, b);
      assert TechRank(m[x]) < TechRank(m[y]);
    }
  }

  /** Past the prefix, a concatenation reads from its second part. */
  lemma AfterPrefix(h: seq<string>, m: seq<string>, k: nat)
    requires |h| <= k < |h| + |m|
    ensures (h + m)[k] == m[k - |h|]
  {
  }

  // ---- word pipeline (275-278) ----

  const SpaTextMinimum: nat := 50

  /** The SPA fallback: a body text shorter than 50 UTF-16 units is replaced
      by the description and title, three times over. */
  function BodyText(text: string, description: string, title: string): (r: string)
    ensures Utf16Length(text) >= SpaTextMinimum ==> r == text
    ensures Utf16Length(text) < SpaTextMinimum ==>
      var s := description + " " + title; r == s + s + s
  {
    if Utf16Length(text) < SpaTextMinimum then
      var s := description + " " + title;
      RepeatFront(s, 3);
      RepeatFront(s, 2);
      RepeatFront(s, 1);
      assert Repeat(s, 3) == s + (s + (s + ""));
      Repeat(s, 3)
    else text
  }

  /** `replace(/[^\w\s]/g, '')` */
  function StripNonWord(s: string): (r: string)
    ensures |r| <= |s|
    ensures forall i :: 0 <= i < |r| ==> IsWordChar(r[i]) || IsSpace(r[i])
    ensures |s| == 1 ==> r == (if IsWordChar(s[0]) || IsSpace(s[0]) then s else "")
  {
    if |s| == 0 then ""
    else
      var n := |s| - 1;
      StripNonWord(s[..n]) + (if IsWordChar(s[n]) || IsSpace(s[n]) then [s[n]] else "")
  }

  /** Every `\w` and `\s` character is kept as often as it occurs; every
      other character is dropped. */
  lemma {:induction false} StripNonWordCounts(s: string)
    ensures forall c :: IsWordChar(c) || IsSpace(c) ==> multiset(StripNonWord(s))[c] == multiset(s)[c]
    ensures forall c :: !(IsWordChar(c) || IsSpace(c)) ==> multiset(StripNonWord(s))[c] == 0
  {
    if |s| > 0 {
      var n := |s| - 1;
      assert s == s[..n] + [s[n]];
      StripNonWordCounts(s[..n]);
    }
  }

  lemma StripNonWordSnoc(t: string, c: char)
    ensures StripNonWord(t + [c]) == StripNonWord(t) + (if IsWordChar(c) || IsSpace(c) then [c] else "")
  {
    assert (t + [c])[..|t|] == t;
  }

  /** The kept characters stay in their original order. */
  lemma {:induction false} StripNonWordAppend(a: string, b: string)
    ensures StripNonWord(a + b) == StripNonWord(a) + StripNonWord(b)
    decreases |b|
  {
    if |b| == 0 {
      assert a + b == a;
    } else {
      var n := |b| - 1;
      var c, init := b[n], b[..n];
      assert a + b == (a + init) + [c];
      assert b == init + [c];
      StripNonWordAppend(a, init);
      StripNonWordSnoc(a + init, c);
      StripNonWordSnoc(init, c);
    }
  }

  /** The pieces `toLowerCase().replace(...).split(' ')` yields; keyword
      counting keeps those longer than three characters. */
  function Pieces(text: string): (ps: seq<string>)
    ensures |ps| >= 1 && Join(ps, ' ') == StripNonWord(ToLower(text))
    ensures forall i :: 0 <= i < |ps| ==> ' ' !in ps[i]
  {
    Split(StripNonWord(ToLower(text)), ' ')
  }

  /** `\w` and `\s` lie inside the Basic Multilingual Plane. */
  lemma StrippedInBmp(s: string)
    ensures InBmp(StripNonWord(s))
  {
    var r := StripNonWord(s);
    forall i | 0 <= i < |r|
      ensures r[i] as int < 0x1_0000
    {
      assert IsWordChar(r[i]) || IsSpace(r[i]);
    }
  }

  /** Every piece is made of `\w` and `\s` characters, so a piece's
      JavaScript `length` is its number of characters. */
  lemma PieceLengths(text: string, i: nat)
    requires i < |Pieces(text)|
    ensures Utf16Length(Pieces(text)[i]) == |Pieces(text)[i]|
  {
    var stripped := StripNonWord(ToLower(text));
    StrippedInBmp(ToLower(text));
    PiecesInBmp(Split(stripped, ' '), ' ', i);
  }

  // ---- sentiment (835-853) ----

  const PositiveWords: seq<string> :=
    ["best", "top", "great", "excellent", "amazing", "good", "fast", "secure", "quality", "expert", "love", "perfect"]

  const NegativeWords: seq<string> :=
    ["bad", "slow", "worst", "error", "fail", "poor", "hate", "difficult", "hard", "weak", "risk"]

  predicate IsPositive(w: string) {
    w in PositiveWords
  }

  predicate IsNegative(w: string) {
    w in NegativeWords
  }

  /** No word is on both lists, so a token moves the score by at most one. */
  lemma ListsDisjoint(w: string)
    ensures !(IsPositive(w) && IsNegative(w))
  {
    if IsPositive(w) {
      var i :| 0 <= i < |PositiveWords| && PositiveWords[i] == w;
      assert w !in NegativeWords by {
        assert |w| > 0 && w[0] in "betgafsqlp";
        forall j | 0 <= j < |NegativeWords| ensures NegativeWords[j] != w {
          assert NegativeWords[j][0] in "bswefphdr";
        }
      }
    }
  }

  datatype Tone = Positive | Negative | Neutral

  /** The tone's label in the response. */
  function ToneLabel(t: Tone): string {
    match t
    case Positive => "Positive \U{1F7E2}"
    case Negative => "Negative \U{1F534}"
    case Neutral => "Neutral \U{26AA}"
  }

  datatype Sentiment = Sentiment(score: int, tone: Tone, keywords: nat)

  /** The score counts positive tokens up and negative tokens down; the tone is
      positive above 5 and negative below -2; `keywords` is the token count. The
      tokens are the lower-cased `\w+` runs of the text. */
  method AnalyzeSentiment(tokens: seq<string>) returns (s: Sentiment)
    ensures s.score == CountIf(tokens, IsPositive) - CountIf(tokens, IsNegative)
    ensures -|tokens| <= s.score <= |tokens|
    ensures s.keywords == |tokens|
    ensures s.tone == Positive <==> s.score > 5
    ensures s.tone == Negative <==> s.score < -2
    ensures s.tone == Neutral <==> -2 <= s.score <= 5
  {
    var score := 0;
    var i := 0;
    while i < |tokens|
      invariant 0 <= i <= |tokens|
      invariant score == CountIf(tokens[..i], IsPositive) - CountIf(tokens[..i], IsNegative)
    {
      assert tokens[..i + 1] == tokens[..i] + [tokens[i]];
      CountIfSnoc(tokens[..i], tokens[i], IsPositive);
      CountIfSnoc(tokens[..i], tokens[i], IsNegative);
      if IsPositive(tokens[i]) {
        score := score + 1;
      }
      if IsNegative(tokens[i]) {
        score := score - 1;
      }
      i := i + 1;
    }
    assert tokens[..i] == tokens;
    ScoreBound(tokens);
    var tone := if score > 5 then Positive else if score < -2 then Negative else Neutral;
    s := Sentiment(score, tone, |tokens|);
  }

  /** The score never exceeds the token count in magnitude. */
  lemma {:induction false} ScoreBound(tokens: seq<string>)
    ensures CountIf(tokens, IsPositive) + CountIf(tokens, IsNegative) <= |tokens|
  {
    if |tokens| > 0 {
      var n := |tokens| - 1;
      ScoreBound(tokens[..n]);
      ListsDisjoint(tokens[n]);
    }
  }
}

=== FILE: copilot.dfy ===
/** The chat assistant route (src/app/api/copilot/route.ts): a model-generated
    reply when the API key is configured and generation succeeds, otherwise an
    offline reply picked by keywords in the user's message.

    The request body, the key check and the generation call are inputs: `body`
    is `None` when the request is not valid JSON, and `generated` is `None`
    when the generation call throws. */
module Copilot {
  import opened Base

  /** The fields of the client's `siteData` the route reads: `score`,
      `aiAnalysis.data.images.length`, `aiAnalysis.data.scores.performance` and
      `aiAnalysis.data.title`. */
  datatype SiteData = SiteData(score: Option<int>, imageCount: Option<nat>, performance: Option<int>, title: Option<string>)

  datatype CopilotRequest = CopilotRequest(message: Option<string>, siteData: Option<SiteData>)

  datatype Topic = Speed | ScoreQuestion | TitleQuestion | General

  /** The reply the fallback starts from; every branch replaces it. */
  const InitialReply: string := "I'm having trouble connecting to the AI cloud, but I can still help! \U{1F6E0}\U{FE0F}"

  const GeneralReply: string :=
    "I can't reach the AI cloud right now, but I recommend checking the 'Action Plan' tab for a step-by-step guide to improve your site! \U{1F680}"

  predicate MentionsSpeed(msg: string) {
    Contains(msg, "slow") || Contains(msg, "yavas") || Contains(msg, "h\U{0131}z") || Contains(msg, "speed")
  }

  predicate MentionsScore(msg: string) {
    Contains(msg, "score") || Contains(msg, "puan")
  }

  predicate MentionsTitle(msg: string) {
    Contains(msg, "title") || Contains(msg, "ba\U{015F}l\U{0131}k")
  }

  /** The lower-cased message, the empty string when there is none. */
  function LoweredMessage(message: Option<string>): string {
    ToLower(message.GetOr(""))
  }

  /** The if/else-if chain: speed words first, then score, then title. */
  function Classify(msg: string): (t: Topic)
    ensures t == Speed <==> MentionsSpeed(msg)
    ensures t == ScoreQuestion <==> !MentionsSpeed(msg) && MentionsScore(msg)
    ensures t == TitleQuestion <==> !MentionsSpeed(msg) && !MentionsScore(msg) && MentionsTitle(msg)
    ensures t == General <==> !MentionsSpeed(msg) && !MentionsScore(msg) && !MentionsTitle(msg)
  {
    if MentionsSpeed(msg) then Speed
    else if MentionsScore(msg) then ScoreQuestion
    else if MentionsTitle(msg) then TitleQuestion
    else General
  }

  /** `${siteData?.aiAnalysis?.data?.images?.length || 0}` */
  function ImageCountText(sd: Option<SiteData>): string {
    NatToString(if sd.Some? && sd.value.imageCount.Some? then sd.value.imageCount.value else 0)
  }

  /** `${siteData?.aiAnalysis?.data?.scores?.performance || 'N/A'}`: a zero score is falsy. */
  function PerformanceText(sd: Option<SiteData>): string {
    if sd.Some? && sd.value.performance.Some? && sd.value.performance.value != 0 then IntToString(sd.value.performance.value)
    else "N/A"
  }

  /** `${siteData?.score}`: a missing score prints as `undefined`. */
  function ScoreText(sd: Option<SiteData>): string {
    if sd.Some? && sd.value.score.Some? then IntToString(sd.value.score.value) else "undefined"
  }

  /** `${siteData?.aiAnalysis?.data?.title || 'Missing'}` */
  function TitleText(sd: Option<SiteData>): string {
    if sd.Some? then OrDefault(sd.value.title, "Missing") else "Missing"
  }

  function ImagesPhrase(sd: Option<SiteData>): string {
    "(you have " + ImageCountText(sd) + " images)"
  }

  function PerformancePhrase(sd: Option<SiteData>): string {
    "performance score is " + PerformanceText(sd) + "/100."
  }

  function ScorePhrase(sd: Option<SiteData>): string {
    "Your SEO Score is " + ScoreText(sd) + "/100."
  }

  function TitlePhrase(sd: Option<SiteData>): string {
    "Current title: \"" + TitleText(sd) + "\""
  }

  const SpeedIntro: string := "For speed, check these:\n1. Optimize images "
  const SpeedMiddle: string := ".\n2. Minify CSS/JS.\n3. Use a CDN.\n\nYour current "
  const ScoreAdvice: string := " To improve it, focus on fixing Critical errors first!"
  const TitleAdvice: string := "Make sure your title is between 50-60 characters and includes your main keyword.\n\n"

  function SpeedReply(sd: Option<SiteData>): string {
    SpeedIntro + ImagesPhrase(sd) + SpeedMiddle + PerformancePhrase(sd)
  }

  function ScoreReply(sd: Option<SiteData>): string {
    ScorePhrase(sd) + ScoreAdvice
  }

  function TitleReply(sd: Option<SiteData>): string {
    TitleAdvice + TitlePhrase(sd)
  }

  /** The offline reply for a message and the site data known when the error
      was thrown. */
  function FallbackReply(message: Option<string>, sd: Option<SiteData>): string {
    match Classify(LoweredMessage(message))
    case Speed => SpeedReply(sd)
    case ScoreQuestion => ScoreReply(sd)
    case TitleQuestion => TitleReply(sd)
    case General => GeneralReply
  }

  /** Each of the four replies differs from the initial one. */
  lemma RepliesDifferFromInitial(sd: Option<SiteData>)
    ensures SpeedReply(sd) != InitialReply && ScoreReply(sd) != InitialReply
    ensures TitleReply(sd) != InitialReply && GeneralReply != InitialReply
  {
  }

  /** The initial "trouble connecting" text is never what the fallback
      returns: every branch of the chain replaces it. */
  lemma FallbackNeverInitial(message: Option<string>, sd: Option<SiteData>)
    ensures FallbackReply(message, sd) != InitialReply
  {
    RepliesDifferFromInitial(sd);
  }

  /** The route's reply. It is the generated text only when the key is set,
      the body parsed, `siteData` is present (the prompt reads
      `siteData.domain`) and generation succeeded; every other path answers
      with the fallback, never with an error status. */
  function Reply(body: Option<CopilotRequest>, hasKey: bool, generated: Option<string>): (r: string)
    ensures hasKey && body.Some? && body.value.siteData.Some? && generated.Some? ==> r == generated.value
    ensures body.None? ==> r == FallbackReply(None, None)
    ensures body.Some? && (!hasKey || body.value.siteData.None? || generated.None?) ==>
      r == FallbackReply(body.value.message, body.value.siteData)
  {
    if body.None? then FallbackReply(None, None)
    else if hasKey && body.value.siteData.Some? && generated.Some? then generated.value
    else FallbackReply(body.value.message, body.value.siteData)
  }

  /** A missing message mentions nothing. */
  lemma EmptyIsGeneral()
    ensures Classify(LoweredMessage(None)) == General
  {
    assert LoweredMessage(None) == "";
  }

  /** A message that mentions speed gets the speed reply whatever else it
      mentions; a missing message gets the general reply. */
  lemma FallbackPrecedence(message: Option<string>, sd: Option<SiteData>)
    ensures MentionsSpeed(LoweredMessage(message)) ==> FallbackReply(message, sd) == SpeedReply(sd)
    ensures !MentionsSpeed(LoweredMessage(message)) && MentionsScore(LoweredMessage(message)) ==>
      FallbackReply(message, sd) == ScoreReply(sd)
    ensures !MentionsSpeed(LoweredMessage(message)) && !MentionsScore(LoweredMessage(message)) && MentionsTitle(LoweredMessage(message)) ==>
      FallbackReply(message, sd) == TitleReply(sd)
    ensures message.None? ==> FallbackReply(message, sd) == GeneralReply
  {
    EmptyIsGeneral();
  }

  /** Upper-case letters in the message do not hide a topic: any piece of
      the message whose lower-cased form mentions speed, the score or the title
      makes the message mention it too, and a speed word in any case gets the
      speed reply. */
  lemma ClassifyIgnoresCase(m: string, p: string, sd: Option<SiteData>)
    requires Contains(m, p)
    ensures MentionsSpeed(ToLower(p)) ==> MentionsSpeed(LoweredMessage(Some(m)))
    ensures MentionsScore(ToLower(p)) ==> MentionsScore(LoweredMessage(Some(m)))
    ensures MentionsTitle(ToLower(p)) ==> MentionsTitle(LoweredMessage(Some(m)))
    ensures MentionsSpeed(ToLower(p)) ==> FallbackReply(Some(m), sd) == SpeedReply(sd)
  {
    var lm := LoweredMessage(Some(m));
    LowerContains(m, p);
    forall w | Contains(ToLower(p), w)
      ensures Contains(lm, w)
    {
      ContainsTrans(lm, ToLower(p), w);
    }
  }

  /** For instance, a message shouting `SPEED` gets the speed reply. */
  lemma ShoutedSpeed(m: string, sd: Option<SiteData>)
    requires Contains(m, "SPEED")
    ensures FallbackReply(Some(m), sd) == SpeedReply(sd)
  {
    assert ToLower("SPEED") == "speed";
    assert OccursAt("speed", "speed", 0);
    ClassifyIgnoresCase(m, "SPEED", sd);
  }

  /** Lower-casing keeps every occurrence. */
  lemma LowerContains(m: string, p: string)
    requires Contains(m, p)
    ensures Contains(ToLower(m), ToLower(p))
  {
    var i :| 0 <= i <= |m| - |p| && OccursAt(m, p, i);
    assert ToLower(m)[i..i + |p|] == ToLower(p) by {
      forall k | 0 <= k < |p|
        ensures ToLower(m)[i..i + |p|][k] == ToLower(p)[k]
      {
        assert m[i + k] == p[k];
      }
    }
    assert OccursAt(ToLower(m), ToLower(p), i);
  }

  /** An occurrence inside an occurrence is an occurrence. */
  lemma ContainsTrans(a: string, b: string, c: string)
    requires Contains(a, b) && Contains(b, c)
    ensures Contains(a, c)
  {
    var i :| 0 <= i <= |a| - |b| && OccursAt(a, b, i);
    var j :| 0 <= j <= |b| - |c| && OccursAt(b, c, j);
    assert b == a[i..i + |b|];
    var k: nat := i + j;
    forall t | 0 <= t < |c|
      ensures a[k..k + |c|][t] == c[t]
    {
      assert c[t] == b[j + t] == a[k + t];
    }
    assert OccursAt(a, c, k);
  }

  lemma ContainsMiddle(a: string, p: string, b: string)
    ensures Contains(a + p + b, p)
  {
    assert (a + p + b)[|a|..|a| + |p|] == p;
    assert OccursAt(a + p + b, p, |a|);
  }

  /** Both interior pieces of a four-piece concatenation occur in it. */
  lemma ContainsSecondAndFourth(a: string, p: string, b: string, q: string)
    ensures Contains(a + p + b + q, p) && Contains(a + p + b + q, q)
  {
    ContainsMiddle(a, p, b + q);
    assert a + p + b + q == a + p + (b + q);
    ContainsBack(a + p + b, q);
  }

  /** The speed reply reports the image count and the performance score. */
  lemma SpeedReplyEmbeds(sd: Option<SiteData>)
    ensures Contains(SpeedReply(sd), ImagesPhrase(sd)) && Contains(SpeedReply(sd), PerformancePhrase(sd))
  {
    ContainsSecondAndFourth(SpeedIntro, ImagesPhrase(sd), SpeedMiddle, PerformancePhrase(sd));
  }

  /** The score reply states the score; the title reply quotes the title. */
  lemma ContainsFront(p: string, b: string)
    ensures Contains(p + b, p)
  {
    assert (p + b)[0..|p|] == p;
    assert OccursAt(p + b, p, 0);
  }

  lemma ContainsBack(a: string, p: string)
    ensures Contains(a + p, p)
  {
    assert (a + p)[|a|..|a| + |p|] == p;
    assert OccursAt(a + p, p, |a|);
  }

  /** The score reply reports the SEO score. */
  lemma ScoreReplyEmbeds(sd: Option<SiteData>)
    ensures Contains(ScoreReply(sd), ScorePhrase(sd))
  {
    ContainsFront(ScorePhrase(sd), ScoreAdvice);
  }

  /** The title reply reports the page title. */
  lemma TitleReplyEmbeds(sd: Option<SiteData>)
    ensures Contains(TitleReply(sd), TitlePhrase(sd))
  {
    ContainsBack(TitleAdvice, TitlePhrase(sd));
  }

  /** Without site data the replies fall back to 0 images, an 'N/A'
      performance score and a 'Missing' title. */
  lemma DefaultsWithoutSiteData()
    ensures ImageCountText(None) == "0" && PerformanceText(None) == "N/A" && TitleText(None) == "Missing"
  {
  }
}

=== FILE: dom.dfy ===
/** DOM depth of the page scanner (`getDomDepth`,
    src/app/api/analyze/route.ts:462-474): for every element, the number of its
    ancestors below the document root; the largest such number, or 0. */
module Dom {
  import opened Base

  /** A node of the parsed document. Text, comments and the like are `Text`;
      only `Element`s are visited by the `*` selector. */
  datatype Node = Element(tag: string, children: seq<Node>) | Text(text: string)

  /** A parsed document: the children of the root node. */
  type Document = seq<Node>

  /** Some element among `nodes`, which sit at depth `d`, or among their
      descendants, has exactly `k` non-root ancestors. */
  ghost predicate ElementAtIn(nodes: seq<Node>, d: nat, k: nat)
    decreases nodes
  {
    exists i :: 0 <= i < |nodes| && ElementAtNode(nodes[i], d, k)
  }

  ghost predicate ElementAtNode(n: Node, d: nat, k: nat)
    decreases n
  {
    n.Element? && (k == d || ElementAtIn(n.children, d + 1, k))
  }

  function Max(a: nat, b: nat): nat {
    if a < b then b else a
  }

  function MaxOpt(a: Option<nat>, b: Option<nat>): (r: Option<nat>)
    ensures r.None? <==> a.None? && b.None?
    ensures r.Some? ==> (a.Some? && r.value == a.value) || (b.Some? && r.value == b.value)
    ensures a.Some? ==> r.Some? && a.value <= r.value
    ensures b.Some? ==> r.Some? && b.value <= r.value
  {
    if a.None? then b
    else if b.None? then a
    else Some(Max(a.value, b.value))
  }

  lemma ElementAtSplit(nodes: seq<Node>, d: nat)
    requires |nodes| > 0
    ensures forall k: nat :: ElementAtIn(nodes, d, k) <==> ElementAtNode(nodes[0], d, k) || ElementAtIn(nodes[1..], d, k)
  {
    forall k: nat | ElementAtIn(nodes, d, k) ensures ElementAtNode(nodes[0], d, k) || ElementAtIn(nodes[1..], d, k) {
      var i :| 0 <= i < |nodes| && ElementAtNode(nodes[i], d, k);
      if i > 0 {
        assert nodes[1..][i - 1] == nodes[i];
      }
    }
    forall k: nat | ElementAtIn(nodes[1..], d, k) ensures ElementAtIn(nodes, d, k) {
      var i :| 0 <= i < |nodes[1..]| && ElementAtNode(nodes[1..][i], d, k);
      assert nodes[i + 1] == nodes[1..][i];
    }
    forall k: nat | ElementAtNode(nodes[0], d, k) ensures ElementAtIn(nodes, d, k) {
      assert ElementAtNode(nodes[0], d, k);
    }
  }

  /** The greatest depth of an element among `nodes` (at depth `d`) and their
      descendants; `None` when there is no element at all. */
  function DeepestIn(nodes: seq<Node>, d: nat): (r: Option<nat>)
    ensures r.Some? ==> d <= r.value && ElementAtIn(nodes, d, r.value)
    ensures forall k: nat :: ElementAtIn(nodes, d, k) ==> r.Some? && k <= r.value
    decreases nodes
  {
    if |nodes| == 0 then None
    else
      ElementAtSplit(nodes, d);
      MaxOpt(DeepestAt(nodes[0], d), DeepestIn(nodes[1..], d))
  }

  function DeepestAt(n: Node, d: nat): (r: Option<nat>)
    ensures r.Some? ==> d <= r.value && ElementAtNode(n, d, r.value)
    ensures forall k: nat :: ElementAtNode(n, d, k) ==> r.Some? && k <= r.value
    decreases n
  {
    match n
    case Text(_) => None
    case Element(_, cs) =>
      var below := DeepestIn(cs, d + 1);
      Some(if below.Some? then below.value else d)
  }

  /** `getDomDepth`: the depth of the deepest element, 0 when there is none. */
  function DomDepth(doc: Document): (depth: nat)
    ensures forall k: nat :: ElementAtIn(doc, 0, k) ==> k <= depth
    ensures depth == 0 || ElementAtIn(doc, 0, depth)
  {
    DeepestIn(doc, 0).GetOr(0)
  }

  /** The depth is 0 exactly when no element has an ancestor other than the
      root: an empty document, or one of top-level elements only. */
  lemma DomDepthZero(doc: Document)
    ensures DomDepth(doc) == 0 <==> forall k: nat :: ElementAtIn(doc, 0, k) ==> k == 0
  {
    var depth := DomDepth(doc);
    if depth > 0 {
      assert ElementAtIn(doc, 0, depth);
    }
  }
}

=== FILE: issues.dfy ===
/** The issue record both scorers emit (route.ts builds them as object literals
    pushed onto an array), and the rule-table combinator `Emit`: each rule
    either pushes one issue or nothing, in a fixed order. */
module Issues {
  import opened Base

  datatype Category = SEO | Content | Accessibility | Performance | Security

  datatype Priority = Critical | High | Medium | Low

  /** The title of every issue either scorer can raise. */
  datatype Title =
    | MissingTitleTag
    | ShortTitle
    | MissingH1Tag
    | MultipleH1Tags
    | SkippedHeadingLevels
    | MissingCanonicalTag
    | CanonicalMismatch
    | ThinContent
    | KeywordStuffingDetected
    | MissingAltText
    | WordPressOptimization
    | MissingSitemap
    | MissingRobotsTxt
    | NotUsingHttps
    | OptimizeImages
    | DeferOffscreenImages
    | RemoveUnusedCss
    | EliminateRenderBlockingResources
    | MissingMetaDescription
    | NonDescriptiveLinks

  /** The title text the route shows. */
  function TitleText(t: Title): string {
    match t
    case MissingTitleTag => "Missing Title Tag"
    case ShortTitle => "Short Title"
    case MissingH1Tag => "Missing H1 Tag"
    case MultipleH1Tags => "Multiple H1 Tags"
    case SkippedHeadingLevels => "Skipped Heading Levels"
    case MissingCanonicalTag => "Missing Canonical Tag"
    case CanonicalMismatch => "Canonical Mismatch"
    case ThinContent => "Thin Content"
    case KeywordStuffingDetected => "Keyword Stuffing Detected"
    case MissingAltText => "Missing Alt Text"
    case WordPressOptimization => "WordPress Optimization"
    case MissingSitemap => "Missing Sitemap"
    case MissingRobotsTxt => "Missing Robots.txt"
    case NotUsingHttps => "Not Using HTTPS"
    case OptimizeImages => "Optimize Images"
    case DeferOffscreenImages => "Defer Offscreen Images"
    case RemoveUnusedCss => "Remove Unused CSS"
    case EliminateRenderBlockingResources => "Eliminate Render-Blocking Resources"
    case MissingMetaDescription => "Missing Meta Description"
    case NonDescriptiveLinks => "Non-Descriptive Links"
  }

  /** `detail` holds the values the source interpolates into the issue's
      description text (the stuffed keywords, the word count, ...); the fixed
      prose of `desc` and `fix` is not modelled. `items` is the optional list of
      affected URLs or markup snippets. */
  datatype Issue = Issue(
    category: Category,
    priority: Priority,
    title: Title,
    detail: seq<string>,
    items: Option<seq<string>>)

  /** Some issue with this category, priority and title was raised. */
  predicate Raised(issues: seq<Issue>, c: Category, p: Priority, t: Title) {
    exists i :: 0 <= i < |issues| && issues[i].category == c && issues[i].priority == p && issues[i].title == t
  }

  predicate HasTitle(issues: seq<Issue>, t: Title) {
    exists i :: 0 <= i < |issues| && issues[i].title == t
  }

  /** The issues of the rules that fired, in rule order. */
  function Emit(slots: seq<Option<Issue>>): (r: seq<Issue>)
    ensures |r| <= |slots|
  {
    if |slots| == 0 then []
    else (if slots[0].Some? then [slots[0].value] else []) + Emit(slots[1..])
  }

  /** Every emitted issue sits in some slot, and every filled slot is emitted. */
  lemma {:induction false} EmitMembers(slots: seq<Option<Issue>>)
    ensures forall i :: 0 <= i < |Emit(slots)| ==> Some(Emit(slots)[i]) in slots
    ensures forall k :: 0 <= k < |slots| && slots[k].Some? ==> slots[k].value in Emit(slots)
  {
    if |slots| > 0 {
      var rest := slots[1..];
      EmitMembers(rest);
      assert slots == [slots[0]] + rest;
      var head := if slots[0].Some? then [slots[0].value] else [];
      assert Emit(slots) == head + Emit(rest);
      forall i | 0 <= i < |Emit(slots)| ensures Some(Emit(slots)[i]) in slots {
        if i >= |head| { assert Emit(slots)[i] == Emit(rest)[i - |head|]; }
      }
      forall k | 0 <= k < |slots| && slots[k].Some? ensures slots[k].value in Emit(slots) {
        if k > 0 { assert slots[k] == rest[k - 1]; }
      }
    }
  }

  /** Rule tables compose: the issues of two tables run one after the other. */
  lemma {:induction false} EmitAppend(a: seq<Option<Issue>>, b: seq<Option<Issue>>)
    ensures Emit(a + b) == Emit(a) + Emit(b)
  {
    if |a| > 0 {
      assert (a + b)[0] == a[0] && (a + b)[1..] == a[1..] + b;
      EmitAppend(a[1..], b);
    } else {
      assert a + b == b;
    }
  }

  /** Slot `k` of a rule table can only hold an issue whose title has rank `base + k`. */
  ghost predicate RankedSlots(slots: seq<Option<Issue>>, rank: Title -> int, base: int) {
    forall k :: 0 <= k < |slots| && slots[k].Some? ==> rank(slots[k].value.title) == base + k
  }

  /** Emitted issues appear in strictly increasing rank: rule order is kept and no
      rule contributes twice. */
  lemma {:induction false} EmitRanked(slots: seq<Option<Issue>>, rank: Title -> int, base: int)
    requires RankedSlots(slots, rank, base)
    ensures forall i :: 0 <= i < |Emit(slots)| ==> base <= rank(Emit(slots)[i].title) < base + |slots|
    ensures forall i, j :: 0 <= i < j < |Emit(slots)| ==> rank(Emit(slots)[i].title) < rank(Emit(slots)[j].title)
    decreases |slots|
  {
    var r := Emit(slots);
    EmitMembers(slots);
    forall i | 0 <= i < |r| ensures base <= rank(r[i].title) < base + |slots| {
      var k :| 0 <= k < |slots| && slots[k] == Some(r[i]);
    }
    if |slots| > 0 {
      var rest := slots[1..];
      assert RankedSlots(rest, rank, base + 1) by {
        forall k | 0 <= k < |rest| && rest[k].Some? ensures rank(rest[k].value.title) == base + 1 + k {
          assert rest[k] == slots[k + 1];
        }
      }
      EmitRanked(rest, rank, base + 1);
    }
  }

  /** The rule slot `o` pushed an issue with this category, priority and title. */
  predicate Carries(o: Option<Issue>, c: Category, p: Priority, t: Title) {
    o.Some? && o.value.category == c && o.value.priority == p && o.value.title == t
  }

  /** In a ranked table, an issue is raised exactly when the one slot of its rank
      holds it. */
  lemma EmitRaised(slots: seq<Option<Issue>>, rank: Title -> int, base: int, c: Category, p: Priority, t: Title)
    requires RankedSlots(slots, rank, base)
    requires 0 <= rank(t) - base < |slots|
    ensures Raised(Emit(slots), c, p, t) <==> Carries(slots[rank(t) - base], c, p, t)
  {
    var r := Emit(slots);
    var k := rank(t) - base;
    EmitMembers(slots);
    if Raised(r, c, p, t) {
      var i :| 0 <= i < |r| && r[i].category == c && r[i].priority == p && r[i].title == t;
      var k' :| 0 <= k' < |slots| && slots[k'] == Some(r[i]);
      assert k' == k;
    }
    if Carries(slots[k], c, p, t) {
      var x := slots[k].value;
      assert x in r;
      var i :| 0 <= i < |r| && r[i] == x;
    }
  }

  /** In a ranked table, an emitted issue came from the slot of its rank. */
  lemma EmitSlotOf(slots: seq<Option<Issue>>, rank: Title -> int, base: int, i: nat)
    requires RankedSlots(slots, rank, base)
    requires i < |Emit(slots)|
    ensures 0 <= rank(Emit(slots)[i].title) - base < |slots|
    ensures slots[rank(Emit(slots)[i].title) - base] == Some(Emit(slots)[i])
  {
    var x := Emit(slots)[i];
    EmitMembers(slots);
    var k :| 0 <= k < |slots| && slots[k] == Some(x);
    assert rank(x.title) == base + k;
  }

  /** One step of the table walk. */
  lemma EmitStep(slots: seq<Option<Issue>>, k: nat)
    requires k < |slots|
    ensures Emit(slots[k..]) == (if slots[k].Some? then [slots[k].value] else []) + Emit(slots[k + 1..])
  {
    assert slots[k..][0] == slots[k] && slots[k..][1..] == slots[k + 1..];
  }

  /** A table where no rule fired yields no issues. */
  lemma {:induction false} EmitNone(slots: seq<Option<Issue>>)
    requires forall k :: 0 <= k < |slots| ==> slots[k].None?
    ensures Emit(slots) == []
  {
    if |slots| > 0 {
      EmitNone(slots[1..]);
    }
  }
}

=== FILE: keywords.dfy ===
/** Keyword extraction of the page scanner (src/app/api/analyze/route.ts,
    lines 278 and 290-293): keep the pieces longer than three characters, count
    each distinct word, sort the counts in descending order, keep the first ten
    and attach each word's density.

    The lower-casing, punctuation stripping and splitting on spaces are taken
    as already done: the input is the sequence of pieces `split(' ')` yields. */
module Keywords {
  import opened Base
  import opened PageModel

  /** `filter(w => w.length > 3)`: exactly the long pieces, with their multiplicity. */
  function LongWords(pieces: seq<string>): (r: seq<string>)
    ensures forall i :: 0 <= i < |r| ==> |r[i]| > 3
    ensures forall w :: multiset(r)[w] == (if |w| > 3 then multiset(pieces)[w] else 0)
  {
    if |pieces| == 0 then []
    else
      assert pieces == [pieces[0]] + pieces[1..];
      (if |pieces[0]| > 3 then [pieces[0]] else []) + LongWords(pieces[1..])
  }

  datatype Tally = Tally(word: string, count: nat)

  /** `Object.entries(counts)`: one entry per distinct word, in the order the
      words first occur, with the number of times it occurs. */
  function Tallies(words: seq<string>): seq<Tally> {
    var ds := Dedup(words);
    seq(|ds|, i requires 0 <= i < |ds| => Tally(ds[i], multiset(words)[ds[i]]))
  }

  /** Density in tenths of a percent: `((count / max(1, n)) * 100).toFixed(1)`
      read back by `parseFloat` and multiplied by ten. It is `1000 * count / m`
      rounded to the nearest integer, halves rounded up. */
  function Density10(count: nat, n: nat): (d: nat)
    ensures var m := if n == 0 then 1 else n; m * (2 * d - 1) <= 2000 * count < m * (2 * d + 1)
  {
    var m := if n == 0 then 1 else n;
    var q := (2000 * count + m) / (2 * m);
    assert 2 * m * q <= 2000 * count + m < 2 * m * q + 2 * m;
    q
  }

  /** Sort key of the comparator `(a, b) => b[1] - a[1]`. */
  function DescendingCount(t: Tally): int {
    -(t.count as int)
  }

  /** Every tally is a long word of the text paired with its count, and the
      tallies name distinct words. */
  lemma TalliesFacts(words: seq<string>)
    requires forall i :: 0 <= i < |words| ==> |words[i]| > 3
    ensures forall t :: t in Tallies(words) ==>
      t.word in words && |t.word| > 3 && t.count == multiset(words)[t.word] >= 1
    ensures NoDups(Tallies(words))
    ensures forall w :: w in words ==> Tally(w, multiset(words)[w]) in Tallies(words)
  {
    var ts := Tallies(words);
    var ds := Dedup(words);
    forall t | t in ts ensures t.word in words && |t.word| > 3 && t.count == multiset(words)[t.word] >= 1 {
      var k :| 0 <= k < |ts| && ts[k] == t;
      assert ds[k] in words;
      var p :| 0 <= p < |words| && words[p] == ds[k];
    }
    forall i, j | 0 <= i < j < |ts| ensures ts[i] != ts[j] {
      assert ts[i].word == ds[i] && ts[j].word == ds[j];
    }
    forall w | w in words ensures Tally(w, multiset(words)[w]) in ts {
      var p :| 0 <= p < |words| && words[p] == w;
      assert w in ds;
      var k :| 0 <= k < |ds| && ds[k] == w;
      assert ts[k] == Tally(w, multiset(words)[w]);
    }
  }

  /** The facts about the sorted tallies the keyword contract rests on. */
  lemma SortedTallies(words: seq<string>, sorted: seq<Tally>)
    requires forall i :: 0 <= i < |words| ==> |words[i]| > 3
    requires SortedBy(sorted, DescendingCount)
    requires multiset(sorted) == multiset(Tallies(words))
    ensures forall i :: 0 <= i < |sorted| ==>
      sorted[i].word in words && |sorted[i].word| > 3 && sorted[i].count == multiset(words)[sorted[i].word] >= 1
    ensures forall i, j :: 0 <= i < j < |sorted| ==> sorted[i].count >= sorted[j].count && sorted[i].word != sorted[j].word
    ensures forall w :: w in words ==> exists k :: 0 <= k < |sorted| && sorted[k].word == w
  {
    var ts := Tallies(words);
    TalliesFacts(words);
    forall i | 0 <= i < |sorted|
      ensures sorted[i].word in words && |sorted[i].word| > 3 && sorted[i].count == multiset(words)[sorted[i].word] >= 1
    {
      assert sorted[i] in multiset(ts);
    }
    NoDupsPerm(ts, sorted);
    forall i, j | 0 <= i < j < |sorted| ensures sorted[i].count >= sorted[j].count && sorted[i].word != sorted[j].word {
      assert DescendingCount(sorted[i]) <= DescendingCount(sorted[j]);
      assert sorted[i] != sorted[j];
      assert sorted[i] in multiset(ts) && sorted[j] in multiset(ts);
    }
    forall w | w in words ensures exists k :: 0 <= k < |sorted| && sorted[k].word == w {
      var t := Tally(w, multiset(words)[w]);
      assert t in multiset(sorted);
      var k :| 0 <= k < |sorted| && sorted[k] == t;
    }
  }

  function ToKeyword(t: Tally, n: nat): Keyword {
    Keyword(t.word, t.count, Density10(t.count, n))
  }

  /** The first ten sorted tallies leave out only words that occur no more
      often than the tenth. */
  lemma TopTenComplete(words: seq<string>, sorted: seq<Tally>, r: seq<Keyword>)
    requires forall w :: w in words ==> exists k :: 0 <= k < |sorted| && sorted[k].word == w
    requires forall i, j :: 0 <= i < j < |sorted| ==> sorted[i].count >= sorted[j].count
    requires r == TopOf(sorted, |words|)
    ensures forall w :: w in words && (forall i :: 0 <= i < |r| ==> r[i].word != w) ==>
      |r| == 10 && exists k :: 10 <= k < |sorted| && sorted[k].word == w && sorted[k].count <= r[9].count
  {
    forall w | w in words && (forall i :: 0 <= i < |r| ==> r[i].word != w)
      ensures |r| == 10 && exists k :: 10 <= k < |sorted| && sorted[k].word == w && sorted[k].count <= r[9].count
    {
      var k :| 0 <= k < |sorted| && sorted[k].word == w;
      assert forall i :: 0 <= i < |r| ==> sorted[i].word != w;
      assert k >= |r|;
    }
  }

  /** `slice(0, 10).map(...)` over the sorted tallies. */
  function TopOf(sorted: seq<Tally>, n: nat): (r: seq<Keyword>)
    ensures |r| == |Take(sorted, 10)|
    ensures forall i :: 0 <= i < |r| ==> r[i] == ToKeyword(sorted[i], n)
  {
    var top := Take(sorted, 10);
    seq(|top|, i requires 0 <= i < |top| => ToKeyword(top[i], n))
  }

  lemma TopOfSorted(words: seq<string>, sorted: seq<Tally>)
    requires forall i :: 0 <= i < |words| ==> |words[i]| > 3
    requires SortedBy(sorted, DescendingCount)
    requires multiset(sorted) == multiset(Tallies(words))
    ensures var r := TopOf(sorted, |words|);
      && |r| <= 10
      && (forall i :: 0 <= i < |r| ==> |r[i].word| > 3 && r[i].count >= 1 && r[i].count == multiset(words)[r[i].word])
      && (forall i, j :: 0 <= i < j < |r| ==> r[i].count >= r[j].count && r[i].word != r[j].word)
      && (forall w :: w in words && (forall i :: 0 <= i < |r| ==> r[i].word != w) ==>
            |r| == 10 && multiset(words)[w] <= r[9].count)
      && (forall i :: 0 <= i < |r| ==> r[i].density10 == Density10(r[i].count, |words|))
  {
    SortedTallies(words, sorted);
    var r := TopOf(sorted, |words|);
    TopTenComplete(words, sorted, r);
  }

  /** The top-keyword list: at most ten distinct long words with their true
      counts, never increasing along the list; a word that is left out occurs no
      more often than the tenth entry. */
  function TopKeywords(pieces: seq<string>): (r: seq<Keyword>)
    ensures |r| <= 10
    ensures forall i :: 0 <= i < |r| ==>
      |r[i].word| > 3 && r[i].count >= 1 && r[i].count == multiset(LongWords(pieces))[r[i].word]
    ensures forall i, j :: 0 <= i < j < |r| ==> r[i].count >= r[j].count && r[i].word != r[j].word
    ensures forall w :: w in LongWords(pieces) && (forall i :: 0 <= i < |r| ==> r[i].word != w) ==>
      |r| == 10 && multiset(LongWords(pieces))[w] <= r[9].count
    ensures forall i :: 0 <= i < |r| ==> r[i].density10 == Density10(r[i].count, |LongWords(pieces)|)
  {
    var words := LongWords(pieces);
    var sorted := SortBy(Tallies(words), DescendingCount);
    TopOfSorted(words, sorted);
    TopOf(sorted, |words|)
  }

  /** The stuffing test `parseFloat(density) > 5.0` holds exactly when the
      word makes up at least 5.05 % of the long words. */
  lemma StuffingThreshold(count: nat, n: nat)
    ensures Density10(count, n) > 50 <==> 2000 * count >= 101 * (if n == 0 then 1 else n)
  {
    var m := if n == 0 then 1 else n;
    var d := Density10(count, n);
    if d > 50 {
      MulMono(m, 101, 2 * d - 1);
    } else {
      MulMono(m, 2 * d + 1, 101);
    }
  }

  lemma MulMono(m: nat, a: int, b: int)
    requires a <= b
    ensures m * a <= m * b
  {
  }
}

=== FILE: lighthouse.dfy ===
/** The external-audit issue extractor `extractLighthouseIssues`
    (src/app/api/analyze/route.ts:625-696): nine rules over the audit map of a
    Lighthouse report, each pushing at most one issue, in a fixed order.

    JavaScript's comparison semantics decide when a rule fires. A missing audit
    never fires (`undefined < 0.9` and `undefined === 0` are both false). An
    audit whose score is `null` fires every `< 0.9` rule (null compares as 0) but
    no `=== 0` rule. */
module Lighthouse {
  import opened Base
  import opened Issues

  /** One entry of an audit's `details.items`: the `url` field and the
      `node.snippet` field. */
  datatype DetailItem = DetailItem(url: string, snippet: string)

  /** An audit: its score (`None` is JSON `null`) and its `details.items`, if the
      audit has any. */
  datatype Audit = Audit(score: Option<real>, items: Option<seq<DetailItem>>)

  type Audits = map<string, Audit>

  /** `audits[id]?.score < 0.9` */
  predicate BelowThreshold(audits: Audits, id: string) {
    id in audits && (audits[id].score.None? || audits[id].score.value < 0.9)
  }

  /** `audits[id]?.score === 0` */
  predicate ScoredZero(audits: Audits, id: string) {
    id in audits && audits[id].score == Some(0.0)
  }

  datatype Test = BelowPointNine | IsZero

  /** Which field of each detail item an issue lists, if any. */
  datatype ItemField = NoItems | ItemUrls | ItemSnippets

  datatype AuditRule = AuditRule(
    id: string, test: Test, category: Category, priority: Priority, title: Title, field: ItemField)

  const RuleCount: nat := 9

  /** The nine rules: the rule at position `k`, in source order. */
  function RuleAt(k: nat): (rule: AuditRule)
    requires k < RuleCount
    ensures AuditRank(rule.title) == k
  {
    if k == 0 then AuditRule("uses-optimized-images", BelowPointNine, Performance, High, OptimizeImages, ItemUrls)
    else if k == 1 then AuditRule("offscreen-images", BelowPointNine, Performance, Medium, DeferOffscreenImages, ItemUrls)
    else if k == 2 then AuditRule("unused-css-rules", BelowPointNine, Performance, Medium, RemoveUnusedCss, ItemUrls)
    else if k == 3 then AuditRule("render-blocking-resources", BelowPointNine, Performance, High, EliminateRenderBlockingResources, ItemUrls)
    else if k == 4 then AuditRule("document-title", IsZero, SEO, Critical, MissingTitleTag, NoItems)
    else if k == 5 then AuditRule("meta-description", IsZero, SEO, High, MissingMetaDescription, NoItems)
    else if k == 6 then AuditRule("link-text", BelowPointNine, SEO, Medium, NonDescriptiveLinks, ItemSnippets)
    else if k == 7 then AuditRule("image-alt", BelowPointNine, Accessibility, High, MissingAltText, ItemSnippets)
    else AuditRule("is-on-https", IsZero, Security, Critical, NotUsingHttps, NoItems)
  }

  predicate Fires(rule: AuditRule, audits: Audits) {
    match rule.test
    case BelowPointNine => BelowThreshold(audits, rule.id)
    case IsZero => ScoredZero(audits, rule.id)
  }

  /** `details?.items?.map(i => i.url)` or `...map(i => i.node?.snippet)`. */
  function ItemsOf(field: ItemField, a: Audit): (r: Option<seq<string>>)
    ensures field.NoItems? || a.items.None? ==> r.None?
    ensures field.ItemUrls? && a.items.Some? ==>
      r.Some? && |r.value| == |a.items.value| && forall i :: 0 <= i < |r.value| ==> r.value[i] == a.items.value[i].url
    ensures field.ItemSnippets? && a.items.Some? ==>
      r.Some? && |r.value| == |a.items.value| && forall i :: 0 <= i < |r.value| ==> r.value[i] == a.items.value[i].snippet
  {
    match (field, a.items)
    case (NoItems, _) => None
    case (_, None) => None
    case (ItemUrls, Some(xs)) => Some(seq(|xs|, i requires 0 <= i < |xs| => xs[i].url))
    case (ItemSnippets, Some(xs)) => Some(seq(|xs|, i requires 0 <= i < |xs| => xs[i].snippet))
  }

  function Apply(rule: AuditRule, audits: Audits): (o: Option<Issue>)
    ensures o.Some? <==> Fires(rule, audits)
    ensures o.Some? ==> o.value.title == rule.title && o.value.category == rule.category && o.value.priority == rule.priority
  {
    if Fires(rule, audits) then Some(Issue(rule.category, rule.priority, rule.title, [], ItemsOf(rule.field, audits[rule.id])))
    else None
  }

  function AuditSlots(audits: Audits): (slots: seq<Option<Issue>>)
    ensures |slots| == RuleCount
  {
    seq(RuleCount, k requires 0 <= k < RuleCount => Apply(RuleAt(k), audits))
  }

  function ExtractLighthouseIssues(audits: Audits): seq<Issue> {
    Emit(AuditSlots(audits))
  }

  /** Position of a title among the nine rules; any other title has none. */
  function AuditRank(t: Title): int {
    match t
    case OptimizeImages => 0
    case DeferOffscreenImages => 1
    case RemoveUnusedCss => 2
    case EliminateRenderBlockingResources => 3
    case MissingTitleTag => 4
    case MissingMetaDescription => 5
    case NonDescriptiveLinks => 6
    case MissingAltText => 7
    case NotUsingHttps => 8
    case _ => -1
  }

  lemma AuditSlotsRanked(audits: Audits)
    ensures RankedSlots(AuditSlots(audits), AuditRank, 0)
  {
  }

  /** At most nine issues, in rule order, no rule twice. */
  lemma LighthouseShape(audits: Audits)
    ensures |ExtractLighthouseIssues(audits)| <= 9
    ensures forall i, j :: 0 <= i < j < |ExtractLighthouseIssues(audits)| ==>
      AuditRank(ExtractLighthouseIssues(audits)[i].title) < AuditRank(ExtractLighthouseIssues(audits)[j].title)
  {
    AuditSlotsRanked(audits);
    EmitRanked(AuditSlots(audits), AuditRank, 0);
  }

  /** Each rule's issue, with its category and priority, is raised exactly when
      the rule's test holds of its audit. */
  lemma RuleFires(audits: Audits, k: nat)
    requires k < RuleCount
    ensures Raised(ExtractLighthouseIssues(audits), RuleAt(k).category, RuleAt(k).priority, RuleAt(k).title) <==> Fires(RuleAt(k), audits)
  {
    var rule := RuleAt(k);
    AuditSlotsRanked(audits);
    EmitRaised(AuditSlots(audits), AuditRank, 0, rule.category, rule.priority, rule.title);
  }

  /** A rule whose audit is missing from the report never fires. */
  lemma AbsentAuditSilent(audits: Audits, k: nat)
    requires k < RuleCount && RuleAt(k).id !in audits
    ensures !HasTitle(ExtractLighthouseIssues(audits), RuleAt(k).title)
  {
    AuditSlotsRanked(audits);
    EmitMembers(AuditSlots(audits));
  }

  /** An emitted issue lists the urls or snippets of its audit's detail items,
      as its rule prescribes. */
  lemma IssueItems(audits: Audits, i: nat)
    requires i < |ExtractLighthouseIssues(audits)|
    ensures var x := ExtractLighthouseIssues(audits)[i];
      exists k :: 0 <= k < RuleCount && RuleAt(k).title == x.title && Fires(RuleAt(k), audits)
        && x.items == ItemsOf(RuleAt(k).field, audits[RuleAt(k).id])
  {
    var x := ExtractLighthouseIssues(audits)[i];
    EmitMembers(AuditSlots(audits));
    var k :| 0 <= k < |AuditSlots(audits)| && AuditSlots(audits)[k] == Some(x);
  }

  /** A report with no audits yields no issues. */
  lemma EmptyReport()
    ensures ExtractLighthouseIssues(map[]) == []
  {
    var slots := AuditSlots(map[]);
    assert forall k :: 0 <= k < |slots| ==> slots[k].None?;
    EmitNone(slots);
  }
}

=== FILE: links.dfy ===
/** The link profile of the page scanner (src/app/api/analyze/route.ts:356-375):
    one pass over the page's anchors that counts every distinct resolved link
    once, as internal or external and as dofollow or nofollow.

    URL resolution (`new URL(href, url).href`) is the parameter `resolve`; `None`
    stands for the exception the source catches, which skips the anchor. */
module Links {
  import opened Base

  /** An `<a>` element: its `href` and `rel` attributes, if present. */
  datatype Anchor = Anchor(href: Option<string>, rel: Option<string>)

  /** `href && !href.startsWith('#') && !href.startsWith('javascript:')` */
  predicate Eligible(href: Option<string>) {
    href.Some? && href.value != "" && !StartsWith(href.value, "#") && !StartsWith(href.value, "javascript:")
  }

  /** `(attr('rel') || '').includes('nofollow')` */
  predicate NoFollow(rel: Option<string>) {
    Contains(rel.GetOr(""), "nofollow")
  }

  /** An eligible anchor whose href resolved: the absolute URL and its rel verdict. */
  datatype Candidate = Candidate(url: string, nofollow: bool)

  /** The candidate an anchor contributes, if any. */
  function CandidateOf(a: Anchor, resolve: string -> Option<string>): Option<Candidate> {
    if Eligible(a.href) && resolve(a.href.value).Some? then Some(Candidate(resolve(a.href.value).value, NoFollow(a.rel)))
    else None
  }

  /** The candidates of the anchors, in document order. */
  function Candidates(anchors: seq<Anchor>, resolve: string -> Option<string>): (cs: seq<Candidate>)
    ensures |cs| <= |anchors|
    ensures forall i :: 0 <= i < |cs| ==> exists j :: 0 <= j < |anchors| && CandidateOf(anchors[j], resolve) == Some(cs[i])
    ensures forall j :: 0 <= j < |anchors| && CandidateOf(anchors[j], resolve).Some? ==> CandidateOf(anchors[j], resolve).value in cs
    ensures |anchors| == 1 ==> cs == (if CandidateOf(anchors[0], resolve).Some? then [CandidateOf(anchors[0], resolve).value] else [])
  {
    if |anchors| == 0 then []
    else
      var n := |anchors| - 1;
      assert forall j :: 0 <= j < n ==> anchors[..n][j] == anchors[j];
      var c := CandidateOf(anchors[n], resolve);
      Candidates(anchors[..n], resolve) + (if c.Some? then [c.value] else [])
  }

  lemma CandidatesSnoc(t: seq<Anchor>, x: Anchor, resolve: string -> Option<string>)
    ensures Candidates(t + [x], resolve) == Candidates(t, resolve) + (if CandidateOf(x, resolve).Some? then [CandidateOf(x, resolve).value] else [])
  {
    assert (t + [x])[..|t|] == t;
  }

  /** Candidates keep document order: those of two runs of anchors are those
      of the first run, then those of the second. */
  lemma {:induction false} CandidatesAppend(a: seq<Anchor>, b: seq<Anchor>, resolve: string -> Option<string>)
    ensures Candidates(a + b, resolve) == Candidates(a, resolve) + Candidates(b, resolve)
    decreases |b|
  {
    if |b| == 0 {
      assert a + b == a;
    } else {
      var n := |b| - 1;
      var x, init := b[n], b[..n];
      assert a + b == (a + init) + [x];
      assert b == init + [x];
      CandidatesAppend(a, init, resolve);
      CandidatesSnoc(a + init, x, resolve);
      CandidatesSnoc(init, x, resolve);
    }
  }

  function Urls(cs: seq<Candidate>): (r: seq<string>)
    ensures |r| == |cs| && forall i :: 0 <= i < |cs| ==> r[i] == cs[i].url
  {
    seq(|cs|, i requires 0 <= i < |cs| => cs[i].url)
  }

  datatype LinkProfile = LinkProfile(internal: nat, external: nat, dofollow: nat, nofollow: nat)

  /** The state of the pass: the counters and the `uniqueLinks` set, kept in
      insertion order. */
  datatype Walk = Walk(profile: LinkProfile, seen: seq<string>)

  /** `fullUrl.includes(new URL(url).hostname)` */
  predicate Internal(host: string, u: string) {
    Contains(u, host)
  }

  /** The first candidate carrying `u` had a nofollow rel: that is the anchor the
      pass counts `u` by. */
  ghost predicate FirstNoFollow(cs: seq<Candidate>, u: string) {
    u in Urls(cs) && cs[FirstIndex(Urls(cs), u)].nofollow
  }

  ghost predicate WalkInvariant(cs: seq<Candidate>, host: string, w: Walk) {
    && IsDedupOf(w.seen, Urls(cs))
    && w.profile.internal + w.profile.external == |w.seen|
    && w.profile.dofollow + w.profile.nofollow == |w.seen|
    && w.profile.internal == CountIf(w.seen, u => Internal(host, u))
    && w.profile.nofollow == CountIf(w.seen, u => FirstNoFollow(cs, u))
  }

  /** One anchor of the pass: a link already in the set is skipped. */
  function Step(w: Walk, c: Candidate, host: string): Walk {
    if c.url in w.seen then w
    else
      var p := w.profile;
      var p := if Internal(host, c.url) then p.(internal := p.internal + 1) else p.(external := p.external + 1);
      var p := if c.nofollow then p.(nofollow := p.nofollow + 1) else p.(dofollow := p.dofollow + 1);
      Walk(p, w.seen + [c.url])
  }

  /** Links already seen keep the anchor they were first counted by when
      another candidate arrives. */
  lemma NoFollowStable(cs: seq<Candidate>, seen: seq<string>)
    requires |cs| > 0 && forall i :: 0 <= i < |seen| ==> seen[i] in Urls(cs[..|cs| - 1])
    ensures CountIf(seen, u => FirstNoFollow(cs[..|cs| - 1], u)) == CountIf(seen, u => FirstNoFollow(cs, u))
  {
    var n := |cs| - 1;
    assert Urls(cs[..n]) == Urls(cs)[..n];
    forall i | 0 <= i < |seen| ensures FirstNoFollow(cs[..n], seen[i]) == FirstNoFollow(cs, seen[i]) {
      FirstIndexOfPrefix(Urls(cs), n, seen[i]);
    }
    CountIfSame(seen, u => FirstNoFollow(cs[..n], u), u => FirstNoFollow(cs, u));
  }

  /** A new link is counted by the candidate that brought it. */
  lemma NewLinkFirst(cs: seq<Candidate>, seen: seq<string>)
    requires |cs| > 0 && IsDedupOf(seen, Urls(cs[..|cs| - 1])) && cs[|cs| - 1].url !in seen
    ensures FirstNoFollow(cs, cs[|cs| - 1].url) == cs[|cs| - 1].nofollow
  {
    var n := |cs| - 1;
    assert Urls(cs[..n]) == Urls(cs)[..n];
    assert Urls(cs)[n] == cs[n].url;
    assert cs[n].url !in Urls(cs)[..n];
    assert FirstIndex(Urls(cs), cs[n].url) == n;
  }

  /** A candidate whose link was already seen leaves the walk as it is. */
  lemma StepSeen(cs: seq<Candidate>, host: string, w: Walk)
    requires |cs| > 0 && WalkInvariant(cs[..|cs| - 1], host, w) && cs[|cs| - 1].url in w.seen
    ensures WalkInvariant(cs, host, w)
  {
    var n := |cs| - 1;
    var us := Urls(cs);
    assert Urls(cs[..n]) == us[..n];
    assert us[|us| - 1] in w.seen;
    DedupExtend(us, w.seen);
    NoFollowStable(cs, w.seen);
  }

  /** A new link extends the first-seen list of the longer candidate list. */
  lemma NewLinkDedup(cs: seq<Candidate>, seen: seq<string>)
    requires |cs| > 0 && IsDedupOf(seen, Urls(cs[..|cs| - 1])) && cs[|cs| - 1].url !in seen
    ensures IsDedupOf(seen + [cs[|cs| - 1].url], Urls(cs))
  {
    var n := |cs| - 1;
    var us := Urls(cs);
    assert Urls(cs[..n]) == us[..n];
    assert us[|us| - 1] == cs[n].url;
    DedupExtend(us, seen);
  }

  /** A new link adds one to the counts its host and its first anchor select. */
  lemma NewLinkCounts(cs: seq<Candidate>, host: string, seen: seq<string>)
    requires |cs| > 0 && IsDedupOf(seen, Urls(cs[..|cs| - 1])) && cs[|cs| - 1].url !in seen
    ensures var c := cs[|cs| - 1];
      CountIf(seen + [c.url], u => Internal(host, u)) == CountIf(seen, u => Internal(host, u)) + (if Internal(host, c.url) then 1 else 0)
    ensures var c := cs[|cs| - 1];
      CountIf(seen + [c.url], u => FirstNoFollow(cs, u)) == CountIf(seen, u => FirstNoFollow(cs[..|cs| - 1], u)) + (if c.nofollow then 1 else 0)
  {
    var c := cs[|cs| - 1];
    CountIfSnoc(seen, c.url, u => Internal(host, u));
    CountIfSnoc(seen, c.url, u => FirstNoFollow(cs, u));
    NewLinkFirst(cs, seen);
    NoFollowStable(cs, seen);
  }

  /** A candidate with a new link appends it and counts it. */
  lemma StepNew(cs: seq<Candidate>, host: string, w: Walk)
    requires |cs| > 0 && WalkInvariant(cs[..|cs| - 1], host, w) && cs[|cs| - 1].url !in w.seen
    ensures WalkInvariant(cs, host, Step(w, cs[|cs| - 1], host))
  {
    var c := cs[|cs| - 1];
    NewLinkDedup(cs, w.seen);
    NewLinkCounts(cs, host, w.seen);
    var w' := Step(w, c, host);
    assert w'.seen == w.seen + [c.url];
  }

  lemma StepKeeps(cs: seq<Candidate>, host: string, w: Walk)
    requires |cs| > 0 && WalkInvariant(cs[..|cs| - 1], host, w)
    ensures WalkInvariant(cs, host, Step(w, cs[|cs| - 1], host))
  {
    if cs[|cs| - 1].url in w.seen {
      StepSeen(cs, host, w);
    } else {
      StepNew(cs, host, w);
    }
  }

  /** The pass over the candidates. */
  function WalkLinks(cs: seq<Candidate>, host: string): (w: Walk)
    ensures WalkInvariant(cs, host, w)
  {
    if |cs| == 0 then Walk(LinkProfile(0, 0, 0, 0), [])
    else
      var w := WalkLinks(cs[..|cs| - 1], host);
      StepKeeps(cs, host, w);
      Step(w, cs[|cs| - 1], host)
  }

  /** The link profile and the distinct links in first-seen order. Each distinct
      resolved link is counted once: internal exactly when it contains the host
      name, nofollow exactly when the first anchor carrying it has a nofollow
      rel. */
  function ProfileLinks(anchors: seq<Anchor>, host: string, resolve: string -> Option<string>): (w: Walk)
    ensures IsDedupOf(w.seen, Urls(Candidates(anchors, resolve)))
    ensures w.profile.internal + w.profile.external == |w.seen| == w.profile.dofollow + w.profile.nofollow
    ensures w.profile.internal == CountIf(w.seen, u => Internal(host, u))
    ensures w.profile.nofollow == CountIf(w.seen, u => FirstNoFollow(Candidates(anchors, resolve), u))
  {
    WalkLinks(Candidates(anchors, resolve), host)
  }

  /** An anchor that is ineligible, or whose href does not resolve, changes
      nothing. */
  lemma IgnoredAnchor(anchors: seq<Anchor>, a: Anchor, host: string, resolve: string -> Option<string>)
    requires !Eligible(a.href) || resolve(a.href.value).None?
    ensures ProfileLinks(anchors + [a], host, resolve) == ProfileLinks(anchors, host, resolve)
  {
    var all := anchors + [a];
    assert all[..|anchors|] == anchors;
    assert CandidateOf(a, resolve).None?;
    assert Candidates(all, resolve) == Candidates(anchors, resolve);
  }

  /** An anchor whose link an earlier anchor already produced changes nothing
      either. */
  lemma RepeatedAnchor(anchors: seq<Anchor>, a: Anchor, host: string, resolve: string -> Option<string>)
    requires CandidateOf(a, resolve).Some?
    requires exists i :: (0 <= i < |anchors| && CandidateOf(anchors[i], resolve).Some?
      && CandidateOf(anchors[i], resolve).value.url == CandidateOf(a, resolve).value.url)
    ensures ProfileLinks(anchors + [a], host, resolve) == ProfileLinks(anchors, host, resolve)
  {
    var c := CandidateOf(a, resolve).value;
    var cs := Candidates(anchors, resolve);
    EarlierUrlSeen(anchors, c.url, resolve);
    CandidatesSnoc(anchors, a, resolve);
    assert (cs + [c])[..|cs|] == cs;
  }

  /** The link of any anchor is among the candidates' links. */
  lemma {:induction false} EarlierUrlSeen(anchors: seq<Anchor>, url: string, resolve: string -> Option<string>)
    requires exists i :: (0 <= i < |anchors| && CandidateOf(anchors[i], resolve).Some?
      && CandidateOf(anchors[i], resolve).value.url == url)
    ensures url in Urls(Candidates(anchors, resolve))
  {
    var cs := Candidates(anchors, resolve);
    var i :| 0 <= i < |anchors| && CandidateOf(anchors[i], resolve).Some? && CandidateOf(anchors[i], resolve).value.url == url;
    var k :| 0 <= k < |cs| && cs[k] == CandidateOf(anchors[i], resolve).value;
    assert Urls(cs)[k] == url;
  }
}

=== FILE: mechanical.dfy ===
/** The mechanical issue generator `generateMechanicalSuggestions`
    (src/app/api/analyze/route.ts:529-623): eleven independent rules over the
    scanner's record, each pushing at most one issue, in a fixed order. */
module Mechanical {
  import opened Base
  import opened Issues
  import opened PageModel

  /** Position of each mechanical issue title in rule order. The two outcomes of
      an if/else-if rule share a position; any other title has none. */
  function RuleRank(t: Title): int {
    match t
    case MissingTitleTag | ShortTitle => 0
    case MissingH1Tag | MultipleH1Tags => 1
    case SkippedHeadingLevels => 2
    case MissingCanonicalTag | CanonicalMismatch => 3
    case ThinContent => 4
    case KeywordStuffingDetected => 5
    case MissingAltText => 6
    case WordPressOptimization => 7
    case MissingSitemap => 8
    case MissingRobotsTxt => 9
    case NotUsingHttps => 10
    case _ => -1
  }

  function Plain(c: Category, p: Priority, t: Title): Issue {
    Issue(c, p, t, [], None)
  }

  // ---- heading hierarchy ----

  /** Number of headings of the given level (`filter(h => h.tag === 'H1').length`). */
  function LevelCount(hs: seq<Heading>, level: nat): (n: nat)
    ensures n <= |hs|
  {
    if |hs| == 0 then 0
    else (if hs[|hs| - 1].level == level then 1 else 0) + LevelCount(hs[..|hs| - 1], level)
  }

  /** The level the hierarchy check compares heading `i` with: the level of the
      heading before it, or `start` for the first one. */
  function PrevLevel(hs: seq<Heading>, start: nat, i: nat): nat
    requires i < |hs|
  {
    if i == 0 then start else hs[i - 1].level
  }

  /** A heading is more than one level deeper than its predecessor. */
  ghost predicate SkipsLevel(hs: seq<Heading>, start: nat) {
    exists i :: 0 <= i < |hs| && hs[i].level > PrevLevel(hs, start, i) + 1
  }

  /** The hierarchy walk: each heading that jumps more than one level, paired
      with the level it jumped from; `lastLevel` then becomes its own level. */
  function Skips(hs: seq<Heading>, lastLevel: nat): seq<(nat, nat)> {
    if |hs| == 0 then []
    else
      (if hs[0].level > lastLevel + 1 then [(hs[0].level, lastLevel)] else [])
      + Skips(hs[1..], hs[0].level)
  }

  /** The walk reports something exactly when some heading skips a level. */
  lemma {:induction false} SkipsCharacterized(hs: seq<Heading>, start: nat)
    ensures |Skips(hs, start)| > 0 <==> SkipsLevel(hs, start)
  {
    if |hs| > 0 {
      var tail := hs[1..];
      SkipsCharacterized(tail, hs[0].level);
      if SkipsLevel(tail, hs[0].level) {
        var i :| 0 <= i < |tail| && tail[i].level > PrevLevel(tail, hs[0].level, i) + 1;
        assert hs[i + 1] == tail[i] && PrevLevel(hs, start, i + 1) == PrevLevel(tail, hs[0].level, i);
      }
      if SkipsLevel(hs, start) && hs[0].level <= start + 1 {
        var i :| 0 <= i < |hs| && hs[i].level > PrevLevel(hs, start, i) + 1;
        assert tail[i - 1] == hs[i] && PrevLevel(hs, start, i) == PrevLevel(tail, hs[0].level, i - 1);
      }
    }
  }

  /** Everything the walk reports is a heading that skips a level, paired with
      the level before it. */
  lemma {:induction false} SkipsSound(hs: seq<Heading>, start: nat)
    ensures forall k :: 0 <= k < |Skips(hs, start)| ==>
      exists i :: 0 <= i < |hs| && Skips(hs, start)[k] == (hs[i].level, PrevLevel(hs, start, i)) && hs[i].level > PrevLevel(hs, start, i) + 1
  {
    if |hs| > 0 {
      var tail := hs[1..];
      SkipsSound(tail, hs[0].level);
      assert forall i :: 0 <= i < |tail| ==> PrevLevel(tail, hs[0].level, i) == PrevLevel(hs, start, i + 1) && tail[i] == hs[i + 1];
      var s := Skips(hs, start);
      var head := if hs[0].level > start + 1 then [(hs[0].level, start)] else [];
      assert s == head + Skips(tail, hs[0].level);
      forall k | 0 <= k < |s|
        ensures exists i :: 0 <= i < |hs| && s[k] == (hs[i].level, PrevLevel(hs, start, i)) && hs[i].level > PrevLevel(hs, start, i) + 1
      {
        if k < |head| {
          assert s[k] == (hs[0].level, PrevLevel(hs, start, 0));
        } else {
          var j :| 0 <= j < |tail| && Skips(tail, hs[0].level)[k - |head|] == (tail[j].level, PrevLevel(tail, hs[0].level, j))
            && tail[j].level > PrevLevel(tail, hs[0].level, j) + 1;
          assert tail[j] == hs[j + 1] && PrevLevel(hs, start, j + 1) == PrevLevel(tail, hs[0].level, j);
          assert s[k] == (hs[j + 1].level, PrevLevel(hs, start, j + 1));
        }
      }
    } else {
      assert Skips(hs, start) == [];
    }
  }

  /** `${h.tag} follows H${lastLevel}` */
  function SkipText(skip: (nat, nat)): string {
    "H" + NatToString(skip.0) + " follows H" + NatToString(skip.1)
  }

  // ---- keyword stuffing and alt text ----

  /** `keywords.filter(k => parseFloat(k.density) > 5.0)` */
  function Stuffed(ks: seq<Keyword>): (r: seq<Keyword>)
    ensures forall k :: k in r <==> k in ks && k.density10 > 50
    ensures |r| <= |ks|
    ensures NoDups(ks) ==> NoDups(r) && forall i, j :: 0 <= i < j < |r| ==> FirstIndex(ks, r[i]) < FirstIndex(ks, r[j])
  {
    if |ks| == 0 then []
    else
      var n := |ks| - 1;
      var p := Stuffed(ks[..n]);
      assert ks == ks[..n] + [ks[n]];
      PrefixOrder(ks, p);
      p + (if ks[n].density10 > 50 then [ks[n]] else [])
  }

  /** Appending the last keyword keeps the first-occurrence order of a
      filtered prefix. */
  lemma PrefixOrder(ks: seq<Keyword>, p: seq<Keyword>)
    requires |ks| > 0
    requires forall i :: 0 <= i < |p| ==> p[i] in ks[..|ks| - 1]
    requires NoDups(ks[..|ks| - 1]) ==> NoDups(p) && forall i, j :: 0 <= i < j < |p| ==> FirstIndex(ks[..|ks| - 1], p[i]) < FirstIndex(ks[..|ks| - 1], p[j])
    ensures NoDups(ks) ==> var r := p + [ks[|ks| - 1]];
      NoDups(r) && forall i, j :: 0 <= i < j < |r| ==> FirstIndex(ks, r[i]) < FirstIndex(ks, r[j])
    ensures NoDups(ks) ==> forall i, j :: 0 <= i < j < |p| ==> FirstIndex(ks, p[i]) < FirstIndex(ks, p[j])
  {
    var n := |ks| - 1;
    if NoDups(ks) {
      assert ks == ks[..n] + [ks[n]];
      assert NoDups(ks[..n]);
      forall i | 0 <= i < |p| ensures FirstIndex(ks[..n], p[i]) == FirstIndex(ks, p[i]) < n {
        FirstIndexOfPrefix(ks, n, p[i]);
      }
      assert ks[n] !in ks[..n];
      assert FirstIndex(ks, ks[n]) == n;
    }
  }

  function Words(ks: seq<Keyword>): seq<string> {
    seq(|ks|, i requires 0 <= i < |ks| => ks[i].word)
  }

  predicate NoAlt(x: Image) {
    x.alt == ""
  }

  /** `images.filter(img => !img.alt)` */
  function MissingAlt(imgs: seq<Image>): (r: seq<Image>)
    ensures forall x :: x in r <==> x in imgs && x.alt == ""
    ensures |r| == CountIf(imgs, NoAlt)
    ensures |imgs| == 1 ==> r == (if imgs[0].alt == "" then imgs else [])
  {
    if |imgs| == 0 then []
    else
      assert imgs == imgs[..|imgs| - 1] + [imgs[|imgs| - 1]];
      MissingAlt(imgs[..|imgs| - 1]) + (if imgs[|imgs| - 1].alt == "" then [imgs[|imgs| - 1]] else [])
  }

  lemma MissingAltSnoc(t: seq<Image>, x: Image)
    ensures MissingAlt(t + [x]) == MissingAlt(t) + (if x.alt == "" then [x] else [])
  {
    assert (t + [x])[..|t|] == t;
  }

  /** The filter keeps list order: the images without alt of two runs are
      those of the first run, then those of the second. */
  lemma {:induction false} MissingAltAppend(a: seq<Image>, b: seq<Image>)
    ensures MissingAlt(a + b) == MissingAlt(a) + MissingAlt(b)
    decreases |b|
  {
    if |b| == 0 {
      assert a + b == a;
    } else {
      var n := |b| - 1;
      var x, init := b[n], b[..n];
      assert a + b == (a + init) + [x];
      assert b == init + [x];
      MissingAltAppend(a, init);
      MissingAltSnoc(a + init, x);
      MissingAltSnoc(init, x);
    }
  }

  function Sources(imgs: seq<Image>): seq<string> {
    seq(|imgs|, i requires 0 <= i < |imgs| => imgs[i].src)
  }

  // ---- the eleven rules, in source order ----

  function TitleRule(d: PageData): (o: Option<Issue>)
    ensures o.Some? ==> RuleRank(o.value.title) == 0
  {
    if d.title == "" then Some(Plain(SEO, Critical, MissingTitleTag))
    else if Utf16Length(d.title) < 30 then Some(Plain(SEO, Medium, ShortTitle))
    else None
  }

  function H1Rule(d: PageData): (o: Option<Issue>)
    ensures o.Some? ==> RuleRank(o.value.title) == 1
  {
    if d.h1 == "" then Some(Plain(SEO, High, MissingH1Tag))
    else if LevelCount(d.headings, 1) > 1 then Some(Plain(SEO, Medium, MultipleH1Tags))
    else None
  }

  /** The description lists the first three skips. */
  function HierarchyRule(d: PageData): (o: Option<Issue>)
    ensures o.Some? ==> RuleRank(o.value.title) == 2
  {
    var skips := Skips(d.headings, 1);
    if |d.headings| > 0 && |skips| > 0 then
      var shown := Take(skips, 3);
      Some(Issue(SEO, Low, SkippedHeadingLevels, seq(|shown|, i requires 0 <= i < |shown| => SkipText(shown[i])), None))
    else None
  }

  /** `data.metaTags.canonical !== data.url`: with no url every non-empty
      canonical differs from it. */
  function CanonicalRule(d: PageData): (o: Option<Issue>)
    ensures o.Some? ==> RuleRank(o.value.title) == 3
  {
    if d.metaTags.Some? && d.metaTags.value.canonical == "" then
      Some(Plain(SEO, Medium, MissingCanonicalTag))
    else if d.metaTags.Some? && d.metaTags.value.canonical != ""
         && (d.url.None? || d.metaTags.value.canonical != d.url.value) then
      Some(Plain(SEO, Low, CanonicalMismatch))
    else None
  }

  /** `data.content?.wordCount < 300` is false when there is no content block. */
  function ThinContentRule(d: PageData): (o: Option<Issue>)
    ensures o.Some? ==> RuleRank(o.value.title) == 4
  {
    if d.wordCount.Some? && d.wordCount.value < 300 then
      Some(Issue(Content, High, ThinContent, [NatToString(d.wordCount.value)], None))
    else None
  }

  function StuffingRule(d: PageData): (o: Option<Issue>)
    ensures o.Some? ==> RuleRank(o.value.title) == 5
  {
    var stuffed := Stuffed(d.keywords);
    if |stuffed| > 0 then Some(Issue(Content, High, KeywordStuffingDetected, Words(stuffed), None))
    else None
  }

  function AltTextRule(d: PageData): (o: Option<Issue>)
    ensures o.Some? ==> RuleRank(o.value.title) == 6
  {
    if d.images.Some? && |d.images.value| > 0 && |MissingAlt(d.images.value)| > 0 then
      var missing := MissingAlt(d.images.value);
      Some(Issue(Accessibility, Medium, MissingAltText, [NatToString(|missing|)], Some(Sources(missing))))
    else None
  }

  function WordPressRule(d: PageData): (o: Option<Issue>)
    ensures o.Some? ==> RuleRank(o.value.title) == 7
  {
    if "WordPress" in d.techStack then Some(Plain(Performance, Medium, WordPressOptimization)) else None
  }

  function SitemapRule(d: PageData): (o: Option<Issue>)
    ensures o.Some? ==> RuleRank(o.value.title) == 8
  {
    if !d.resources.sitemap then Some(Plain(SEO, Medium, MissingSitemap)) else None
  }

  function RobotsRule(d: PageData): (o: Option<Issue>)
    ensures o.Some? ==> RuleRank(o.value.title) == 9
  {
    if !d.resources.robots then Some(Plain(SEO, Medium, MissingRobotsTxt)) else None
  }

  /** `data.url && !data.url.startsWith('https')` */
  function HttpsRule(d: PageData): (o: Option<Issue>)
    ensures o.Some? ==> RuleRank(o.value.title) == 10
  {
    if d.url.Some? && d.url.value != "" && !StartsWith(d.url.value, "https") then
      Some(Plain(Security, Critical, NotUsingHttps))
    else None
  }

  const RuleCount: nat := 11

  /** The rule at position `k` of the table. */
  function RuleSlot(d: PageData, k: nat): (o: Option<Issue>)
    requires k < RuleCount
    ensures o.Some? ==> RuleRank(o.value.title) == k
  {
    if k == 0 then TitleRule(d)
    else if k == 1 then H1Rule(d)
    else if k == 2 then HierarchyRule(d)
    else if k == 3 then CanonicalRule(d)
    else if k == 4 then ThinContentRule(d)
    else if k == 5 then StuffingRule(d)
    else if k == 6 then AltTextRule(d)
    else if k == 7 then WordPressRule(d)
    else if k == 8 then SitemapRule(d)
    else if k == 9 then RobotsRule(d)
    else HttpsRule(d)
  }

  function RuleSlots(d: PageData): (slots: seq<Option<Issue>>)
    ensures |slots| == RuleCount
  {
    seq(RuleCount, k requires 0 <= k < RuleCount => RuleSlot(d, k))
  }

  function GenerateMechanicalSuggestions(d: PageData): seq<Issue> {
    Emit(RuleSlots(d))
  }

  lemma SlotsRanked(d: PageData)
    ensures RankedSlots(RuleSlots(d), RuleRank, 0)
  {
  }

  /** At most eleven issues, in rule order, no rule twice. */
  lemma MechanicalShape(d: PageData)
    ensures |GenerateMechanicalSuggestions(d)| <= 11
    ensures forall i :: 0 <= i < |GenerateMechanicalSuggestions(d)| ==> 0 <= RuleRank(GenerateMechanicalSuggestions(d)[i].title)
    ensures forall i, j :: 0 <= i < j < |GenerateMechanicalSuggestions(d)| ==>
      RuleRank(GenerateMechanicalSuggestions(d)[i].title) < RuleRank(GenerateMechanicalSuggestions(d)[j].title)
  {
    SlotsRanked(d);
    EmitRanked(RuleSlots(d), RuleRank, 0);
  }

  /** Counting headings of a level: one is found exactly when one exists. */
  lemma {:induction false} LevelFound(hs: seq<Heading>, level: nat)
    ensures LevelCount(hs, level) >= 1 <==> exists i :: 0 <= i < |hs| && hs[i].level == level
  {
    if |hs| > 0 {
      var n := |hs| - 1;
      var init := hs[..n];
      LevelFound(init, level);
      if exists i :: 0 <= i < |hs| && hs[i].level == level {
        var i :| 0 <= i < |hs| && hs[i].level == level;
        if i < n { assert init[i].level == level; }
      }
      if LevelCount(init, level) >= 1 {
        var i :| 0 <= i < n && init[i].level == level;
        assert hs[i].level == level;
      }
    }
  }

  /** More than one heading of a level is counted exactly when two distinct
      headings have it. */
  lemma {:induction false} LevelCountWitnesses(hs: seq<Heading>, level: nat)
    ensures LevelCount(hs, level) > 1 <==>
      exists i, j :: 0 <= i < j < |hs| && hs[i].level == level && hs[j].level == level
  {
    if |hs| > 0 {
      var n := |hs| - 1;
      var init := hs[..n];
      LevelCountWitnesses(init, level);
      LevelFound(init, level);
      if exists i, j :: 0 <= i < j < |hs| && hs[i].level == level && hs[j].level == level {
        var i, j :| 0 <= i < j < |hs| && hs[i].level == level && hs[j].level == level;
        if j < n { assert init[i].level == level && init[j].level == level; }
        else { assert init[i].level == level; }
      }
      if LevelCount(init, level) > 1 {
        var i, j :| 0 <= i < j < n && init[i].level == level && init[j].level == level;
        assert hs[i].level == level && hs[j].level == level;
      }
      if hs[n].level == level && LevelCount(init, level) >= 1 {
        var i :| 0 <= i < n && init[i].level == level;
        assert hs[i].level == level && hs[n].level == level;
      }
    }
  }

  /** An issue is raised exactly when the rule of its rank pushed it. */
  lemma SlotRaised(d: PageData, k: nat, c: Category, p: Priority, t: Title)
    requires k < 11 && RuleRank(t) == k
    ensures Raised(GenerateMechanicalSuggestions(d), c, p, t) <==> Carries(RuleSlots(d)[k], c, p, t)
  {
    SlotsRanked(d);
    EmitRaised(RuleSlots(d), RuleRank, 0, c, p, t);
  }

  /** The title rule: a missing title, else one shorter than 30 characters. */
  lemma TitleRuleFires(d: PageData)
    ensures Raised(GenerateMechanicalSuggestions(d), SEO, Critical, MissingTitleTag) <==> d.title == ""
    ensures Raised(GenerateMechanicalSuggestions(d), SEO, Medium, ShortTitle) <==> d.title != "" && Utf16Length(d.title) < 30
  {
    SlotRaised(d, 0, SEO, Critical, MissingTitleTag);
    SlotRaised(d, 0, SEO, Medium, ShortTitle);
  }

  /** The H1 rule: a missing first H1, else more than one H1 heading. */
  lemma H1RuleFires(d: PageData)
    ensures Raised(GenerateMechanicalSuggestions(d), SEO, High, MissingH1Tag) <==> d.h1 == ""
    ensures Raised(GenerateMechanicalSuggestions(d), SEO, Medium, MultipleH1Tags) <==>
      d.h1 != "" && exists i, j :: 0 <= i < j < |d.headings| && d.headings[i].level == 1 && d.headings[j].level == 1
  {
    LevelCountWitnesses(d.headings, 1);
    SlotRaised(d, 1, SEO, High, MissingH1Tag);
    SlotRaised(d, 1, SEO, Medium, MultipleH1Tags);
  }

  /** Skipped levels are reported exactly when some heading is more than one
      level below the one before it, the first heading being compared with H1. */
  lemma HierarchyRuleFires(d: PageData)
    ensures Raised(GenerateMechanicalSuggestions(d), SEO, Low, SkippedHeadingLevels) <==>
      exists i :: 0 <= i < |d.headings| && d.headings[i].level > PrevLevel(d.headings, 1, i) + 1
  {
    SkipsCharacterized(d.headings, 1);
    SlotRaised(d, 2, SEO, Low, SkippedHeadingLevels);
  }

  /** The canonical rule: a missing canonical, or one that differs from the
      record's url (always, when the record has none). */
  lemma CanonicalRuleFires(d: PageData)
    ensures Raised(GenerateMechanicalSuggestions(d), SEO, Medium, MissingCanonicalTag) <==>
      d.metaTags.Some? && d.metaTags.value.canonical == ""
    ensures Raised(GenerateMechanicalSuggestions(d), SEO, Low, CanonicalMismatch) <==>
      d.metaTags.Some? && d.metaTags.value.canonical != "" && (d.url.None? || d.url.value != d.metaTags.value.canonical)
  {
    SlotRaised(d, 3, SEO, Medium, MissingCanonicalTag);
    SlotRaised(d, 3, SEO, Low, CanonicalMismatch);
  }

  /** Thin content: a counted body of fewer than 300 words. */
  lemma ThinContentRuleFires(d: PageData)
    ensures Raised(GenerateMechanicalSuggestions(d), Content, High, ThinContent) <==>
      d.wordCount.Some? && d.wordCount.value < 300
  {
    SlotRaised(d, 4, Content, High, ThinContent);
  }

  lemma StuffedNonEmpty(ks: seq<Keyword>)
    ensures |Stuffed(ks)| > 0 <==> exists i :: 0 <= i < |ks| && ks[i].density10 > 50
  {
    if exists i :: 0 <= i < |ks| && ks[i].density10 > 50 {
      var i :| 0 <= i < |ks| && ks[i].density10 > 50;
      assert ks[i] in Stuffed(ks);
    }
  }

  lemma MissingAltNonEmpty(imgs: seq<Image>)
    ensures |MissingAlt(imgs)| > 0 <==> exists i :: 0 <= i < |imgs| && imgs[i].alt == ""
  {
    if exists i :: 0 <= i < |imgs| && imgs[i].alt == "" {
      var i :| 0 <= i < |imgs| && imgs[i].alt == "";
      assert imgs[i] in MissingAlt(imgs);
    }
  }

  /** Keyword stuffing: some listed keyword above 5.0 % density. */
  lemma StuffingRuleFires(d: PageData)
    ensures Raised(GenerateMechanicalSuggestions(d), Content, High, KeywordStuffingDetected) <==>
      exists i :: 0 <= i < |d.keywords| && d.keywords[i].density10 > 50
  {
    SlotRaised(d, 5, Content, High, KeywordStuffingDetected);
    assert RuleSlots(d)[5] == StuffingRule(d);
    StuffedNonEmpty(d.keywords);
  }

  /** Missing alt text: some listed image with an empty alt. */
  lemma AltTextRuleFires(d: PageData)
    ensures Raised(GenerateMechanicalSuggestions(d), Accessibility, Medium, MissingAltText) <==>
      d.images.Some? && exists i :: 0 <= i < |d.images.value| && d.images.value[i].alt == ""
  {
    SlotRaised(d, 6, Accessibility, Medium, MissingAltText);
    assert RuleSlots(d)[6] == AltTextRule(d);
    if d.images.Some? {
      MissingAltNonEmpty(d.images.value);
    }
  }

  /** The technical and security rules. */
  lemma WordPressRuleFires(d: PageData)
    ensures Raised(GenerateMechanicalSuggestions(d), Performance, Medium, WordPressOptimization) <==> "WordPress" in d.techStack
  {
    SlotRaised(d, 7, Performance, Medium, WordPressOptimization);
  }

  lemma ResourceRulesFire(d: PageData)
    ensures Raised(GenerateMechanicalSuggestions(d), SEO, Medium, MissingSitemap) <==> !d.resources.sitemap
    ensures Raised(GenerateMechanicalSuggestions(d), SEO, Medium, MissingRobotsTxt) <==> !d.resources.robots
  {
    SlotRaised(d, 8, SEO, Medium, MissingSitemap);
    SlotRaised(d, 9, SEO, Medium, MissingRobotsTxt);
  }

  lemma HttpsRuleFires(d: PageData)
    ensures Raised(GenerateMechanicalSuggestions(d), Security, Critical, NotUsingHttps) <==>
      d.url.Some? && d.url.value != "" && !StartsWith(d.url.value, "https")
  {
    SlotRaised(d, 10, Security, Critical, NotUsingHttps);
  }

  /** Two titles of the same rule never appear together. */
  lemma SameRuleExclusive(d: PageData, a: Title, b: Title)
    requires a != b && RuleRank(a) == RuleRank(b) >= 0
    ensures !(HasTitle(GenerateMechanicalSuggestions(d), a) && HasTitle(GenerateMechanicalSuggestions(d), b))
  {
    MechanicalShape(d);
  }

  /** The two outcomes of one if/else-if rule never appear together. */
  lemma ExclusiveOutcomes(d: PageData)
    ensures !(HasTitle(GenerateMechanicalSuggestions(d), MissingTitleTag) && HasTitle(GenerateMechanicalSuggestions(d), ShortTitle))
    ensures !(HasTitle(GenerateMechanicalSuggestions(d), MissingH1Tag) && HasTitle(GenerateMechanicalSuggestions(d), MultipleH1Tags))
    ensures !(HasTitle(GenerateMechanicalSuggestions(d), MissingCanonicalTag) && HasTitle(GenerateMechanicalSuggestions(d), CanonicalMismatch))
  {
    SameRuleExclusive(d, MissingTitleTag, ShortTitle);
    SameRuleExclusive(d, MissingH1Tag, MultipleH1Tags);
    SameRuleExclusive(d, MissingCanonicalTag, CanonicalMismatch);
  }

  /** The stuffing issue names exactly the keywords whose density is above
      5.0 %, in list order. */
  lemma StuffingNamesKeywords(d: PageData, i: nat)
    requires i < |GenerateMechanicalSuggestions(d)|
    requires GenerateMechanicalSuggestions(d)[i].title == KeywordStuffingDetected
    ensures GenerateMechanicalSuggestions(d)[i].detail == Words(Stuffed(d.keywords))
    ensures |Stuffed(d.keywords)| > 0
  {
    var slots := RuleSlots(d);
    SlotsRanked(d);
    EmitSlotOf(slots, RuleRank, 0, i);
    assert slots[5] == Some(Emit(slots)[i]);
    assert slots[5] == RuleSlot(d, 5) == StuffingRule(d);
  }

  /** The alt-text issue lists the sources of exactly the images without alt
      text, and counts them. */
  lemma AltTextListsImages(d: PageData, i: nat)
    requires i < |GenerateMechanicalSuggestions(d)|
    requires GenerateMechanicalSuggestions(d)[i].title == MissingAltText
    ensures d.images.Some? && GenerateMechanicalSuggestions(d)[i].items == Some(Sources(MissingAlt(d.images.value)))
    ensures GenerateMechanicalSuggestions(d)[i].detail == [NatToString(CountIf(d.images.value, NoAlt))]
  {
    var slots := RuleSlots(d);
    SlotsRanked(d);
    EmitSlotOf(slots, RuleRank, 0, i);
    assert slots[6] == Some(Emit(slots)[i]);
    assert slots[6] == RuleSlot(d, 6) == AltTextRule(d);
  }

  /** The record of a page that could not be fetched draws exactly four
      issues: no title, no H1, no sitemap, no robots.txt. */
  lemma FailedScanIssues()
    ensures GenerateMechanicalSuggestions(FailedScan) ==
      [Plain(SEO, Critical, MissingTitleTag), Plain(SEO, High, MissingH1Tag),
       Plain(SEO, Medium, MissingSitemap), Plain(SEO, Medium, MissingRobotsTxt)]
  {
    var d := FailedScan;
    var slots := RuleSlots(d);
    assert slots[0] == Some(Plain(SEO, Critical, MissingTitleTag));
    assert slots[1] == Some(Plain(SEO, High, MissingH1Tag));
    assert slots[2] == None by { assert Skips([], 1) == []; }
    assert slots[5] == None by { assert Stuffed([]) == []; }
    assert slots[8] == Some(Plain(SEO, Medium, MissingSitemap));
    assert slots[9] == Some(Plain(SEO, Medium, MissingRobotsTxt));
    EmitPicks(slots);
  }

  lemma EmitPicks(slots: seq<Option<Issue>>)
    requires |slots| == 11
    requires slots[2].None? && slots[3].None? && slots[4].None? && slots[5].None?
    requires slots[6].None? && slots[7].None? && slots[10].None?
    requires slots[0].Some? && slots[1].Some? && slots[8].Some? && slots[9].Some?
    ensures Emit(slots) == [slots[0].value, slots[1].value, slots[8].value, slots[9].value]
  {
    var a, b, c, e := slots[0].value, slots[1].value, slots[8].value, slots[9].value;
    EmitLate(slots);
    EmitStep(slots, 1);
    assert Emit(slots[1..]) == [b] + [c, e];
    EmitStep(slots, 0);
    assert slots[0..] == slots;
    assert Emit(slots) == [a] + [b, c, e];
  }

  lemma EmitLate(slots: seq<Option<Issue>>)
    requires |slots| == 11
    requires slots[2].None? && slots[3].None? && slots[4].None? && slots[5].None?
    requires slots[6].None? && slots[7].None? && slots[10].None?
    requires slots[8].Some? && slots[9].Some?
    ensures Emit(slots[2..]) == [slots[8].value, slots[9].value]
  {
    assert Emit(slots[11..]) == [];
    EmitStep(slots, 10);
    EmitStep(slots, 9);
    EmitStep(slots, 8);
    assert Emit(slots[8..]) == [slots[8].value, slots[9].value];
    EmitStep(slots, 7);
    EmitStep(slots, 6);
    EmitStep(slots, 5);
    EmitStep(slots, 4);
    EmitStep(slots, 3);
    EmitStep(slots, 2);
  }
}

=== FILE: page_model.dfy ===
/** The record `runUltimateScanner` returns (the route calls it `localData`),
    restricted to the fields that scoring, the issue rules and the index-status
    block read. Optional fields are the ones its fetch-failure sentinel leaves out. */
module PageModel {
  import opened Base

  /** One `h1`..`h6` element: `level` is the digit of its upper-cased tag name. */
  datatype Heading = Heading(level: nat, text: string)

  /** One top-keyword entry; `density10` is the density in tenths of a percent. */
  datatype Keyword = Keyword(word: string, count: nat, density10: nat)

  /** An image with a resolved `src`; a missing `alt` is the empty string. */
  datatype Image = Image(src: string, alt: string)

  datatype MetaTags = MetaTags(robots: string, generator: string, viewport: string, canonical: string)

  /** `robots`: robots.txt was not classified Missing; `sitemap`: a sitemap URL is known. */
  datatype Resources = Resources(robots: bool, sitemap: bool)

  datatype PageData = PageData(
    url: Option<string>,
    title: string,
    description: string,
    h1: string,
    headings: seq<Heading>,
    metaTags: Option<MetaTags>,
    wordCount: Option<nat>,
    keywords: seq<Keyword>,
    images: Option<seq<Image>>,
    techStack: seq<string>,
    resources: Resources,
    internalLinks: nat)

  /** What the scanner returns when the page fetch fails: empty strings and
      collections, no meta tags, no content block, no images, no url. */
  const FailedScan: PageData :=
    PageData(None, "", "", "", [], None, None, [], None, [], Resources(false, false), 0)
}

=== FILE: probes.dfy ===
/** Derivations over the analysis route's probe results
    (src/app/api/analyze/route.ts): the index-status block of the handler, the
    robots.txt and sitemap analysis, the DNS mail records, the security-header
    audits, TLS certificate lifetime and the broken-link classification.

    Every network answer is an input: `None` stands for a request that threw.
    For robots.txt and the sitemaps that includes a status axios rejects; a
    HEAD answer keeps its status, since the two HEAD requests of the security
    probes treat it differently. The robots.txt regular expressions are the
    parameters `blocksAll` and `declaredSitemap`. */
module Probes {
  import opened Base
  import opened PageModel

  // ---- index status (71-83) ----

  datatype Blocking = NoIndexMeta | MissingRobots | NotBlocked

  function BlockingLabel(b: Blocking): string {
    match b
    case NoIndexMeta => "Meta Tag (noindex)"
    case MissingRobots => "Missing Robots.txt"
    case NotBlocked => "None"
  }

  datatype IndexStatus = IndexStatus(indexable: bool, blocking: Blocking, estimatedPages: nat, sitemapCount: nat)

  /** `Math.round(n * 1.2)`: the integer nearest to 1.2 n. The fraction of 1.2 n
      is a multiple of 0.2, so there is never a tie. */
  function RoundSixFifths(n: nat): (r: nat)
    ensures r as real - 0.5 < 1.2 * n as real < r as real + 0.5
  {
    (6 * n + 2) / 5
  }

  /** The robots meta tag, or the empty string when the record has none. */
  function RobotsMeta(d: PageData): string {
    if d.metaTags.Some? then d.metaTags.value.robots else ""
  }

  function ComputeIndexStatus(d: PageData): (s: IndexStatus)
    ensures s.indexable <==> !Contains(RobotsMeta(d), "noindex") && d.resources.robots
    ensures s.blocking == NoIndexMeta <==> Contains(RobotsMeta(d), "noindex")
    ensures s.blocking == MissingRobots <==> !Contains(RobotsMeta(d), "noindex") && !d.resources.robots
    ensures s.blocking == NotBlocked <==> s.indexable
    ensures Contains(RobotsMeta(d), "noindex") ==> s.estimatedPages == 0
    ensures !Contains(RobotsMeta(d), "noindex") && d.internalLinks == 0 ==> s.estimatedPages == 1
    ensures !Contains(RobotsMeta(d), "noindex") && d.internalLinks > 0 ==>
      s.estimatedPages as real - 0.5 < 1.2 * d.internalLinks as real < s.estimatedPages as real + 0.5
    ensures s.sitemapCount == d.internalLinks
  {
    var noIndex := Contains(RobotsMeta(d), "noindex");
    var blocked := !d.resources.robots;
    var estimated := if d.internalLinks > 0 then RoundSixFifths(d.internalLinks) else 1;
    IndexStatus(
      !noIndex && !blocked,
      if noIndex then NoIndexMeta else if blocked then MissingRobots else NotBlocked,
      if noIndex then 0 else estimated,
      d.internalLinks)
  }

  /** Under `noindex` the page counts as not indexed at all; otherwise at least
      one page is estimated. */
  lemma EstimateZeroOnlyUnderNoIndex(d: PageData)
    ensures ComputeIndexStatus(d).estimatedPages == 0 <==> Contains(RobotsMeta(d), "noindex")
  {
    if d.internalLinks > 0 {
      var r := RoundSixFifths(d.internalLinks);
      assert 1.2 * d.internalLinks as real >= 1.2;
    }
  }

  // ---- robots.txt and sitemap (752-803) ----

  /** A response axios resolved with: a 2xx status and the body text. */
  datatype HttpResponse = HttpResponse(status: nat, body: string)

  datatype RobotsStatus = Allowed | BlockedAll | Missing

  datatype SitemapResult = SitemapResult(sitemapUrl: Option<string>, pageCount: nat, robotsStatus: RobotsStatus)

  /** Number of positions at which `<loc>` starts. The pattern cannot overlap
      itself, so this is also the length of `match(/<loc>/g)`. */
  function LocCount(s: string): (n: nat)
    ensures n <= |s|
  {
    if |s| == 0 then 0
    else LocCount(s[1..]) + (if StartsWith(s, "<loc>") then 1 else 0)
  }

  lemma {:induction false} LocCountPositive(s: string)
    ensures LocCount(s) > 0 <==> Contains(s, "<loc>")
  {
    if |s| > 0 {
      LocCountPositive(s[1..]);
      if StartsWith(s, "<loc>") {
        assert OccursAt(s, "<loc>", 0);
      }
      if Contains(s[1..], "<loc>") {
        var i :| 0 <= i <= |s[1..]| - 5 && OccursAt(s[1..], "<loc>", i);
        assert s[i + 1..i + 6] == s[1..][i..i + 5];
        assert OccursAt(s, "<loc>", i + 1);
      }
      if Contains(s, "<loc>") {
        var i :| 0 <= i <= |s| - 5 && OccursAt(s, "<loc>", i);
        if i == 0 {
          assert StartsWith(s, "<loc>");
        } else {
          assert s[1..][i - 1..i + 4] == s[i..i + 5];
          assert OccursAt(s[1..], "<loc>", i - 1);
        }
      }
    }
  }

  /** The robots.txt verdict and the sitemap it declares. Only a 200 response
      is read; any other resolved response leaves the defaults. */
  function ReadRobots(robots: Option<HttpResponse>, blocksAll: string -> bool, declaredSitemap: string -> Option<string>)
    : (r: (RobotsStatus, Option<string>))
    ensures r.0 == Missing <==> robots.None?
    ensures r.0 == BlockedAll <==> robots.Some? && robots.value.status == 200 && blocksAll(robots.value.body)
    ensures r.1.Some? ==> robots.Some? && robots.value.status == 200 && declaredSitemap(robots.value.body) == r.1
    ensures robots.Some? && robots.value.status == 200 ==> r.1 == declaredSitemap(robots.value.body)
  {
    if robots.None? then (Missing, None)
    else if robots.value.status != 200 then (Allowed, None)
    else
      var body := robots.value.body;
      (if blocksAll(body) then BlockedAll else Allowed, declaredSitemap(body))
  }

  /** A candidate response that counts: status 200, a `<urlset` or
      `<sitemapindex` root, and at least one `<loc>`. */
  predicate Accepted(res: Option<HttpResponse>) {
    res.Some? && res.value.status == 200
    && (Contains(res.value.body, "<urlset") || Contains(res.value.body, "<sitemapindex"))
    && LocCount(res.value.body) > 0
  }

  /** The candidate list: the declared sitemap, then the three conventional
      locations (`/sitemap.xml`, `/sitemap_index.xml`, `/wp-sitemap.xml`
      resolved against the page, in that order), empty entries dropped,
      repeats dropped. */
  function SitemapCandidates(declared: Option<string>, fallbacks: seq<string>): (cs: seq<string>)
    ensures IsDedupOf(cs, NonEmpty((if declared.Some? then [declared.value] else []) + fallbacks))
    ensures NoDups(cs)
    ensures forall u :: u in cs <==> u != "" && ((declared.Some? && u == declared.value) || u in fallbacks)
    ensures declared.Some? && declared.value != "" ==> |cs| > 0 && cs[0] == declared.value
  {
    var raw := (if declared.Some? then [declared.value] else []) + fallbacks;
    var truthy := NonEmpty(raw);
    var cs := Dedup(truthy);
    DedupMembers(truthy);
    assert declared.Some? && declared.value != "" ==> |cs| > 0 && cs[0] == declared.value by {
      if declared.Some? && declared.value != "" {
        assert raw[0] == declared.value;
        assert truthy[0] == declared.value;
        DedupHead(truthy);
      }
    }
    cs
  }

  /** `filter(Boolean)` on strings. */
  function NonEmpty(s: seq<string>): (r: seq<string>)
    ensures forall u :: u in r <==> u in s && u != ""
    ensures |s| > 0 && s[0] != "" ==> |r| > 0 && r[0] == s[0]
    ensures |s| == 1 ==> r == (if s[0] != "" then s else [])
  {
    if |s| == 0 then []
    else
      assert s == [s[0]] + s[1..];
      (if s[0] != "" then [s[0]] else []) + NonEmpty(s[1..])
  }

  /** The filter keeps list order. */
  lemma {:induction false} NonEmptyAppend(a: seq<string>, b: seq<string>)
    ensures NonEmpty(a + b) == NonEmpty(a) + NonEmpty(b)
  {
    if |a| > 0 {
      var x, rest := a[0], a[1..];
      assert a + b == [x] + (rest + b);
      assert (a + b)[1..] == rest + b;
      NonEmptyAppend(rest, b);
    } else {
      assert a + b == b;
    }
  }

  /** The first candidate whose response is accepted, with its `<loc>` count. */
  function FirstAccepted(cs: seq<string>, fetch: string -> Option<HttpResponse>): (r: Option<(string, nat)>)
    ensures r.None? <==> forall i :: 0 <= i < |cs| ==> !Accepted(fetch(cs[i]))
    ensures r.Some? ==> exists k :: (
      && 0 <= k < |cs| && cs[k] == r.value.0 && Accepted(fetch(cs[k]))
      && r.value.1 == LocCount(fetch(cs[k]).value.body)
      && forall i :: 0 <= i < k ==> !Accepted(fetch(cs[i])))
  {
    if |cs| == 0 then None
    else if Accepted(fetch(cs[0])) then Some((cs[0], LocCount(fetch(cs[0]).value.body)))
    else
      var r := FirstAccepted(cs[1..], fetch);
      assert forall i :: 1 <= i < |cs| ==> cs[i] == cs[1..][i - 1];
      r
  }

  /** `analyzeSitemapAndRobots`: the first accepted candidate becomes the sitemap
      with its page count; when none is accepted the declared sitemap (if any)
      stays, with count 0. */
  function AnalyzeSitemapAndRobots(
    robots: Option<HttpResponse>, blocksAll: string -> bool, declaredSitemap: string -> Option<string>,
    fallbacks: seq<string>, fetch: string -> Option<HttpResponse>): (r: SitemapResult)
    ensures r.robotsStatus == ReadRobots(robots, blocksAll, declaredSitemap).0
    ensures var cs := SitemapCandidates(ReadRobots(robots, blocksAll, declaredSitemap).1, fallbacks);
      && (r.pageCount > 0 <==> exists i :: 0 <= i < |cs| && Accepted(fetch(cs[i])))
      && (r.pageCount > 0 ==> (
            && r.sitemapUrl.Some? && r.sitemapUrl.value in cs && Accepted(fetch(r.sitemapUrl.value))
            && r.pageCount == LocCount(fetch(r.sitemapUrl.value).value.body)))
      && (r.pageCount == 0 ==> r.sitemapUrl == ReadRobots(robots, blocksAll, declaredSitemap).1)
      && (r.pageCount > 0 ==> FirstAccepted(cs, fetch) == Some((r.sitemapUrl.value, r.pageCount)))
  {
    var (status, declared) := ReadRobots(robots, blocksAll, declaredSitemap);
    var cs := SitemapCandidates(declared, fallbacks);
    var found := FirstAccepted(cs, fetch);
    if found.Some? then
      var k :| 0 <= k < |cs| && cs[k] == found.value.0 && Accepted(fetch(cs[k]))
        && found.value.1 == LocCount(fetch(cs[k]).value.body);
      SitemapResult(Some(found.value.0), found.value.1, status)
    else SitemapResult(declared, 0, status)
  }

  /** The record's resource flags: robots.txt is known unless Missing; a
      sitemap is known when a url was found. */
  function ResourcesOf(s: SitemapResult): Resources {
    Resources(!s.robotsStatus.Missing?, s.sitemapUrl.Some? && s.sitemapUrl.value != "")
  }

  /** The record's resource flags as the probes decide them: robots.txt is
      known exactly when its request succeeded; a sitemap is known exactly when
      robots.txt declared one or some candidate was accepted. */
  lemma ResourceFlags(
    robots: Option<HttpResponse>, blocksAll: string -> bool, declaredSitemap: string -> Option<string>,
    fallbacks: seq<string>, fetch: string -> Option<HttpResponse>)
    ensures var declared := ReadRobots(robots, blocksAll, declaredSitemap).1;
      var cs := SitemapCandidates(declared, fallbacks);
      var r := ResourcesOf(AnalyzeSitemapAndRobots(robots, blocksAll, declaredSitemap, fallbacks, fetch));
      && (r.robots <==> robots.Some?)
      && (r.sitemap <==> (declared.Some? && declared.value != "") || exists i :: 0 <= i < |cs| && Accepted(fetch(cs[i])))
  {
  }

  // ---- DNS mail records (806-833) ----

  datatype MxRecord = MxRecord(exchange: string, priority: int)

  datatype MailConfig = MailConfig(spf: bool, dmarc: bool)

  datatype DnsDetails = DnsDetails(mx: seq<MxRecord>, txt: seq<string>, mailConfig: MailConfig)

  function MxPriority(m: MxRecord): int {
    m.priority
  }

  /** `flat()` */
  function Flatten(xss: seq<seq<string>>): (r: seq<string>)
    ensures forall x :: x in r <==> exists i :: 0 <= i < |xss| && x in xss[i]
    ensures |xss| == 1 ==> r == xss[0]
  {
    if |xss| == 0 then []
    else
      var n := |xss| - 1;
      assert forall i :: 0 <= i < n ==> xss[..n][i] == xss[i];
      Flatten(xss[..n]) + xss[n]
  }

  /** Flattening concatenates the record groups in order. */
  lemma {:induction false} FlattenAppend(a: seq<seq<string>>, b: seq<seq<string>>)
    ensures Flatten(a + b) == Flatten(a) + Flatten(b)
    decreases |b|
  {
    if |b| == 0 {
      assert a + b == a;
    } else {
      var n := |b| - 1;
      var x, init := b[n], b[..n];
      assert a + b == (a + init) + [x];
      assert b == init + [x];
      assert (a + b)[..|a + b| - 1] == a + init;
      assert b[..n] == init;
      FlattenAppend(a, init);
      var p, q := Flatten(a), Flatten(init);
      assert Flatten(a + b) == (p + q) + x;
      assert p + q + x == p + (q + x);
    }
  }

  /** `getDnsDetails`: MX records by ascending priority (a failed lookup gives
      none), TXT strings flattened, and the SPF and DMARC markers searched in
      every TXT string. */
  method GetDnsDetails(mx: Option<seq<MxRecord>>, txt: Option<seq<seq<string>>>) returns (d: DnsDetails)
    ensures mx.None? ==> d.mx == []
    ensures mx.Some? ==> multiset(d.mx) == multiset(mx.value) && SortedBy(d.mx, MxPriority)
    ensures txt.None? ==> d.txt == [] && d.mailConfig == MailConfig(false, false)
    ensures txt.Some? ==> d.txt == Flatten(txt.value)
    ensures d.mailConfig.spf <==> exists i :: 0 <= i < |d.txt| && Contains(d.txt[i], "v=spf1")
    ensures d.mailConfig.dmarc <==> exists i :: 0 <= i < |d.txt| && Contains(d.txt[i], "v=DMARC1")
  {
    var records := if mx.Some? then SortBy(mx.value, MxPriority) else [];
    var strings := if txt.Some? then Flatten(txt.value) else [];
    var spf, dmarc := false, false;
    var i := 0;
    while i < |strings|
      invariant 0 <= i <= |strings|
      invariant spf <==> exists j :: 0 <= j < i && Contains(strings[j], "v=spf1")
      invariant dmarc <==> exists j :: 0 <= j < i && Contains(strings[j], "v=DMARC1")
    {
      if Contains(strings[i], "v=spf1") {
        spf := true;
      }
      if Contains(strings[i], "v=DMARC1") {
        dmarc := true;
      }
      i := i + 1;
    }
    d := DnsDetails(records, strings, MailConfig(spf, dmarc));
  }

  // ---- security headers (488-507, 739-742) ----

  /** The answer to a HEAD request: its status, single-valued headers by
      lower-case name, and the `set-cookie` list when present. */
  datatype HeadResponse = HeadResponse(status: nat, headers: map<string, string>, cookies: Option<seq<string>>)

  /** axios's default `validateStatus`: a status outside 2xx makes the request
      throw. */
  predicate Resolved(res: Option<HeadResponse>) {
    res.Some? && 200 <= res.value.status < 300
  }

  /** `!!h[name]`: the header is present and non-empty. */
  predicate HasHeader(h: HeadResponse, name: string) {
    name in h.headers && h.headers[name] != ""
  }

  datatype HeaderFlags = HeaderFlags(xss: bool, contentType: bool, frameOptions: bool, hsts: bool)

  datatype SecurityAudit = SecurityAudit(
    cookies: nat, secureCookies: bool, headers: Option<HeaderFlags>, server: string, geo: string)

  /** Some cookie's lower-cased text mentions `secure`. */
  function AnySecure(cookies: seq<string>): (b: bool)
    ensures b <==> exists i :: 0 <= i < |cookies| && Contains(ToLower(cookies[i]), "secure")
  {
    if |cookies| == 0 then false
    else
      assert forall i :: 1 <= i < |cookies| ==> cookies[i] == cookies[1..][i - 1];
      Contains(ToLower(cookies[0]), "secure") || AnySecure(cookies[1..])
  }

  /** `auditSecurityHeaders`: a request that threw, including one answered
      outside 2xx, yields no cookies, no header flags and an unknown server and
      location. */
  function AuditSecurityHeaders(res: Option<HeadResponse>): (a: SecurityAudit)
    ensures a.headers.Some? <==> Resolved(res)
    ensures !Resolved(res) ==> a.cookies == 0 && !a.secureCookies && a.server == "Unknown" && a.geo == "Unknown"
    ensures Resolved(res) && res.value.cookies.Some? ==> a.cookies == |res.value.cookies.value|
    ensures a.secureCookies ==> a.cookies > 0
    ensures a.secureCookies <==> (Resolved(res) && res.value.cookies.Some?
      && exists i :: 0 <= i < |res.value.cookies.value| && Contains(ToLower(res.value.cookies.value[i]), "secure"))
    ensures Resolved(res) ==>
      && (a.headers.value.xss <==> HasHeader(res.value, "x-xss-protection"))
      && (a.headers.value.contentType <==> HasHeader(res.value, "x-content-type-options"))
      && (a.headers.value.frameOptions <==> HasHeader(res.value, "x-frame-options"))
      && (a.headers.value.hsts <==> HasHeader(res.value, "strict-transport-security"))
    ensures a.server != ""
    ensures Resolved(res) && HasHeader(res.value, "server") ==> a.server == res.value.headers["server"]
  {
    if !Resolved(res) then SecurityAudit(0, false, None, "Unknown", "Unknown")
    else
      var h := res.value;
      var cookies := if h.cookies.Some? then h.cookies.value else [];
      SecurityAudit(
        |cookies|,
        h.cookies.Some? && AnySecure(cookies),
        Some(HeaderFlags(HasHeader(h, "x-xss-protection"), HasHeader(h, "x-content-type-options"),
          HasHeader(h, "x-frame-options"), HasHeader(h, "strict-transport-security"))),
        if HasHeader(h, "server") then h.headers["server"] else "Unknown",
        "US (Detected)")
  }

  // ---- TLS certificate and security info (706-749) ----

  const MillisPerDay: nat := 1000 * 60 * 60 * 24

  /** `Math.floor((validTo - now) / 86400000)` */
  function DaysRemaining(validTo: int, now: int): (days: int)
    ensures days * MillisPerDay <= validTo - now < (days + 1) * MillisPerDay
    ensures validTo < now ==> days < 0
    ensures validTo >= now ==> days >= 0
  {
    (validTo - now) / MillisPerDay
  }

  /** The peer certificate: its expiry in epoch milliseconds, if it has one,
      and its issuer's organisation and common name. */
  datatype Certificate = Certificate(validTo: Option<int>, issuerO: Option<string>, issuerCN: Option<string>)

  datatype Ssl = Ssl(valid: bool, daysRemaining: int, issuer: string)

  datatype SecurityInfo = SecurityInfo(ip: string, ssl: Ssl, xFrame: bool, hsts: bool, serverLocation: string)

  const NoSsl: Ssl := Ssl(false, 0, "Unknown")

  /** The certificate block: valid exactly when the certificate has an
      expiry, with the whole days left, rounded down, and the issuer's
      organisation, else its common name, else `Unknown`. */
  function SslOf(cert: Option<Certificate>, now: int): (s: Ssl)
    ensures s.valid <==> cert.Some? && cert.value.validTo.Some?
    ensures s.valid ==> (s.daysRemaining < 0 <==> cert.value.validTo.value < now)
    ensures s.valid ==>
      s.daysRemaining * MillisPerDay <= cert.value.validTo.value - now < (s.daysRemaining + 1) * MillisPerDay
    ensures s.issuer != ""
    ensures s.valid && cert.value.issuerO.Some? && cert.value.issuerO.value != "" ==> s.issuer == cert.value.issuerO.value
    ensures (s.valid && (cert.value.issuerO.None? || cert.value.issuerO.value == "")
      && cert.value.issuerCN.Some? && cert.value.issuerCN.value != "") ==> s.issuer == cert.value.issuerCN.value
    ensures !s.valid ==> s == NoSsl
  {
    if cert.Some? && cert.value.validTo.Some? then
      Ssl(true, DaysRemaining(cert.value.validTo.value, now),
        OrDefault(cert.value.issuerO, OrDefault(cert.value.issuerCN, "Unknown")))
    else NoSsl
  }

  /** `getSecurityInfo`. The steps run in order inside one `try`: an unparsable
      url or a failed address lookup skips everything after it; a failed TLS
      handshake only leaves the certificate unknown; a HEAD request without an
      answer only leaves the header flags false. The HEAD request accepts every
      status, so the headers of a 4xx or 5xx answer are read too.

      `cert` is the certificate of a handshake that succeeded. The handshake
      verifies the chain (`rejectUnauthorized` is left at its default), so an
      expired or untrusted certificate never arrives: it is `None`. */
  function GetSecurityInfo(
    hostname: Option<string>, address: Option<string>, cert: Option<Certificate>, now: int,
    head: Option<HeadResponse>): (info: SecurityInfo)
    ensures hostname.None? || address.None? ==> info == SecurityInfo("Unknown", NoSsl, false, false, "Unknown")
    ensures hostname.Some? && address.Some? ==> info.ip == address.value && info.ssl == SslOf(cert, now)
    ensures info.hsts <==> (hostname.Some? && address.Some? && head.Some?
      && HasHeader(head.value, "strict-transport-security"))
    ensures info.xFrame <==> (hostname.Some? && address.Some? && head.Some?
      && (HasHeader(head.value, "x-frame-options") || HasHeader(head.value, "content-security-policy")))
    ensures info.ssl.valid ==> (info.ssl.daysRemaining < 0 <==> cert.value.validTo.value < now)
    ensures info.serverLocation == "Unknown"
  {
    if hostname.None? || address.None? then SecurityInfo("Unknown", NoSsl, false, false, "Unknown")
    else
      var ssl := SslOf(cert, now);
      var xFrame := head.Some? && (HasHeader(head.value, "x-frame-options") || HasHeader(head.value, "content-security-policy"));
      var hsts := head.Some? && HasHeader(head.value, "strict-transport-security");
      SecurityInfo(address.value, ssl, xFrame, hsts, "Unknown")
  }

  /** On a 2xx answer the two probes agree: the HSTS flag is the audit's, and
      the x-frame flag is the audit's frame-options flag or a CSP header. */
  lemma SecurityFlagsAgreeOn2xx(hostname: string, address: string, cert: Option<Certificate>, now: int, head: Option<HeadResponse>)
    requires Resolved(head)
    ensures var info := GetSecurityInfo(Some(hostname), Some(address), cert, now, head);
      var flags := AuditSecurityHeaders(head).headers.value;
      && (info.hsts <==> flags.hsts)
      && (info.xFrame <==> flags.frameOptions || HasHeader(head.value, "content-security-policy"))
  {
  }

  /** Outside 2xx they can disagree: a site answering HEAD with 405 and an
      HSTS header is reported with HSTS by the security probe, while the
      header audit reports no header flags at all. */
  lemma SecurityFlagsDisagreeOn405(hostname: string, address: string, cert: Option<Certificate>, now: int)
    ensures var head := Some(HeadResponse(405, map["strict-transport-security" := "max-age=63072000"], None));
      && GetSecurityInfo(Some(hostname), Some(address), cert, now, head).hsts
      && AuditSecurityHeaders(head).headers.None?
  {
  }

  // ---- broken links (399, 476-486) ----

  /** A link is broken when its HEAD request failed with a response whose status
      is 400 or more; a failure without a response (network error, timeout) does
      not count. `status` is `None` when there was no response. */
  predicate Broken(status: Option<nat>) {
    status.Some? && status.value >= 400
  }

  const BrokenCheckLimit: nat := 5

  /** `checkBrokenLinks` over the first five distinct links. The requests run
      concurrently and push in completion order, so only the multiset of broken
      links is determined. */
  method CheckBrokenLinks(unique: seq<string>, probe: string -> Option<nat>) returns (broken: multiset<string>)
    ensures forall u :: broken[u] == (if Broken(probe(u)) then multiset(Take(unique, BrokenCheckLimit))[u] else 0)
    ensures |broken| <= BrokenCheckLimit
  {
    var urls := Take(unique, BrokenCheckLimit);
    broken := multiset{};
    var i := 0;
    while i < |urls|
      invariant 0 <= i <= |urls|
      invariant forall u :: broken[u] == (if Broken(probe(u)) then multiset(urls[..i])[u] else 0)
      invariant |broken| <= i
    {
      assert urls[..i + 1] == urls[..i] + [urls[i]];
      if Broken(probe(urls[i])) {
        broken := broken + multiset{urls[i]};
      }
      i := i + 1;
    }
    assert urls[..i] == urls;
  }
}

=== FILE: scan_links.dfy ===
/** The link harvester route (src/app/api/scan-links/route.ts): collect the
    absolute links of a fetched page, drop repeats and keep the first fifty.

    The fetch and the HTML parse are one input: `None` when either failed (a
    missing or malformed url included), otherwise the `href` attribute of every
    `<a>`, in document order. Resolution against the page url is the parameter
    `resolve`; `None` is a thrown resolution error. */
module ScanLinks {
  import opened Base

  /** The link an `href` contributes: one starting with `http` verbatim, one
      starting with `/` resolved; nothing for any other or a missing href. */
  function Kept(href: Option<string>, resolve: string -> Option<string>): Option<string> {
    if href.Some? && href.value != "" && StartsWith(href.value, "http") then Some(href.value)
    else if href.Some? && href.value != "" && StartsWith(href.value, "/") then resolve(href.value)
    else None
  }

  /** The `links` array built by the `each` loop. */
  function Harvest(hrefs: seq<Option<string>>, resolve: string -> Option<string>): (r: seq<string>)
    ensures |r| <= |hrefs|
    ensures forall i :: 0 <= i < |r| ==> exists j :: 0 <= j < |hrefs| && Kept(hrefs[j], resolve) == Some(r[i])
    ensures forall j :: 0 <= j < |hrefs| && Kept(hrefs[j], resolve).Some? ==> Kept(hrefs[j], resolve).value in r
  {
    if |hrefs| == 0 then []
    else
      var n := |hrefs| - 1;
      assert forall j :: 0 <= j < n ==> hrefs[..n][j] == hrefs[j];
      var k := Kept(hrefs[n], resolve);
      Harvest(hrefs[..n], resolve) + (if k.Some? then [k.value] else [])
  }

  /** Harvesting a document in two parts harvests each part in turn. */
  lemma {:induction false} HarvestAppend(a: seq<Option<string>>, b: seq<Option<string>>, resolve: string -> Option<string>)
    ensures Harvest(a + b, resolve) == Harvest(a, resolve) + Harvest(b, resolve)
    decreases |b|
  {
    if |b| == 0 {
      assert a + b == a;
    } else {
      var n := |b| - 1;
      assert (a + b)[..|a| + n] == a + b[..n];
      assert (a + b)[|a| + n] == b[n];
      HarvestAppend(a, b[..n], resolve);
    }
  }

  /** An href that is neither absolute nor root-relative, or that fails to
      resolve, contributes nothing; the others contribute exactly one link. */
  lemma HarvestOne(href: Option<string>, resolve: string -> Option<string>)
    ensures Harvest([href], resolve) == (if Kept(href, resolve).Some? then [Kept(href, resolve).value] else [])
    ensures href.Some? && StartsWith(href.value, "http") ==> Harvest([href], resolve) == [href.value]
    ensures href.None? || (!StartsWith(href.value, "http") && !StartsWith(href.value, "/")) ==> Harvest([href], resolve) == []
  {
    assert [href][..0] == [];
  }

  datatype Response = Failure(status: nat) | Links(links: seq<string>)

  const Cap: nat := 50

  /** `Array.from(new Set(links)).slice(0, 50)`, or status 500 when the page
      could not be fetched or parsed. */
  function ScanLinks(page: Option<seq<Option<string>>>, resolve: string -> Option<string>): (r: Response)
    ensures page.None? <==> r == Failure(500)
    ensures page.Some? ==> (
      var distinct := Dedup(Harvest(page.value, resolve));
      && r.Links?
      && NoDups(r.links)
      && |r.links| == (if |distinct| <= Cap then |distinct| else Cap)
      && r.links == distinct[..|r.links|])
  {
    if page.None? then Failure(500)
    else Links(Take(Dedup(Harvest(page.value, resolve)), Cap))
  }

  /** A prefix of a deduplication keeps its guarantees; the whole of it
      covers the original. */
  lemma DedupPrefix<T>(all: seq<T>, d: seq<T>, m: nat)
    requires IsDedupOf(d, all) && m <= |d|
    ensures forall i :: 0 <= i < m ==> d[..m][i] in all
    ensures forall i, j :: 0 <= i < j < m ==> FirstIndex(all, d[..m][i]) < FirstIndex(all, d[..m][j])
    ensures m == |d| ==> forall u :: u in all ==> u in d[..m]
  {
    assert forall i :: 0 <= i < m ==> d[..m][i] == d[i];
    if m == |d| {
      assert d[..m] == d;
      forall u | u in all ensures u in d {
        var k :| 0 <= k < |all| && all[k] == u;
      }
    }
  }

  /** The returned links are harvested links in first-occurrence order; when
      there are at most fifty distinct ones, every harvested link is returned. */
  lemma ScanLinksContents(hrefs: seq<Option<string>>, resolve: string -> Option<string>)
    ensures var out := ScanLinks(Some(hrefs), resolve).links;
      var all := Harvest(hrefs, resolve);
      && (forall i :: 0 <= i < |out| ==> out[i] in all)
      && (forall i, j :: 0 <= i < j < |out| ==> FirstIndex(all, out[i]) < FirstIndex(all, out[j]))
      && (|Dedup(all)| <= Cap ==> forall u :: u in all ==> u in out)
  {
    var all := Harvest(hrefs, resolve);
    var d := Dedup(all);
    var out := ScanLinks(Some(hrefs), resolve).links;
    assert out == d[..|out|];
    DedupPrefix(all, d, |out|);
  }
}

=== FILE: scanner.dfy ===
/** The page-analysis route (src/app/api/analyze/route.ts): the record the
    scanner `runUltimateScanner` assembles from a fetched page, and the POST
    handler that scores it, lists its issues and derives the index status.

    The fetch, the HTML parser and every probe are outside the model: a fetched
    page arrives as the values the parser's selectors return, with the probe
    results already folded in, and URL resolution against the page is a partial
    function parameter. */
module Scanner {
  import opened Base
  import opened Issues
  import opened PageModel
  import opened Keywords
  import opened Scoring
  import opened Mechanical
  import opened Lighthouse
  import opened Links
  import opened Content
  import opened Probes

  /** What the selectors read from a fetched page. `title`, `description` and
      `h1` are the trimmed values after their fallbacks; `bodyText` is the body
      text with whitespace runs collapsed, before the SPA fallback; `sitemap` is
      the result of the robots.txt and sitemap probe. */
  datatype FetchedPage = FetchedPage(
    title: string,
    description: string,
    h1: string,
    headings: seq<HeadingElem>,
    metaTags: MetaTags,
    images: seq<ImgElem>,
    bodyText: string,
    anchors: seq<Anchor>,
    hostname: string,
    server: Option<string>,
    html: string,
    sitemap: SitemapResult)

  /** The pieces keyword counting starts from. */
  function PagePieces(p: FetchedPage): seq<string> {
    Pieces(BodyText(p.bodyText, p.description, p.title))
  }

  /** The values the extractors derive from a fetched page. */
  datatype Signals = Signals(
    headings: seq<Heading>,
    wordCount: nat,
    keywords: seq<Keyword>,
    images: seq<Image>,
    techStack: seq<string>,
    internalLinks: nat)

  /** The extractors run over a fetched page: at most twenty images, the top
      keywords of the page's long words, and the number of distinct resolved
      links that contain the host name. */
  function Extract(p: FetchedPage, resolve: string -> Option<string>): (s: Signals)
    ensures |s.images| <= ImageLimit
    ensures s.wordCount == |LongWords(PagePieces(p))|
    ensures s.keywords == TopKeywords(PagePieces(p))
    ensures forall i :: 0 <= i < |s.keywords| ==> s.keywords[i].density10 == Density10(s.keywords[i].count, s.wordCount)
    ensures var w := ProfileLinks(p.anchors, p.hostname, resolve);
      && s.internalLinks == CountIf(w.seen, u => Internal(p.hostname, u))
      && s.internalLinks <= |Dedup(Urls(Candidates(p.anchors, resolve)))|
  {
    var pieces := PagePieces(p);
    var w := ProfileLinks(p.anchors, p.hostname, resolve);
    var us := Urls(Candidates(p.anchors, resolve));
    DedupMembers(us);
    NoDupsShorter(w.seen, Dedup(us));
    Signals(
      ExtractHeadings(p.headings),
      |LongWords(pieces)|,
      TopKeywords(pieces),
      ExtractImages(p.images, resolve),
      TechStack(p.server, p.html),
      w.profile.internal)
  }

  /** The scanner's record for a fetched page and its signals. */
  function Assemble(p: FetchedPage, s: Signals): PageData {
    PageData(None, p.title, p.description, p.h1, s.headings, Some(p.metaTags), Some(s.wordCount),
      s.keywords, Some(s.images), s.techStack, ResourcesOf(p.sitemap), s.internalLinks)
  }

  /** `runUltimateScanner`: the failure sentinel when the fetch failed, else the
      record assembled from the page's signals. */
  function Scan(page: Option<FetchedPage>, resolve: string -> Option<string>): (d: PageData)
    ensures d.url.None?
    ensures page.None? <==> d.wordCount.None?
  {
    match page
    case None => FailedScan
    case Some(p) => Assemble(p, Extract(p, resolve))
  }

  /** Over keywords whose densities are taken against `n` words, the stuffing
      rule fires exactly for a word that makes up at least 5.05 % of them. */
  lemma StuffingByCount(d: PageData, n: nat)
    requires forall i :: 0 <= i < |d.keywords| ==> d.keywords[i].density10 == Density10(d.keywords[i].count, n)
    ensures Raised(GenerateMechanicalSuggestions(d), Content, High, KeywordStuffingDetected) <==>
      exists i :: 0 <= i < |d.keywords| && 2000 * d.keywords[i].count >= 101 * (if n == 0 then 1 else n)
  {
    StuffingRuleFires(d);
    forall i | 0 <= i < |d.keywords|
      ensures d.keywords[i].density10 > 50 <==> 2000 * d.keywords[i].count >= 101 * (if n == 0 then 1 else n)
    {
      StuffingThreshold(d.keywords[i].count, n);
    }
  }

  /** On a record assembled from a page's signals, the stuffing rule fires
      exactly for a keyword that makes up at least 5.05 % of the page's long
      words. */
  lemma ScanStuffing(p: FetchedPage, s: Signals)
    requires forall i :: 0 <= i < |s.keywords| ==> s.keywords[i].density10 == Density10(s.keywords[i].count, s.wordCount)
    ensures Raised(GenerateMechanicalSuggestions(Assemble(p, s)), Content, High, KeywordStuffingDetected) <==>
      exists i :: 0 <= i < |s.keywords| && 2000 * s.keywords[i].count >= 101 * (if s.wordCount == 0 then 1 else s.wordCount)
  {
    StuffingByCount(Assemble(p, s), s.wordCount);
  }

  /** A record without a url never draws the HTTPS issue, and its canonical
      rule reports a mismatch for every non-empty canonical: the scanner's
      record has no url to compare with. */
  lemma ScanCallSiteQuirks(d: PageData)
    requires d.url.None?
    ensures !Raised(GenerateMechanicalSuggestions(d), Security, Critical, NotUsingHttps)
    ensures d.metaTags.Some? ==>
      (Raised(GenerateMechanicalSuggestions(d), SEO, Low, CanonicalMismatch) <==> d.metaTags.value.canonical != "")
  {
    HttpsRuleFires(d);
    CanonicalRuleFires(d);
  }

  /** With at most twenty images on the record, the alt-text issue lists at
      most twenty sources. */
  lemma ScanAltText(p: FetchedPage, s: Signals, i: nat)
    requires |s.images| <= ImageLimit
    requires i < |GenerateMechanicalSuggestions(Assemble(p, s))|
    requires GenerateMechanicalSuggestions(Assemble(p, s))[i].title == MissingAltText
    ensures var x := GenerateMechanicalSuggestions(Assemble(p, s))[i];
      x.items.Some? && |x.items.value| <= ImageLimit
  {
    var d := Assemble(p, s);
    AltTextListsImages(d, i);
    assert |Sources(MissingAlt(d.images.value))| == |MissingAlt(d.images.value)|;
  }

  // ---- the POST handler ----

  /** The request's optional `lighthouseData`: its `categories` (each score
      possibly null), its `audits`, and the `details.title` and
      `details.description` of the document-title and meta-description audits. */
  datatype Report = Report(
    categories: Option<map<string, Option<real>>>,
    audits: Option<Audits>,
    titleDetail: Option<string>,
    descriptionDetail: Option<string>)

  datatype Analysis = Analysis(
    score: int,
    scores: Scores,
    issues: seq<Issue>,
    summary: string,
    indexStatus: IndexStatus,
    title: string,
    description: string)

  /** 400 for a missing url, 500 for anything the handler throws, else the
      analysis. */
  datatype Outcome = BadRequest | ServerError | Success(analysis: Analysis)

  const LocalSummary: string := "Scan based on local analysis."

  /** `detail || fallback` */
  function Prefer(detail: Option<string>, fallback: string): string {
    if detail.Some? && detail.value != "" then detail.value else fallback
  }

  /** The POST handler for a request url, an optional report, the scanner's
      record and the generated summary, if the model produced one. A report
      without audits makes the handler throw: both modes read `audits` of it. */
  function Analyze(url: Option<string>, report: Option<Report>, local: PageData, generated: Option<string>): (r: Outcome)
    ensures r.BadRequest? <==> url.None? || url.value == ""
    ensures r.ServerError? <==> url.Some? && url.value != "" && report.Some? && report.value.audits.None?
    ensures r.Success? ==> (
      && r.analysis.score == r.analysis.scores.seo
      && r.analysis.indexStatus == ComputeIndexStatus(local)
      && (generated.Some? ==> r.analysis.summary == generated.value))
  {
    if url.None? || url.value == "" then BadRequest
    else if report.Some? && report.value.audits.None? then ServerError
    else
      var external := report.Some? && report.value.categories.Some?;
      var scores := if external then LighthouseScores(report.value.categories.value) else CalculateScores(local);
      var issues := if external then ExtractLighthouseIssues(report.value.audits.value) else GenerateMechanicalSuggestions(local);
      var summary :=
        if generated.Some? then generated.value
        else if report.Some? then GenerateSummary(scores)
        else LocalSummary;
      var title := if report.Some? then Prefer(report.value.titleDetail, local.title) else local.title;
      var description := if report.Some? then Prefer(report.value.descriptionDetail, local.description) else local.description;
      Success(Analysis(scores.seo, scores, issues, summary, ComputeIndexStatus(local), title, description))
  }

  /** External-audit mode: a report with categories and audits decides the
      scores and the issues; the scanner's record only feeds the index status. */
  lemma ExternalMode(url: string, report: Report, local: PageData, generated: Option<string>)
    requires url != "" && report.categories.Some? && report.audits.Some?
    ensures var r := Analyze(Some(url), Some(report), local, generated);
      && r.Success?
      && r.analysis.scores == LighthouseScores(report.categories.value)
      && r.analysis.issues == ExtractLighthouseIssues(report.audits.value)
      && |r.analysis.issues| <= 9
      && (generated.None? ==> (r.analysis.summary == "Excellent performance." <==>
            CategoryScore(report.categories.value, "seo") + CategoryScore(report.categories.value, "performance") > 180))
  {
    LighthouseShape(report.audits.value);
  }

  /** Mechanical mode: without categories the record is scored and checked by
      the eleven rules; the SEO score lies in [35, 100] and the summary is the
      fixed local one unless a report (without categories) or a generated
      summary was given. */
  lemma MechanicalMode(url: string, report: Option<Report>, local: PageData, generated: Option<string>)
    requires url != "" && (report.None? || (report.value.categories.None? && report.value.audits.Some?))
    ensures var r := Analyze(Some(url), report, local, generated);
      && r.Success?
      && r.analysis.scores == CalculateScores(local)
      && 35 <= r.analysis.score <= 100
      && r.analysis.issues == GenerateMechanicalSuggestions(local)
      && |r.analysis.issues| <= 11
      && (generated.None? && report.None? ==> r.analysis.summary == LocalSummary)
  {
    MechanicalShape(local);
  }

  /** A scanned page analysed without a report never gets the HTTPS issue. */
  lemma LocalAnalysisNeverHttps(url: string, local: PageData, generated: Option<string>)
    requires url != "" && local.url.None?
    ensures var r := Analyze(Some(url), None, local, generated);
      r.Success? && !Raised(r.analysis.issues, Security, Critical, NotUsingHttps)
  {
    ScanCallSiteQuirks(local);
  }

  /** A page that could not be fetched, analysed without a report: SEO score
      35, the four issues of the failure sentinel, and a non-indexable page
      blocked by the missing robots.txt with one estimated page. */
  lemma FailedFetchAnalysis(url: string, resolve: string -> Option<string>)
    requires url != ""
    ensures var r := Analyze(Some(url), None, Scan(None, resolve), None);
      && r.Success?
      && r.analysis.score == 35
      && r.analysis.scores == Scores(35, 70, 80, 80)
      && r.analysis.summary == LocalSummary
      && |r.analysis.issues| == 4
      && r.analysis.issues[0].title == MissingTitleTag
      && r.analysis.indexStatus == IndexStatus(false, MissingRobots, 1, 0)
  {
    FailedScanIssues();
    assert ComputeIndexStatus(FailedScan) == IndexStatus(false, MissingRobots, 1, 0);
    assert CalculateScores(FailedScan) == Scores(35, 70, 80, 80);
  }

  /** With a report, a non-empty title detail replaces the scanned title, and
      an empty or missing one keeps it. */
  lemma TitleOverride(url: string, report: Report, local: PageData, generated: Option<string>)
    requires url != "" && report.audits.Some?
    ensures var r := Analyze(Some(url), Some(report), local, generated);
      && r.Success?
      && (report.titleDetail.Some? && report.titleDetail.value != "" ==> r.analysis.title == report.titleDetail.value)
      && (report.titleDetail.None? || report.titleDetail.value == "" ==> r.analysis.title == local.title)
  {
  }
}

=== FILE: scoring.dfy ===
/** The four category scores of the analysis route: the mechanical baseline
    with its SEO deductions (`calculateScores`), the rescaling of an external
    Lighthouse report's category scores, and the one-line verdict
    (`generateSummary`). */
module Scoring {
  import opened Base
  import opened PageModel

  datatype Scores = Scores(seo: int, performance: int, accessibility: int, bestPractices: int)

  function Penalty(applies: bool, points: nat): nat {
    if applies then points else 0
  }

  /** SEO starts at 100 and loses 30 for a missing title, 20 for a missing
      description and 15 for a missing H1, floored at 0; the other three
      categories are fixed. */
  function CalculateScores(d: PageData): (r: Scores)
    ensures r.seo == 100 - Penalty(d.title == "", 30) - Penalty(d.description == "", 20) - Penalty(d.h1 == "", 15)
    ensures 35 <= r.seo <= 100
    ensures r.seo == 100 <==> d.title != "" && d.description != "" && d.h1 != ""
    ensures r.performance == 70 && r.accessibility == 80 && r.bestPractices == 80
  {
    var seo := 100;
    var seo := if d.title == "" then seo - 30 else seo;
    var seo := if d.description == "" then seo - 20 else seo;
    var seo := if d.h1 == "" then seo - 15 else seo;
    Scores(if seo < 0 then 0 else seo, 70, 80, 80)
  }

  /** `Math.round(x)`: the nearest integer, halves rounded up. */
  function Round(x: real): (r: int)
    ensures r as real - 0.5 <= x < r as real + 0.5
  {
    (x + 0.5).Floor
  }

  /** `Math.round((categories[name]?.score || 0) * 100)`: a missing category or a
      null score counts as 0. */
  function CategoryScore(categories: map<string, Option<real>>, name: string): (r: int)
    ensures name !in categories || categories[name].None? ==> r == 0
    ensures name in categories && categories[name].Some? ==>
      r as real - 0.5 <= 100.0 * categories[name].value < r as real + 0.5
    ensures name in categories && categories[name].Some? && 0.0 <= categories[name].value <= 1.0 ==> 0 <= r <= 100
  {
    var score := if name in categories && categories[name].Some? then categories[name].value else 0.0;
    Round(score * 100.0)
  }

  /** The scores of external-audit mode. */
  function LighthouseScores(categories: map<string, Option<real>>): Scores {
    Scores(
      CategoryScore(categories, "seo"),
      CategoryScore(categories, "performance"),
      CategoryScore(categories, "accessibility"),
      CategoryScore(categories, "best-practices"))
  }

  /** The verdict on the mean of the SEO and performance scores: above 90,
      above 70, or neither. */
  function GenerateSummary(s: Scores): (r: string)
    ensures r == "Excellent performance." <==> s.seo + s.performance > 180
    ensures r == "Good performance." <==> 140 < s.seo + s.performance <= 180
    ensures r == "Improvements needed." <==> s.seo + s.performance <= 140
  {
    var avg := (s.seo + s.performance) as real / 2.0;
    if avg > 90.0 then "Excellent performance."
    else if avg > 70.0 then "Good performance."
    else "Improvements needed."
  }
}

=== FILE: text.dfy ===
/** The string operations of the page scanner's text pipeline: JavaScript's
    `\w` and `\s` character classes, `trim`, `split` on one character and its
    inverse `join`, and `repeat`. */
module Text {
  import opened Base

  /** `\w`: an ASCII letter, digit or underscore. */
  predicate IsWordChar(c: char) {
    ('a' <= c <= 'z') || ('A' <= c <= 'Z') || ('0' <= c <= '9') || c == '_'
  }

  /** `\s`: the white space and line terminators of ECMAScript. */
  predicate IsSpace(c: char) {
    c == ' ' || c == '\t' || c == '\n' || c == '\r' || c == '\U{B}' || c == '\U{C}'
    || c == '\U{A0}' || c == '\U{1680}' || ('\U{2000}' <= c <= '\U{200A}')
    || c == '\U{2028}' || c == '\U{2029}' || c == '\U{202F}' || c == '\U{205F}' || c == '\U{3000}' || c == '\U{FEFF}'
  }

  /** `s.trim()`: the longest infix of `s` that neither starts nor ends with
      white space; everything cut off is white space. */
  function Trim(s: string): (r: string)
    ensures exists a, b :: (
      && 0 <= a <= b <= |s| && r == s[a..b]
      && (forall i :: 0 <= i < a ==> IsSpace(s[i]))
      && (forall i :: b <= i < |s| ==> IsSpace(s[i])))
    ensures |r| > 0 ==> !IsSpace(r[0]) && !IsSpace(r[|r| - 1])
  {
    var b := TrimEndIndex(s, |s|);
    var a := TrimStartIndex(s, 0, b);
    s[a..b]
  }

  function TrimEndIndex(s: string, b: nat): (e: nat)
    requires b <= |s|
    ensures e <= b && (forall i :: e <= i < b ==> IsSpace(s[i])) && (e > 0 ==> !IsSpace(s[e - 1]))
  {
    if b == 0 || !IsSpace(s[b - 1]) then b else TrimEndIndex(s, b - 1)
  }

  function TrimStartIndex(s: string, a: nat, b: nat): (e: nat)
    requires a <= b <= |s|
    ensures a <= e <= b && (forall i :: a <= i < e ==> IsSpace(s[i])) && (e < b ==> !IsSpace(s[e]))
    decreases b - a
  {
    if a == b || !IsSpace(s[a]) then a else TrimStartIndex(s, a + 1, b)
  }

  /** `parts.join(sep)` */
  function Join(parts: seq<string>, sep: char): string
    requires |parts| >= 1
  {
    if |parts| == 1 then parts[0] else Join(parts[..|parts| - 1], sep) + [sep] + parts[|parts| - 1]
  }

  /** `s.split(sep)`: the maximal pieces between separators, one more than
      there are separators; the empty string gives one empty piece. */
  function Split(s: string, sep: char): (r: seq<string>)
    ensures |r| >= 1
    ensures forall i :: 0 <= i < |r| ==> sep !in r[i]
    ensures Join(r, sep) == s
  {
    if |s| == 0 then [""]
    else
      var n := |s| - 1;
      var init := Split(s[..n], sep);
      assert s == s[..n] + [s[n]];
      if s[n] == sep then init + [""]
      else
        var k := |init| - 1;
        var r := init[..k] + [init[k] + [s[n]]];
        assert r[..k] == init[..k];
        r
  }

  /** Splitting undoes joining pieces that contain no separator. */
  lemma {:induction false} SplitJoin(parts: seq<string>, sep: char)
    requires |parts| >= 1
    requires forall i :: 0 <= i < |parts| ==> sep !in parts[i]
    ensures Split(Join(parts, sep), sep) == parts
  {
    var n := |parts| - 1;
    if n == 0 {
      SplitNoSep(parts[0], sep);
    } else {
      var init := parts[..n];
      assert Join(parts, sep) == Join(init, sep) + [sep] + parts[n];
      assert forall i :: 0 <= i < |init| ==> init[i] == parts[i];
      SplitJoin(init, sep);
      SplitAfterSep(Join(init, sep), parts[n], sep);
      assert parts == init + [parts[n]];
    }
  }

  lemma {:induction false} SplitNoSep(s: string, sep: char)
    requires sep !in s
    ensures Split(s, sep) == [s]
  {
    if |s| > 0 {
      var n := |s| - 1;
      SplitNoSep(s[..n], sep);
      assert s == s[..n] + [s[n]];
    }
  }

  /** Appending a character other than the separator extends the last piece. */
  lemma SplitSnoc(t: string, c: char, sep: char)
    requires c != sep
    ensures var p := Split(t, sep); Split(t + [c], sep) == p[..|p| - 1] + [p[|p| - 1] + [c]]
  {
    assert (t + [c])[..|t|] == t;
  }

  /** Appending the separator starts a new, empty piece. */
  lemma SplitSnocSep(t: string, sep: char)
    ensures Split(t + [sep], sep) == Split(t, sep) + [""]
  {
    assert (t + [sep])[..|t|] == t;
  }

  lemma {:induction false} SplitAfterSep(x: string, y: string, sep: char)
    requires sep !in y
    ensures Split(x + [sep] + y, sep) == Split(x, sep) + [y]
  {
    if |y| == 0 {
      assert x + [sep] + y == x + [sep];
      SplitSnocSep(x, sep);
    } else {
      var n := |y| - 1;
      var t := x + [sep] + y[..n];
      assert x + [sep] + y == t + [y[n]];
      assert y[n] in y;
      SplitAfterSep(x, y[..n], sep);
      SplitSnoc(t, y[n], sep);
      assert y[..n] + [y[n]] == y;
      assert (Split(x, sep) + [y[..n]])[..|Split(x, sep)|] == Split(x, sep);
    }
  }

  /** `s.repeat(k)` */
  function Repeat(s: string, k: nat): (r: string)
    ensures |r| == k * |s|
  {
    if k == 0 then "" else Repeat(s, k - 1) + s
  }

  /** The copies can be peeled off from the front as well as from the back. */
  lemma {:induction false} RepeatFront(s: string, k: nat)
    requires k > 0
    ensures Repeat(s, k) == s + Repeat(s, k - 1)
  {
    if k == 1 {
      assert Repeat(s, 1) == Repeat(s, 0) + s;
    } else {
      var p := Repeat(s, k - 2);
      RepeatFront(s, k - 1);
      assert Repeat(s, k) == (s + p) + s;
      assert Repeat(s, k - 1) == p + s;
    }
  }

  /** The pieces of a text inside the Basic Multilingual Plane are inside it
      too. */
  lemma PiecesInBmp(parts: seq<string>, sep: char, i: nat)
    requires |parts| >= 1 && i < |parts| && InBmp(Join(parts, sep))
    ensures InBmp(parts[i])
  {
    forall j | 0 <= j < |parts[i]|
      ensures parts[i][j] as int < 0x1_0000
    {
      JoinHasPieces(parts, sep, i, j);
    }
  }

  /** Every character of a piece occurs in the joined text. */
  lemma {:induction false} JoinHasPieces(parts: seq<string>, sep: char, i: nat, j: nat)
    requires |parts| >= 1 && i < |parts| && j < |parts[i]|
    ensures parts[i][j] in Join(parts, sep)
  {
    var n := |parts| - 1;
    if n > 0 {
      var init := parts[..n];
      assert Join(parts, sep) == Join(init, sep) + [sep] + parts[n];
      if i < n {
        assert init[i] == parts[i];
        JoinHasPieces(init, sep, i, j);
      }
    }
  }
}
